=== FILE: README.md ===
# dataplug-cli decision rules in Dafny

This project models the decision rules inside dataplug-cli, a command-line tool that streams JSON records between collections. The tool's plumbing is left out. The model covers these parts:

- **Configuration declarations to options.** A collection declares its parameters, and each becomes a command-line option. A camelCase name becomes a dashed option name. Fields are copied only when truthy. `integer` becomes `number`. A coercion checks and converts each raw value, element by element for arrays. The older helper in `lib/helpers.js` does the same mapping without coercion. Modules: `ConfigDeclaration`, `Helpers`.
- **Per-record decisions and counters.** A record's verdict is the schema's answer, inverted under `--invert`. A progress meter counts records as `total = valid + invalid`. `--fail` can throw, or set `abort`, or stop `validate`. A promise over the stream stages settles the run, once, and the exit code depends on how it settled. Modules: `Validation`, `FilterCommand`, `ScanCommand`, `Tools`, `SourceTool`.
- **JSON-array framing.** The tools build the output array by hand: `[`, the entries separated by commas, then `]` and a newline. Module: `Framing`.
- **The progress meter.** Its own non-underscore properties are the metrics. `getMetrics` returns them and `print` writes one line per metric. A timer runs between `start` and `cancel`, and both are idempotent. The TypeScript and JavaScript `print` differ. Module: `ProgressMeter`.
- **The CLI builder.** Factory mode and collections mode exclude each other, with two error messages. Command and collection maps merge key-wise. Prerequisites decide whether a command is registered. Factory mode adds the `<collection>` suffix and a handler. Collections mode adds one subcommand per supporting collection. Module: `Builder`.
- **Shared pieces.**
  - `printJson`'s indentation.
  - `printErrorAndExit`'s exit-code rule.
  - The exit codes 65 (`EX_DATAERR`) and 70 (`EX_SOFTWARE`).
  - JavaScript values and truthiness.
  - `Number.parseInt`.
  - Insertion-ordered objects and `Object.assign`.

  Modules: `Command`, `JsValues`, `JsNumbers`, `JsObjects`, `Wrappers`.

Some code is not visible to the model, so its behaviour comes in as parameters:

- the JSON-schema validator, as a boolean per record;
- `Number.parseFloat`, the date checks and `_.kebabCase`, as functions;
- the text `JSON.stringify` produces, as opaque strings;
- the interval handle, as an opaque value;
- the order in which stream events arrive, as a sequence of events.

The per-collection tools set exit code 65 for `--fail` runs that met an invalid record (lib/tools/filter.js:111-113, `Tools.CompletionCode`). The `filter` and `scan` commands instead exit with 70 on any rejection, `--fail` included (lib/commands/filter.ts:138-144 and lib/commands/scan.ts:113-130; `FilterCommand.ExitCode`, `ScanCommand.Conclude`).

## Model

| member | source | states |
|---|---|---|
| Command.Space | lib/command.js:8 | Indentation exists iff `indent` is truthy; it is all spaces, `parseInt(indent)` of them (none for a non-positive or `NaN` count) |
| Command.CoerceIndentCases | lib/commands/filter.ts:23-26 | The `indent` coercion reads a written integer back as itself and turns text without digits into undefined |
| Command.WriterSpace | lib/commands/filter.ts:69 | The JSON writer gets an indentation iff the coerced indent is set and non-zero, of that many spaces |
| Command.IndentRulesAgree | lib/commands/scan.js:121 | Coercing first (commands) and parsing when printing (`printJson`, tools) indent JSON output alike |
| Command.PrintErrorAndExitAsWritten | lib/command.js:15-20 | The default exit code replaces only an exit code of exactly 0; any other value, unset included, is kept |
| Command.PrintErrorAndExit | lib/command.js:15-19 | Intended rule: a process that has not failed yet ends with the default code; a failure code already set is kept |
| Command.PrintErrorAndExitUnset | lib/command.js:17-19 | With the exit code unset, as written the process ends with status 0; as intended it ends with 70 |
| Command.PrintErrorAndExitAgreeWhenSet | lib/command.js:17-19 | Once an exit code has been set, the written and intended rules give the same code |
| ConfigDeclaration.Dasherize | lib/configDeclarationToYargs.js:36-38 | The option name contains no capital letter and is at least as long as the parameter name |
| ConfigDeclaration.DasherizeWithoutCapitals | lib/configDeclarationToYargs.js:36-38 | A parameter name with no capitals is its own option name |
| ConfigDeclaration.CamelizeDasherize | lib/configDeclarationToYargs.js:36-38 | For dash-free names the conversion is undone by turning '-' plus a lower-case letter back into the capital, so no information is lost |
| ConfigDeclaration.OptionNamesDistinct | lib/configDeclarationToYargs.js:36-38 | Two different dash-free parameter names never give the same option name |
| ConfigDeclaration.ToOption | lib/configDeclarationToYargs.js:40-62 | Each option field is present iff the declared field is truthy, with its value; the type is copied, `integer` becoming `number` when asked |
| ConfigDeclaration.FalsyDefaultDropped | lib/configDeclarationToYargs.js:54-56 | A default of 0, false, "", null or undefined never reaches the option record |
| ConfigDeclaration.ValidateParameterValue | lib/configDeclarationToYargs.js:7-30 | Integers succeed iff `parseInt` finds digits, giving that value, else the error names parameter and value; numbers follow `parseFloat`; date formats are checked; everything else passes unchanged |
| ConfigDeclaration.ValidateParameterValueAsWritten | lib/configDeclarationToYargs.js:14-19 | When `parseFloat` fails or gives a non-integral value, and for every other type, the code agrees with the corrected function. When it gives an integral value, the result is `parseInt` of the same text, or `NaN` when that has no digits |
| ConfigDeclaration.NumberReadingsDiffer | lib/configDeclarationToYargs.js:14-19 | The code and the corrected function differ on a number exactly when `parseFloat` gives an integral value that `parseInt` of the same text does not reproduce |
| ConfigDeclaration.IntegerPrefixAccepted | lib/configDeclarationToYargs.js:9-13 | The coercion given the text "12abc" for an integer parameter accepts it as 12 |
| ConfigDeclaration.IntegerGarbageRejected | lib/configDeclarationToYargs.js:8-12 | "abc" declared as an integer fails with `Invalid "<param>" value: failed to parse "abc" as integer` |
| ConfigDeclaration.ExponentNumberMisread | lib/configDeclarationToYargs.js:15-19 | The number 1e21, written "1e+21", for a number parameter becomes 1 in the code and 10^21 in the corrected function |
| ConfigDeclaration.CoerceElements | lib/configDeclarationToYargs.js:66-70 | An array succeeds iff every element does; the result keeps length and order and holds each element's converted value |
| ConfigDeclaration.CoerceElementsFirstFailure | lib/configDeclarationToYargs.js:67-69 | A failed array reports the error of its first failing element, all earlier elements having succeeded |
| ConfigDeclaration.Coerce | lib/configDeclarationToYargs.js:65-73 | Arrays are validated element by element as `item` under the name `<option>[]`; other options validate the whole value under the option name |
| ConfigDeclaration.ParameterDeclarationToYargs | lib/configDeclarationToYargs.js:35-76 | A parameter registers its option record under the option name, with a coercion over its declaration |
| ConfigDeclaration.ConfigDeclarationToYargs | lib/configDeclarationToYargs.js:83-88 | One registration per parameter, in order, with dashed names, which are distinct for distinct dash-free parameters |
| ConfigDeclaration.ConfigDeclarationToYargsTs | lib/configDeclarationToYargs.ts:79-84 | One registration per own parameter, in order, named by `_.kebabCase`, with the same option record and coercion |
| Helpers.ParameterDeclarationToYargsOption | lib/helpers.js:4-27 | The fields are copied when truthy, as in the main mapping, but the type is copied verbatim |
| Helpers.ConfigDeclarationToYargs | lib/helpers.js:34-42 | One option per parameter, in order, with dashed names and no coercion |
| Helpers.AgreesWithMainMapping | lib/helpers.js:10-12 | The helper and main mappings give the same option names, and the same option records iff the declared type is not `integer` |
| Helpers.RawValuesPassUnchanged | lib/helpers.js:34-41 | Without a coercion every raw value reaches the command unchanged |
| JsNumbers.ParseIntDecomposed | lib/configDeclarationToYargs.js:9 | `parseInt` skips leading whitespace, reads an optional sign and the longest digit prefix, and ignores the rest |
| JsNumbers.ParseIntWithoutDigits | lib/configDeclarationToYargs.js:9-10 | Text without any digit parses as `NaN` |
| JsNumbers.ParseIntOfIntToString | lib/commands/filter.ts:23-26 | `parseInt` reads the decimal text of any integer back as that integer |
| JsObjects.AssignGet | lib/builder.js:58 | After `Object.assign`, a key of the source has the source's value and any other key keeps the target's |
| Validation.Verdict | lib/commands/filter.ts:71-74 | The verdict is the schema's answer, inverted iff `invert` |
| Validation.CountCounters | lib/commands/filter.ts:76-83 | Counting a record adds one to the total and to exactly one of `valid` (accepted) or `invalid` (rejected) |
| Validation.CountValid | lib/commands/filter.ts:76-83 | Counting keeps the meter well formed |
| Validation.ResetCounters | lib/commands/filter.ts:97-101 | After the reset every named counter is 0 and every other property is unchanged |
| Validation.ResetCountersValid | lib/commands/filter.ts:97-101 | Resetting counters keeps the meter well formed |
| Validation.CountAllCounters | lib/commands/filter.js:72-79 | Counting a sequence of verdicts adds their number to the total, the accepted ones to `valid` and the rejected ones to `invalid` |
| Validation.CounterCountsAll | lib/commands/filter.ts:76-83 | A command's own counting step, applied to a sequence of verdicts, keeps `total = valid + invalid` moving together |
| FilterCommand.Initial | lib/commands/filter.ts:57-101 | A meter exists iff `--progress`; it is running and its three counters are 0; nothing has settled |
| FilterCommand.FilterRecord | lib/commands/filter.ts:70-95 | A record is kept iff accepted; a rejected one throws `Invalid data` and sets `abort` under `--fail` and is dropped otherwise; the meter counts it |
| FilterCommand.InvertedFailThrowsOnValid | lib/commands/filter.ts:71-90 | Under `--invert --fail`, the throw happens for records the schema accepts |
| FilterCommand.Settle | lib/commands/filter.js:99-140 | TypeScript: any stage error rejects and any `unpipe` resolves. JavaScript: an error rejects only while `abort` is set, and only the writer's `unpipe` resolves |
| FilterCommand.Step | lib/commands/filter.ts:85-132 | A settled promise does not change; a record the callback throws for rejects a pending one; other records leave the settlement alone |
| FilterCommand.RunCountsRecords | lib/commands/filter.ts:76-83 | Over any events, only the records move the meter, each counted under its verdict |
| FilterCommand.OutcomesFollowVerdicts | lib/commands/filter.ts:85-94 | The callback answers each record, in order, with keep, drop or throw by its verdict and `--fail` |
| FilterCommand.AbortRecordsThrows | lib/commands/filter.js:84-87 | `abort` ends up set iff it was set or some record threw under `--fail` |
| FilterCommand.TsSettlement | lib/commands/filter.ts:103-132 | In TypeScript the first throwing record, stage error or `unpipe` decides the run, whatever `--abort` says |
| FilterCommand.RunKeepsSettlement | lib/commands/filter.js:99-140 | Once settled, later events leave the settlement as it is |
| FilterCommand.JsNoRejectionWithoutAbort | lib/commands/filter.js:101-134 | In JavaScript, without `--abort` and `--fail`, stage errors never reject the run |
| FilterCommand.JsSettlement | lib/commands/filter.js:101-139 | In JavaScript the first decisive event settles the run: a throwing record or a stage error under `--abort` rejects, only the writer's `unpipe` resolves |
| FilterCommand.JsFailThrowRejects | lib/commands/filter.js:84-120 | In JavaScript a record rejected under `--fail` sets `abort`, and its throw rejects the run whatever undecisive events came before and whatever comes after |
| FilterCommand.ExitCode | lib/commands/filter.ts:138-144 | The handler sets an exit code iff the run was rejected, and then it is 70 |
| FilterCommand.Finish | lib/commands/filter.ts:133-141 | On settling either way the meter is cancelled and its counters are kept |
| Framing.OutputAllAppend | lib/tools/source.js:28-37 | Writing two batches of entries one after the other equals writing them together |
| Framing.OutputAllFramed | lib/tools/source.js:24-41 | From an opened output, the text is `[` plus the entries joined by commas, and `outputtedEntries` is their number |
| Framing.Framed | lib/tools/filter.js:46-62 | The closed output is `[`, the comma-separated entries, `]` and a newline; `[]` and a newline when empty |
| ProgressMeter.New | lib/progress.ts:19-24 | A new meter is idle, has printed nothing, has no metrics, and writes to standard error unless given a stream |
| ProgressMeter.IsMetricOwnKey | lib/progress.ts:32-34 | A key is a metric iff it is longer than one character, does not start with '_', and is an own property |
| ProgressMeter.GetMetrics | lib/progress.ts:40-42 | `getMetrics` returns exactly the metrics with their values, and nothing else |
| ProgressMeter.GetMetricsInOrder | lib/progress.ts:40-42 | `_.pickBy` keeps the metric names in property order, each as often as the object has it, against an independent filter over the names |
| ProgressMeter.Shown | lib/progress.ts:57 | A null or undefined value is shown as 0; any other value as itself |
| ProgressMeter.Print | lib/progress.ts:47-60 | `print` writes one cleared line per metric, in property order, formatted by its formatter or `name = value`, and remembers the count |
| ProgressMeter.TruthyLinesFilter | lib/progress.js:43-46 | The JavaScript loop writes exactly one line per own property with a truthy value, in property order, and none for falsy ones (against the independent filter `TruthyEntries`) |
| ProgressMeter.TruthyEntriesMembers | lib/progress.js:43-46 | The properties the loop prints are exactly the own properties whose values are truthy |
| ProgressMeter.InternalLines | lib/progress.js:43-53 | `_.forOwn` prints `_formatters` always, then `_stream` and `_timer` when truthy, in that order |
| ProgressMeter.JsPrint | lib/progress.js:41-54 | The JavaScript `print` writes the `_formatters` line first, then the `_stream` and `_timer` lines when truthy. Next comes the `_metricsPrinted` line, showing the number of lines before it, and last the lines of the truthy properties. The count, one per internal line plus one per truthy property, is remembered |
| ProgressMeter.JsReprintRewindsPrinted | lib/progress.js:58-62 | The next JavaScript reprint moves back over exactly the lines the last `print` wrote |
| ProgressMeter.IterativePrint | lib/progress.ts:65-69 | A reprint moves back over the lines printed last, then prints again |
| ProgressMeter.Start | lib/progress.ts:74-80 | `start` does nothing while running; otherwise it prints once and runs the timer |
| ProgressMeter.Cancel | lib/progress.ts:85-92 | `cancel` does nothing while idle; otherwise it stops the timer and reprints once |
| ProgressMeter.StartCancelIdempotent | lib/progress.js:68-86 | Starting twice is starting once, and cancelling twice is cancelling once |
| ProgressMeter.StartThenCancel | lib/progress.ts:74-92 | After a start, `cancel` moves back over exactly the lines the start printed, stops, and keeps the metrics |
| ProgressMeter.TestMeterPrint | lib/progress.ts:54-57 | A one-metric meter without formatters prints `metric = <value>` on one line |
| ProgressMeter.PrintBooleanTest | test/progress.spec.ts:8-15 | A false metric prints `\u001b[2Kmetric = false\n` |
| ProgressMeter.PrintIntegerTest | test/progress.spec.ts:17-24 | A metric of 42 prints `\u001b[2Kmetric = 42\n` |
| ProgressMeter.PrintStringTest | test/progress.spec.ts:35-42 | A metric of "42!" prints `\u001b[2Kmetric = 42!\n` |
| ProgressMeter.PrintNilTests | test/progress.spec.ts:44-60 | Undefined and null metrics print `\u001b[2Kmetric = 0\n` |
| ProgressMeter.GetMetricsMatchesTest | test/progress.spec.ts:64-68 | `getMetrics` returns `metric` with value 0 |
| ProgressMeter.JsPrintBooleanMetric | test/progress.spec.js:9-16 | The JavaScript `print` does not give the line the boolean test expects; the TypeScript `print` does |
| ProgressMeter.JsPrintFirstLine | lib/progress.js:43-53 | Without formatters the JavaScript `print` starts with a line about `_formatters` |
| ScanCommand.ResetScan | lib/commands/scan.ts:58-62 | The chained reset creates `invalid`, `valid`, `scanned` in that order, all 0, and keeps the meter well formed |
| ScanCommand.Initial | lib/commands/scan.ts:53-65 | The meter exists iff `--progress` (or, in TypeScript, `--results`); its counters are 0; it runs iff `--progress` |
| ScanCommand.Step | lib/commands/scan.ts:68-112 | A record is counted under its verdict; other events leave the meter; a settled promise stays settled |
| ScanCommand.RunKeepsSettlement | lib/commands/scan.js:91-114 | Once settled, later events leave the settlement as it is |
| ScanCommand.RunSettlement | lib/commands/scan.ts:92-112 | The first stage error, throwing record, or end decides the run |
| ScanCommand.RunCountsRecords | lib/commands/scan.ts:74-81 | Over any events, only the records move the meter, each counted under its verdict |
| ScanCommand.RunKeepsNoMeter | lib/commands/scan.js:69-76 | Without a meter, no event creates one |
| ScanCommand.CountScanEntries | lib/commands/scan.js:69-76 | Counting a record moves `scanned` and exactly one of `valid` or `invalid` and keeps the properties' order |
| ScanCommand.CountAllScanEntries | lib/commands/scan.ts:74-81 | Counting a sequence moves `scanned` by its length, `valid` by the accepted and `invalid` by the rejected ones |
| ScanCommand.ScanMetrics | lib/commands/scan.ts:120 | The metrics of a scan meter are its three counters, in property order |
| ScanCommand.Conclude | lib/commands/scan.ts:113-130 | The meter is cancelled either way. Rejection exits with 70. Success with `--results` writes the metrics with the writer's indentation, or exits with 70 when there is no meter |
| ScanCommand.RecordsVerdicts | lib/commands/scan.ts:69-72 | Each record's verdict is the schema's answer, inverted under `--invert` |
| ScanCommand.RecordsKeepPending | lib/commands/scan.ts:83-110 | Records that do not throw leave the run open, and the end then resolves it |
| ScanCommand.ResultsCountRecords | lib/commands/scan.ts:118-122 | A scan that ends normally writes, under `--results`, the counters moved by all records, accepted and rejected, and exits normally |
| ScanCommand.RunScanEntries | lib/commands/scan.js:69-76 | After any events the meter holds the counters moved by the records among them |
| ScanCommand.ConcludeResults | lib/commands/scan.js:115-124 | After success with a meter, `--results` writes exactly the three counters and sets no exit code |
| ScanCommand.FailRejects | lib/commands/scan.ts:83-88 | Under `--fail` a rejected record rejects the run, which exits with 70 |
| ScanCommand.JsResultsWithoutProgress | lib/commands/scan.js:120-124 | In JavaScript, `--results` without `--progress` writes nothing and exits with 70 even after a normal end |
| ScanCommand.TsResultsWithoutProgress | lib/commands/scan.ts:53-57 | In TypeScript the same options write results and exit normally |
| SourceTool.Cli | lib/tools/source.js:12-15 | A `source` command exists iff the collection has a source |
| SourceTool.DataErrorCode | lib/tools/source.js:86-88 | A data error sets 65 only over an exit code of exactly 0 as written, over an unset or 0 code as intended |
| SourceTool.Step | lib/tools/source.js:66-93 | The process stays alive exactly while records arrive; each record adds one to `outputtedEntries`; the end or a data error closes the array with `]` and a newline, keeping the count; after exiting nothing changes |
| SourceTool.DataWritten | lib/tools/source.js:28-37 | Records before the end are written in order and counted |
| SourceTool.ExitedStays | lib/tools/source.js:75-89 | After the process exits, further events change nothing |
| SourceTool.SourceRun | lib/tools/source.js:64-93 | Records then an end or error: standard output is the JSON array of the records, `outputtedEntries` is their number, and the exit code follows the event |
| SourceTool.DataErrorInFreshProcess | lib/tools/source.js:86-89 | In a fresh process a data error ends with status 0 as written and 65 as intended |
| SourceTool.OpenFailed | lib/tools/source.js:120-125 | A source that cannot be opened leaves `[]` and a newline and exits with 70 |
| SourceTool.SuppliedLineFaithful | lib/tools/source.js:43-46 | The `supplied` progress line determines `outputtedEntries`: equal lines mean equal counts |
| SourceTool.FinalProgress | lib/tools/source.js:47-51 | The final update happens iff `--progress`: it moves back over exactly the one line printed and prints it again |
| SourceTool.FinalProgressShowsSupplied | lib/tools/source.js:72-81 | The final update on end or error shows the final `outputtedEntries`: different counts give different output |
| Tools.Cli | lib/tools/filter.js:10-13 | The filter tool exists iff there is a schema, the validator filter iff there is a collection, and the scan tool always |
| Tools.Initial | lib/tools/filter.js:63-69 | Counters start at 0, nothing is counted as output, and `[` is written except by the scan tool |
| Tools.OnEntry | lib/tools/filter.js:90-109 | Each record adds one to the total and to `valid` or `invalid`, is written when the tool emits it, and stops `validate` iff rejected under `--fail` or `--stop` |
| Tools.Taken | lib/tools/filter.js:106-108 | The records seen are the prefix up to and including the first that stops, or all when none stops |
| Tools.EmittedCases | lib/tools/validator/filter.js:85-87 | Nothing is written under `--dry-run` or by the scan tool; the validator filter writes every record; the filter tool writes all or none when all or none are accepted |
| Tools.FilterToolEmitsAccepted | lib/tools/filter.js:102-104 | The filter tool writes as many records as it accepts, each the text of an accepted record |
| Tools.ValidateTaken | lib/tools/filter.js:90-109 | `validate` runs the callback on exactly the records up to the first stop, and stops iff some record stops it |
| Tools.ValidateCounts | lib/tools/validator/scan.js:54-60 | Over records that do not stop, the counters move by their number, the accepted and the rejected ones |
| Tools.ValidateOutput | lib/tools/validator/filter.js:77-92 | Over records that do not stop, the output holds what they emit, in order |
| Tools.CompletionCode | lib/tools/filter.js:111-113 | On completion the exit code becomes 65 iff `--fail` and some record was rejected; otherwise it is kept |
| Tools.ScanResults | lib/tools/validator/scan.js:27-31 | The scan results are `scannedEntriesCount`, `invalidEntriesCount`, `validEntriesCount`, in that order, with the counters |
| Tools.Complete | lib/tools/validator/scan.js:66-77 | The filter tools close the array; the scan tool writes its results under `--results` with `parseInt(indent)` spaces; the exit code follows the completion rule, for the scan tool as evidently intended |
| Tools.ScanCompleteAsWritten | lib/tools/validator/scan.js:66-81 | As the code reads, results are written under `--results`, then `--fail` makes the handler throw on the undeclared `results`, so the exit code is 70 whatever the counters say |
| Tools.ScanFailAsWrittenDiffers | lib/tools/validator/scan.js:71-72 | Under `--fail` the written scan tool exits with 70; the intended rule exits normally when every record was accepted and with 65 otherwise |
| Tools.Abort | lib/tools/filter.js:122-126 | On rejection the filter tools close the array and the process exits with 70 |
| Tools.ValidateFromInitial | lib/tools/validator/filter.js:52-92 | From the initial state the counters hold the records up to the first stop, and the output what they emit |
| Tools.FilterToolRun | lib/tools/filter.js:110-127 | Standard output is the JSON array of what the records up to the first stop emit, closed on both paths; exit 70 on rejection, else 65 iff `--fail` and one was rejected |
| Tools.ScanToolRun | lib/tools/validator/scan.js:66-69 | Under `--results` the scan tool reports the records up to the first stop, with the accepted and rejected ones among them |
| Tools.ProgressLinesFaithful | lib/tools/validator/scan.js:32-41 | The three progress lines determine all three counters: equal displays mean equal counts |
| Tools.FinalProgress | lib/tools/validator/scan.js:42-48 | The final update happens iff `--progress`: it moves back over exactly the lines `printProgress` writes and prints them again |
| Tools.FinalProgressShowsCounters | lib/tools/validator/scan.js:42-48 | The final update shows the final counters: different counters give different output |
| Tools.FilterStopKeepsCode | lib/tools/filter.js:30-38 | With `--stop` and `--fail` refused together (as lib/tools/validator.js:23-31 also declares for the validator subcommands), a filter-tool or validator-filter run under `--stop` keeps the exit code and writes what the records up to the first rejected one emit |
| Tools.ValidatorFilterFailExits | lib/tools/validator/filter.js:89-96 | Under `--fail`, which excludes `--stop`, a validator-filter run with any invalid record stops at the first one and exits with 65 |
| Tools.StopTakesInvalid | lib/tools/validator/filter.js:89-92 | Under `--fail` or `--stop` the validator filter takes records up to and including an invalid one, so fewer records are accepted than taken |
| Builder.New | lib/builder.js:12-17 | A new builder has no mode, the bundled commands and no custom commands, and is valid |
| Builder.MergeGet | lib/builder.js:72 | `Object.assign({}, base, more)`: a key of `more` takes its value, every other key keeps `base`'s, and keys stay distinct |
| Builder.SetFactory | lib/builder.js:25-37 | Fails with `Already building using factory` when a factory is set, else with `Already building using collections` when collections are set; otherwise stores the factory and changes nothing else |
| Builder.AddCollections | lib/builder.js:47-60 | Fails with `Already building using factory` iff a factory is set; otherwise collections become set and nothing else changes |
| Builder.Apply | lib/builder.js:69-127 | The command calls never fail and never change the mode; command calls leave custom commands alone and custom-command calls leave commands alone |
| Builder.ApplyValid | lib/builder.js:25-127 | Every successful call keeps the builder valid |
| Builder.ModesExclusive | lib/builder.ts:31-56 | However the calls are chained, a builder never holds both a factory and collections |
| Builder.CollectionsLockOutFactory | lib/builder.js:31-58 | Once collections are set, even to an empty object, a chain succeeds only without a factory call, and collections stay set |
| Builder.FactoryLocksOutCollections | lib/builder.js:28-53 | Once a factory is set, a chain succeeds only without factory or collection calls, and keeps the factory |
| Builder.AddCollectionsGet | lib/builder.js:55-58 | Collections from a directory override same-keyed ones; the others are kept |
| Builder.UsingCommandsGet | lib/builder.js:69-75 | An array of declarations lands under the keys "0", "1", ..., in order; every other key keeps its declaration |
| Builder.UsingCustomCommandsGet | lib/builder.js:102-108 | An array of custom commands lands under the keys "0", "1", ..., in order; every other key is kept |
| Builder.UsingCommandsFromDirGet | lib/builder.js:84-94 | Declarations from a directory override same-keyed ones; the others are kept |
| Builder.AnyAdmits | lib/builder.js:219 | `_.some`: true iff some collection supports the declaration |
| Builder.PrerequisitesMet | lib/builder.js:217-225 | Met without prerequisites. With collections: iff some collection satisfies them. With only a factory: iff its generic collection does. With no mode: always |
| Builder.Supporting | lib/builder.js:237-240 | The supporting collections are exactly those that satisfy the prerequisites, all of them without prerequisites |
| Builder.SubcommandsSupported | lib/builder.js:236-254 | Every subcommand is made from a collection that supports the declaration |
| Builder.SubcommandNamed | lib/builder.ts:231-249 | A subcommand with a given name exists iff a supporting collection has that `name` |
| Builder.CommandToYargs | lib/builder.js:214-279 | A command is made iff prerequisites are met. It gets ` <collection>` and a handler iff in factory mode, the positional only in factory mode, and subcommands only in collections mode |
| Builder.CollectionsModeHasSubcommand | lib/builder.ts:212-249 | In collections mode a command with prerequisites is registered only with at least one subcommand |
| Builder.PassingSound | lib/builder.js:147-152 | The positions of registered declarations are positions whose command was made, each once, in increasing order |
| Builder.PassingComplete | lib/builder.js:147-152 | Every position whose command was made is among the registered positions |
| Builder.RegisteredFromPassing | lib/builder.js:147-152 | Walking the made commands from any position registers exactly the existing ones, at the listed positions, in order |
| Builder.RegisteredDeclared | lib/builder.js:147-152 | The registered declarations are exactly the commands `commandToYargs` makes, at the positions where it makes one, in declaration order |
| Builder.RegisteredExactly | lib/builder.js:147-152 | A declaration is registered iff it passes its prerequisites, and then as `commandToYargs` makes it |
| Builder.ToYargs | lib/builder.js:135-167 | The registered declarations come first, as `RegisteredDeclared` lists them, then every custom command in order |
| Builder.AllMadeRegistered | lib/builder.js:147-152 | When every command is made, each is registered at its own position and none is dropped |
| Builder.NoModeRegistersAll | lib/builder.ts:212-220 | Without a mode every declaration is registered at its own position, then every custom command |

## Left out

- Stream orchestration: pipes, backpressure, `unpipe` chains and the stream classes. Events arrive as a sequence, in an order the model takes as given.
- SIGINT handling (lib/commands/scan.js:87-89, lib/tools/source.js:96-117): it needs signals and stream teardown.
- The Windows readline bridge (lib/builder.js:195-206): it needs signals and stream teardown.
- Schema validation (Ajv), including its `useDefaults` and `removeAdditional` record mutation. Each record carries the validator's answer.
- `Number.parseFloat` and floating-point values. The number branch takes `parseFloat` as a parameter. Metrics and JSON values are integers, strings, booleans, null, undefined or opaque objects.
- The float-metric `print` test (test/progress.spec.ts:26-33): floating-point values are left out, as above.
- `parseInt`'s hexadecimal prefix: `parseInt` is modelled as whitespace, an optional sign and the longest decimal-digit prefix.
- The date checks of the date library and `_.kebabCase`: these are parameters.
- `JSON.stringify` output: entries and results are opaque texts or property lists.
- Terminal rendering: chalk colours, readline cursor movement and `setInterval` timing. Cursor movement becomes a `Rewind` step. The `?` marks stand for the coloured symbols. Timer ticks between events are not modelled.
- yargs, `requireDirectory`, the logger, `process.exit` and `bin/*`. Directory loading becomes the loaded object.
- `Builder.ToYargs`: what yargs does with a registered command is not modelled. This covers the usage and epilogue texts, `demandCommand`, `recommendCommands`, `version` and `help`.
- `Builder.CommandToYargs`: the builder and handler closures are modelled only by their presence. The subcommand description and usage texts are kept; calling `createCollection` is not modelled.
- `check-types` argument assertions (lib/builder.js:26,48-49,70,85-86,118-119): Dafny's types already enforce them.
- JavaScript's enumeration order that puts integer-like keys first is not modelled. Objects keep pure insertion order, which affects only keys such as "0".
- Formatter lookup through the object prototype chain: formatters are a map.
- yargs' own parsing of `number` options, which `integer` parameters also get, is not modelled. yargs turns such a value into a number before the coercion runs, and the coercion is modelled on that value's text. On the command line, "1e3" therefore arrives as 1000 and is kept, and "12abc" arrives as `NaN` and is rejected. `ConfigDeclaration.IntegerPrefixAccepted` states what the coercion does with the text itself.
- The `Filter` and `Scanner` stream classes. A throw in the `Scanner` callback is taken to reach the promise as that stage's `error`, and a throw in the `Filter` callback as the filter stage's `error`, raised before the next event (in TypeScript whatever `abort` flag the class was built with).
- The `validate` library: the callback is taken to run once per record in order, and `validate` stops when it returns `false`.
- lib/tools/target.js, lib/tools/schema.js, lib/tools/validator.js apart from its `--stop`/`--fail` conflict (`Tools.ArgsAccepted`), the `flatten`, `schema`, `metadata`, `source` and `target` commands, lib/streamSource.js, lib/streamTarget.js and lib/filterStream.js. They are thin wrappers over external libraries or stream plumbing, and are not part of this model.

## Findings

| source | as written | input that shows it | evidently intended | confidence | as-written member | corrected member |
|---|---|---|---|---|---|---|
| lib/command.js:17-19 | sets the default code only when `process.exitCode === 0` | any call in a process whose exit code was never set (it is `undefined`): the error is printed and the process exits with status 0 | a process that has not failed yet exits with the default code (70) | medium, not executed | Command.PrintErrorAndExitAsWritten | Command.PrintErrorAndExit |
| lib/tools/source.js:86-88 | a data error sets 65 only when `process.exitCode === 0` | a source emitting `error` in a fresh process: status 0 after the error | exit with 65 unless a failure code is already set | medium, not executed | SourceTool.DataErrorInFreshProcess | SourceTool.DataErrorCode |
| lib/configDeclarationToYargs.js:19 | an integral `parseFloat` result is re-parsed with `parseInt` | `--name 1e21` for a `number` parameter: yargs passes the number 1e21, whose text is "1e+21"; `parseFloat` gives 1e21, an integer, and `parseInt` gives 1 | return the parsed number, 10^21 | high, not executed | ConfigDeclaration.ExponentNumberMisread | ConfigDeclaration.ValidateParameterValue |
| lib/commands/scan.js:50 | the meter is created only for `--progress`, but `--results` reads it | `scan --results` without `--progress`: `progress.getMetrics()` on null throws, and the process exits with 70 after a successful scan | create the meter for `--progress` or `--results`, as the TypeScript twin does | high, not executed | ScanCommand.JsResultsWithoutProgress | ScanCommand.TsResultsWithoutProgress |
| lib/progress.js:43-46 | `print` skips falsy values and does not check `isMetric` | a meter with `metric = false`: the internal `_formatters` line is printed and `metric = false` is not, against test/progress.spec.js:9-16 | print every metric and only metrics, as the TypeScript `print` does | high, not executed | ProgressMeter.JsPrintBooleanMetric | ProgressMeter.Print |
| lib/tools/validator/scan.js:71 | the `--fail` check reads `results.invalidEntriesCount`, but the handler only declares `progress` | `scan --fail` over records that are all valid: the `ReferenceError` is caught and the process exits with 70 | exit with 65 iff `--fail` and a record was rejected, as lib/tools/filter.js:111-113 does | high, not executed | Tools.ScanCompleteAsWritten | Tools.Complete |

=== FILE: builder.dfy ===
/**
 * The CLI builder (lib/builder.js, lib/builder.ts): it collects commands and
 * either a collection factory or a set of collections, then turns each
 * command declaration into a yargs command whose shape depends on which of
 * the two modes is in use.
 */
module Builder {
  import opened Wrappers
  import opened JsNumbers
  import opened JsValues
  import opened JsObjects

  /** A collection as the builder sees it: the name it is invoked by and where it was loaded from. */
  datatype Collection = Collection(name: string, origin: string)

  /** A collection factory: only its generic collection matters to the builder. */
  datatype Factory = Factory(genericCollection: Collection)

  /** A command declaration; `prerequisites`, when present, decides whether a collection supports the command. */
  datatype Declaration = Declaration(command: string, description: string, prerequisites: Option<Collection -> bool>)

  /**
   * The builder's fields. `factory` and `collections` are `null` until set;
   * custom commands are handed to yargs untouched, so they stay opaque values.
   */
  datatype Builder = Builder(
    factory: Option<Factory>,
    collections: Option<Entries<Collection>>,
    commands: Entries<Declaration>,
    customCommands: Entries<JsValue>)

  /** A chained builder call; the `FromDir` variants carry what was found in the directory. */
  datatype Call =
    | UsingCollectionFactory(factory: Factory)
    | UsingCollectionsFromDir(found: Entries<Collection>)
    | UsingCommands(declarations: seq<Declaration>)
    | UsingCommandsFromDir(foundDeclarations: Entries<Declaration>)
    | UsingCustomCommands(custom: seq<JsValue>)
    | UsingCustomCommandsFromDir(foundCustom: Entries<JsValue>)

  const FactoryTaken := "Already building using factory"
  const CollectionsTaken := "Already building using collections"

  /** What a directory load returns: an object, so its keys are distinct. */
  predicate Loaded(c: Call) {
    match c
    case UsingCollectionsFromDir(found) => DistinctKeys(found)
    case UsingCommandsFromDir(found) => DistinctKeys(found)
    case UsingCustomCommandsFromDir(found) => DistinctKeys(found)
    case _ => true
  }

  /** Never both modes, and every map a real object. */
  predicate Valid(b: Builder) {
    && !(b.factory.Some? && b.collections.Some?)
    && DistinctKeys(b.commands)
    && DistinctKeys(b.customCommands)
    && (b.collections.Some? ==> DistinctKeys(b.collections.value))
  }

  /** The constructor: no mode yet, the bundled commands, no custom commands. */
  function New(bundled: Entries<Declaration>): (b: Builder)
    requires DistinctKeys(bundled)
    ensures Valid(b)
    ensures b.factory.None? && b.collections.None?
    ensures b.commands == bundled && b.customCommands == []
  {
    Builder(None, None, bundled, [])
  }

  /** `Object.assign({}, base, more)`: a fresh object with `more`'s properties overriding `base`'s. */
  function Merge<V>(base: Entries<V>, more: Entries<V>): Entries<V> {
    Assign(Assign([], base), more)
  }

  /** The merge keeps every key, and a key of `more` takes `more`'s value. */
  lemma MergeGet<V>(base: Entries<V>, more: Entries<V>, k: string)
    requires DistinctKeys(base) && DistinctKeys(more)
    ensures Get(Merge(base, more), k) == if HasKey(more, k) then Get(more, k) else Get(base, k)
    ensures DistinctKeys(Merge(base, more))
  {
    AssignGet([], base, k);
    AssignGet(Assign([], base), more, k);
    GetFinds(base, k);
    assert DistinctKeys<V>([]);
    AssignDistinct([], base);
    AssignDistinct(Assign([], base), more);
  }

  function SetFactory(b: Builder, factory: Factory): (r: Result<Builder>)
    ensures b.factory.Some? ==> r == Err(FactoryTaken)
    ensures b.factory.None? && b.collections.Some? ==> r == Err(CollectionsTaken)
    ensures r.Ok? <==> b.factory.None? && b.collections.None?
    ensures r.Ok? ==> r.value.factory == Some(factory) && r.value.(factory := None) == b
  {
    if b.factory.Some? then Err(FactoryTaken)
    else if b.collections.Some? then Err(CollectionsTaken)
    else Ok(b.(factory := Some(factory)))
  }

  /** Collections found in a directory merge into those already present (a `null` source adds nothing). */
  function AddCollections(b: Builder, found: Entries<Collection>): (r: Result<Builder>)
    ensures r.Ok? <==> b.factory.None?
    ensures r.Err? ==> r.message == FactoryTaken
    ensures r.Ok? ==> r.value.collections.Some? && r.value.(collections := b.collections) == b
  {
    if b.factory.Some? then Err(FactoryTaken)
    else Ok(b.(collections := Some(Merge(b.collections.GetOr([]), found))))
  }

  /** One chained call; the command calls never fail. */
  function Apply(b: Builder, c: Call): (r: Result<Builder>)
    ensures !c.UsingCollectionFactory? && !c.UsingCollectionsFromDir? ==> r.Ok? && r.value.factory == b.factory && r.value.collections == b.collections
    ensures c.UsingCommands? || c.UsingCommandsFromDir? ==> r.value.customCommands == b.customCommands
    ensures c.UsingCustomCommands? || c.UsingCustomCommandsFromDir? ==> r.value.commands == b.commands
  {
    match c
    case UsingCollectionFactory(factory) => SetFactory(b, factory)
    case UsingCollectionsFromDir(found) => AddCollections(b, found)
    case UsingCommands(declarations) => Ok(b.(commands := Merge(b.commands, ArrayEntries(declarations))))
    case UsingCommandsFromDir(found) => Ok(b.(commands := Merge(b.commands, found)))
    case UsingCustomCommands(custom) => Ok(b.(customCommands := Merge(b.customCommands, ArrayEntries(custom))))
    case UsingCustomCommandsFromDir(found) => Ok(b.(customCommands := Merge(b.customCommands, found)))
  }

  /** A chain of calls; the first that throws ends it with its error. */
  function ApplyAll(b: Builder, calls: seq<Call>): Result<Builder>
    decreases |calls|
  {
    if |calls| == 0 then Ok(b)
    else
      match Apply(b, calls[0])
      case Err(message) => Err(message)
      case Ok(next) => ApplyAll(next, calls[1..])
  }

  /** Every call keeps the builder valid. */
  lemma ApplyValid(b: Builder, c: Call)
    requires Valid(b) && Loaded(c) && Apply(b, c).Ok?
    ensures Valid(Apply(b, c).value)
  {
    var r := Apply(b, c).value;
    match c
    case UsingCollectionFactory(_) =>
    case UsingCollectionsFromDir(found) =>
      assert DistinctKeys<Collection>([]);
      MergeGet(b.collections.GetOr([]), found, "");
    case UsingCommands(declarations) =>
      MergeGet(b.commands, ArrayEntries(declarations), "");
    case UsingCommandsFromDir(found) =>
      MergeGet(b.commands, found, "");
    case UsingCustomCommands(custom) =>
      MergeGet(b.customCommands, ArrayEntries(custom), "");
    case UsingCustomCommandsFromDir(found) =>
      MergeGet(b.customCommands, found, "");
  }

  /** Whatever chain of calls succeeds, the builder never holds both a factory and collections. */
  lemma {:induction false} ModesExclusive(b: Builder, calls: seq<Call>)
    requires Valid(b) && forall i :: 0 <= i < |calls| ==> Loaded(calls[i])
    ensures ApplyAll(b, calls).Ok? ==> Valid(ApplyAll(b, calls).value)
    decreases |calls|
  {
    if |calls| > 0 && Apply(b, calls[0]).Ok? {
      ApplyValid(b, calls[0]);
      ModesExclusive(Apply(b, calls[0]).value, calls[1..]);
    }
  }

  /**
   * Once collections are set, even to an empty object, the chain succeeds
   * only if it never asks for a factory, and the collections stay set.
   */
  lemma {:induction false} CollectionsLockOutFactory(b: Builder, calls: seq<Call>)
    requires b.factory.None? && b.collections.Some?
    ensures ApplyAll(b, calls).Ok? ==> forall i :: 0 <= i < |calls| ==> !calls[i].UsingCollectionFactory?
    ensures ApplyAll(b, calls).Ok? ==> ApplyAll(b, calls).value.collections.Some? && ApplyAll(b, calls).value.factory.None?
    decreases |calls|
  {
    if |calls| > 0 && Apply(b, calls[0]).Ok? {
      var next := Apply(b, calls[0]).value;
      CollectionsLockOutFactory(next, calls[1..]);
      if ApplyAll(b, calls).Ok? {
        forall i | 0 <= i < |calls|
          ensures !calls[i].UsingCollectionFactory?
        {
          if i > 0 {
            assert calls[i] == calls[1..][i - 1];
          }
        }
      }
    }
  }

  /**
   * Once a factory is set, the chain succeeds only if it asks for neither
   * another factory nor collections, and the factory stays the same.
   */
  lemma {:induction false} FactoryLocksOutCollections(b: Builder, calls: seq<Call>)
    requires b.factory.Some?
    ensures ApplyAll(b, calls).Ok? ==> forall i :: 0 <= i < |calls| ==> !calls[i].UsingCollectionFactory? && !calls[i].UsingCollectionsFromDir?
    ensures ApplyAll(b, calls).Ok? ==> ApplyAll(b, calls).value.factory == b.factory
    decreases |calls|
  {
    if |calls| > 0 && Apply(b, calls[0]).Ok? {
      var next := Apply(b, calls[0]).value;
      FactoryLocksOutCollections(next, calls[1..]);
      if ApplyAll(b, calls).Ok? {
        forall i | 0 <= i < |calls|
          ensures !calls[i].UsingCollectionFactory? && !calls[i].UsingCollectionsFromDir?
        {
          if i > 0 {
            assert calls[i] == calls[1..][i - 1];
          }
        }
      }
    }
  }

  /** Merging collections: those found override same-keyed ones already present; the rest are kept. */
  lemma AddCollectionsGet(b: Builder, found: Entries<Collection>, k: string)
    requires Valid(b) && DistinctKeys(found) && b.factory.None?
    ensures var r := AddCollections(b, found).value.collections.value;
      Get(r, k) == if HasKey(found, k) then Get(found, k) else if b.collections.Some? then Get(b.collections.value, k) else None
  {
    assert DistinctKeys<Collection>([]);
    MergeGet(b.collections.GetOr([]), found, k);
  }

  /**
   * Declarations passed as an array merge under their positions "0", "1", …:
   * position i now holds the i-th declaration, a key that is no position of
   * the array keeps its declaration.
   */
  lemma UsingCommandsGet(b: Builder, declarations: seq<Declaration>, k: string)
    requires Valid(b)
    ensures var r := Apply(b, UsingCommands(declarations)).value.commands;
      && (forall i :: 0 <= i < |declarations| ==> Get(r, IntToString(i)) == Some(declarations[i]))
      && (!HasKey(ArrayEntries(declarations), k) ==> Get(r, k) == Get(b.commands, k))
  {
    var a := ArrayEntries(declarations);
    var r := Merge(b.commands, a);
    forall i | 0 <= i < |declarations|
      ensures Get(r, IntToString(i)) == Some(declarations[i])
    {
      MergeGet(b.commands, a, IntToString(i));
      assert HasKey(a, a[i].0);
      GetAt(a, i);
    }
    MergeGet(b.commands, a, k);
  }

  /** Custom commands merge the same way. */
  lemma UsingCustomCommandsGet(b: Builder, custom: seq<JsValue>, k: string)
    requires Valid(b)
    ensures var r := Apply(b, UsingCustomCommands(custom)).value.customCommands;
      && (forall i :: 0 <= i < |custom| ==> Get(r, IntToString(i)) == Some(custom[i]))
      && (!HasKey(ArrayEntries(custom), k) ==> Get(r, k) == Get(b.customCommands, k))
  {
    var a := ArrayEntries(custom);
    var r := Merge(b.customCommands, a);
    forall i | 0 <= i < |custom|
      ensures Get(r, IntToString(i)) == Some(custom[i])
    {
      MergeGet(b.customCommands, a, IntToString(i));
      assert HasKey(a, a[i].0);
      GetAt(a, i);
    }
    MergeGet(b.customCommands, a, k);
  }

  /** Declarations loaded from a directory override same-keyed ones; the rest are kept. */
  lemma UsingCommandsFromDirGet(b: Builder, found: Entries<Declaration>, k: string)
    requires Valid(b) && DistinctKeys(found)
    ensures Get(Apply(b, UsingCommandsFromDir(found)).value.commands, k) == if HasKey(found, k) then Get(found, k) else Get(b.commands, k)
  {
    MergeGet(b.commands, found, k);
  }

  /** Whether a collection supports a declaration: always, unless it has prerequisites that reject it. */
  predicate Admits(d: Declaration, c: Collection) {
    d.prerequisites.None? || d.prerequisites.value(c)
  }

  /** `_.some` over the collections. */
  function AnyAdmits(d: Declaration, cs: seq<Collection>): (b: bool)
    ensures b <==> exists i :: 0 <= i < |cs| && Admits(d, cs[i])
  {
    if |cs| == 0 then false
    else if Admits(d, cs[0]) then true
    else
      var b := AnyAdmits(d, cs[1..]);
      assert forall i :: 1 <= i < |cs| ==> cs[i] == cs[1..][i - 1];
      b
  }

  /** Whether a declaration becomes a command at all. */
  function PrerequisitesMet(b: Builder, d: Declaration): (met: bool)
    ensures d.prerequisites.None? ==> met
    ensures d.prerequisites.Some? && b.collections.Some? ==>
      (met <==> exists i :: 0 <= i < |b.collections.value| && d.prerequisites.value(b.collections.value[i].1))
    ensures d.prerequisites.Some? && b.collections.None? && b.factory.Some? ==>
      (met <==> d.prerequisites.value(b.factory.value.genericCollection))
    ensures b.collections.None? && b.factory.None? ==> met
  {
    if d.prerequisites.Some? && b.collections.Some? then
      var cs := Values(b.collections.value);
      var met := AnyAdmits(d, cs);
      assert forall i :: 0 <= i < |cs| ==> cs[i] == b.collections.value[i].1;
      met
    else if d.prerequisites.Some? && b.factory.Some? then
      d.prerequisites.value(b.factory.value.genericCollection)
    else true
  }

  /** A per-collection subcommand: invoked by the collection's name. */
  datatype Subcommand = Subcommand(command: string, describe: string, usage: string)

  function CollectionCommand(d: Declaration, c: Collection): Subcommand {
    Subcommand(c.name, "Collection (from \"" + c.origin + "\")", "Usage: $0 " + d.command + " " + c.name + " [options]")
  }

  /** The collections that support the declaration, in order. */
  function Supporting(d: Declaration, cs: seq<Collection>): (r: seq<Collection>)
    ensures |r| <= |cs|
    ensures forall c :: c in r <==> c in cs && Admits(d, c)
    ensures d.prerequisites.None? ==> r == cs
  {
    if |cs| == 0 then []
    else
      var rest := Supporting(d, cs[1..]);
      assert cs == [cs[0]] + cs[1..];
      if Admits(d, cs[0]) then [cs[0]] + rest else rest
  }

  /** A yargs command as the builder makes it. */
  datatype CommandCli = CommandCli(
    command: string,
    describe: string,
    usage: string,
    subcommands: seq<Subcommand>,
    demandsCollection: bool,
    positional: bool,
    handler: bool)

  /** The subcommands registered in collections mode: one per supporting collection, in order. */
  function Subcommands(d: Declaration, cs: seq<Collection>): (subs: seq<Subcommand>)
    ensures |subs| == |Supporting(d, cs)|
    ensures forall i :: 0 <= i < |subs| ==> subs[i] == CollectionCommand(d, Supporting(d, cs)[i])
  {
    var supporting := Supporting(d, cs);
    seq(|supporting|, i requires 0 <= i < |supporting| => CollectionCommand(d, supporting[i]))
  }

  /** Every subcommand comes from a collection that supports the declaration. */
  lemma SubcommandsSupported(d: Declaration, cs: seq<Collection>)
    ensures forall s :: s in Subcommands(d, cs) ==> exists c :: c in cs && Admits(d, c) && s == CollectionCommand(d, c)
  {
    var supporting := Supporting(d, cs);
    var subs := Subcommands(d, cs);
    forall s | s in subs
      ensures exists c :: c in cs && Admits(d, c) && s == CollectionCommand(d, c)
    {
      var i :| 0 <= i < |subs| && subs[i] == s;
      assert supporting[i] in supporting;
    }
  }

  /** A subcommand name exists exactly when some supporting collection has that name. */
  lemma SubcommandNamed(d: Declaration, cs: seq<Collection>, name: string)
    ensures var subs := Subcommands(d, cs);
      (exists i :: 0 <= i < |subs| && subs[i].command == name) <==> (exists c :: c in cs && Admits(d, c) && c.name == name)
  {
    var supporting := Supporting(d, cs);
    var subs := Subcommands(d, cs);
    if c :| c in cs && Admits(d, c) && c.name == name {
      assert c in supporting;
      var i :| 0 <= i < |supporting| && supporting[i] == c;
      assert subs[i].command == name;
    }
    if i :| 0 <= i < |subs| && subs[i].command == name {
      assert supporting[i] in supporting;
    }
  }

  /**
   * The yargs command made from a declaration: its command string, its
   * description, its usage line, the subcommands it registers (collections
   * mode), whether it takes a `<collection>` positional (factory mode), and
   * whether it has a handler of its own.
   */
  function CommandToYargs(b: Builder, d: Declaration): (r: Option<CommandCli>)
    ensures r.Some? <==> PrerequisitesMet(b, d)
    ensures r.Some? ==> r.value.describe == d.description && r.value.usage == "Usage: $0 " + d.command + " <collection> [options]"
    ensures r.Some? && b.factory.Some? ==> r.value.command == d.command + " <collection>"
    ensures r.Some? && b.factory.None? ==> r.value.command == d.command
    ensures r.Some? ==> (r.value.handler <==> b.factory.Some?)
    ensures r.Some? ==> (r.value.demandsCollection <==> b.collections.Some?)
    ensures r.Some? ==> (r.value.positional <==> b.collections.None? && b.factory.Some?)
    ensures r.Some? && b.collections.Some? ==> r.value.subcommands == Subcommands(d, Values(b.collections.value))
    ensures r.Some? && b.collections.None? ==> r.value.subcommands == []
  {
    if !PrerequisitesMet(b, d) then None
    else
      var command := if b.factory.Some? then d.command + " <collection>" else d.command;
      var subcommands := if b.collections.Some? then Subcommands(d, Values(b.collections.value)) else [];
      Some(CommandCli(
        command, d.description, "Usage: $0 " + d.command + " <collection> [options]",
        subcommands, b.collections.Some?, b.collections.None? && b.factory.Some?, b.factory.Some?))
  }

  /**
   * In collections mode a command with prerequisites is registered only
   * with at least one subcommand.
   */
  lemma CollectionsModeHasSubcommand(b: Builder, d: Declaration)
    requires b.collections.Some? && d.prerequisites.Some? && PrerequisitesMet(b, d)
    ensures |Subcommands(d, Values(b.collections.value))| > 0
  {
    var all := Values(b.collections.value);
    var i :| 0 <= i < |b.collections.value| && d.prerequisites.value(b.collections.value[i].1);
    assert all[i] in all && Admits(d, all[i]);
    assert all[i] in Supporting(d, all);
  }

  /** What `toYargs` registers: the commands that pass their prerequisites, in order, then every custom command. */
  datatype Registered = Declared(cli: CommandCli) | Custom(value: JsValue)

  /** The positions from `k` on whose flag is set, in increasing order. */
  function Passing(met: seq<bool>, k: nat): (idx: seq<nat>)
    requires k <= |met|
    ensures |idx| <= |met| - k
    ensures forall j :: 0 <= j < |idx| ==> k <= idx[j] < |met|
    decreases |met| - k
  {
    if k == |met| then []
    else (if met[k] then [k] else []) + Passing(met, k + 1)
  }

  /** Only set flags are listed, each once, in increasing order. */
  lemma {:induction false} PassingSound(met: seq<bool>, k: nat)
    requires k <= |met|
    ensures forall j :: 0 <= j < |Passing(met, k)| ==> met[Passing(met, k)[j]]
    ensures forall j, l :: 0 <= j < l < |Passing(met, k)| ==> Passing(met, k)[j] < Passing(met, k)[l]
    decreases |met| - k
  {
    if k < |met| {
      PassingSound(met, k + 1);
      var head, tail := if met[k] then [k] else [], Passing(met, k + 1);
      var idx := Passing(met, k);
      assert idx == head + tail;
      assert forall j :: |head| <= j < |idx| ==> idx[j] == tail[j - |head|];
    }
  }

  /** Every set flag from `k` on is listed: no declaration that passes is left out. */
  lemma {:induction false} PassingComplete(met: seq<bool>, k: nat, i: nat)
    requires k <= i < |met| && met[i]
    ensures i in Passing(met, k)
    decreases |met| - k
  {
    var head, tail := if met[k] then [k] else [], Passing(met, k + 1);
    assert Passing(met, k) == head + tail;
    if k == i {
      assert Passing(met, k)[0] == i;
    } else {
      PassingComplete(met, k + 1, i);
      var j :| 0 <= j < |tail| && tail[j] == i;
      assert Passing(met, k)[|head| + j] == i;
    }
  }

  /** `commandToYargs` of each declaration, in order. */
  function Made(b: Builder, ds: seq<Declaration>): (clis: seq<Option<CommandCli>>)
    ensures |clis| == |ds|
    ensures forall i :: 0 <= i < |ds| ==> clis[i] == CommandToYargs(b, ds[i])
  {
    seq(|ds|, i requires 0 <= i < |ds| => CommandToYargs(b, ds[i]))
  }

  /** Which of the made commands exist. */
  function Present(clis: seq<Option<CommandCli>>): (met: seq<bool>)
    ensures |met| == |clis|
    ensures forall i :: 0 <= i < |clis| ==> met[i] == clis[i].Some?
  {
    seq(|clis|, i requires 0 <= i < |clis| => clis[i].Some?)
  }

  /** The registrations for the made commands from position `k` on: the existing ones, in order. */
  function RegisteredFrom(clis: seq<Option<CommandCli>>, k: nat): (r: seq<Registered>)
    requires k <= |clis|
    ensures |r| <= |clis| - k
    decreases |clis| - k
  {
    if k == |clis| then []
    else (match clis[k] case Some(cli) => [Declared(cli)] case None => []) + RegisteredFrom(clis, k + 1)
  }

  /** The registrations from position `k` on are the existing commands at the listed positions. */
  lemma {:induction false} RegisteredFromPassing(clis: seq<Option<CommandCli>>, k: nat)
    requires k <= |clis|
    ensures |RegisteredFrom(clis, k)| == |Passing(Present(clis), k)|
    ensures forall j :: 0 <= j < |RegisteredFrom(clis, k)| ==>
      (clis[Passing(Present(clis), k)[j]].Some? &&
       RegisteredFrom(clis, k)[j] == Declared(clis[Passing(Present(clis), k)[j]].value))
    decreases |clis| - k
  {
    if k < |clis| {
      RegisteredFromPassing(clis, k + 1);
      var met := Present(clis);
      var r, rest := RegisteredFrom(clis, k), RegisteredFrom(clis, k + 1);
      var idx, tail := Passing(met, k), Passing(met, k + 1);
      if clis[k].Some? {
        assert r == [Declared(clis[k].value)] + rest;
        assert idx == [k] + tail;
        forall j | 1 <= j < |r|
          ensures clis[idx[j]].Some? && r[j] == Declared(clis[idx[j]].value)
        {
          assert r[j] == rest[j - 1] && idx[j] == tail[j - 1];
        }
      } else {
        assert r == rest;
        assert idx == tail;
      }
    }
  }

  /**
   * The declared commands `toYargs` registers: the commands `commandToYargs`
   * makes, at the positions where it makes one, in declaration order.
   */
  function RegisteredDeclared(b: Builder, ds: seq<Declaration>): (r: seq<Registered>)
    ensures |r| == |Passing(Present(Made(b, ds)), 0)|
    ensures forall j :: 0 <= j < |r| ==>
      (Made(b, ds)[Passing(Present(Made(b, ds)), 0)[j]].Some? &&
       r[j] == Declared(Made(b, ds)[Passing(Present(Made(b, ds)), 0)[j]].value))
  {
    RegisteredFromPassing(Made(b, ds), 0);
    RegisteredFrom(Made(b, ds), 0)
  }

  /**
   * A declaration is registered exactly when it passes its prerequisites,
   * and then as `commandToYargs` makes it.
   */
  lemma RegisteredExactly(b: Builder, ds: seq<Declaration>, i: nat)
    requires i < |ds|
    ensures PrerequisitesMet(b, ds[i]) <==> i in Passing(Present(Made(b, ds)), 0)
    ensures PrerequisitesMet(b, ds[i]) ==>
      (exists j :: 0 <= j < |RegisteredDeclared(b, ds)| && RegisteredDeclared(b, ds)[j] == Declared(CommandToYargs(b, ds[i]).value))
  {
    var clis := Made(b, ds);
    var met := Present(clis);
    assert met[i] == clis[i].Some? && clis[i] == CommandToYargs(b, ds[i]);
    if PrerequisitesMet(b, ds[i]) {
      PassingComplete(met, 0, i);
      var j :| 0 <= j < |Passing(met, 0)| && Passing(met, 0)[j] == i;
      assert RegisteredDeclared(b, ds)[j] == Declared(clis[i].value);
    } else {
      PassingSound(met, 0);
    }
  }

  /** When every flag from `k` on is set, all of their positions are listed, in order. */
  lemma {:induction false} AllPassing(met: seq<bool>, k: nat)
    requires k <= |met|
    requires forall i :: k <= i < |met| ==> met[i]
    ensures |Passing(met, k)| == |met| - k
    ensures forall j :: 0 <= j < |met| - k ==> Passing(met, k)[j] == k + j
    decreases |met| - k
  {
    if k < |met| {
      AllPassing(met, k + 1);
      var idx := Passing(met, k);
      assert idx == [k] + Passing(met, k + 1);
      assert forall j :: 1 <= j < |idx| ==> idx[j] == Passing(met, k + 1)[j - 1];
    }
  }

  /** Each custom command's value, registered as it is. */
  function CustomsOf(vs: seq<JsValue>): (r: seq<Registered>)
    ensures |r| == |vs|
    ensures forall i :: 0 <= i < |vs| ==> r[i] == Custom(vs[i])
  {
    seq(|vs|, i requires 0 <= i < |vs| => Custom(vs[i]))
  }

  /**
   * `toYargs`: the declared commands that pass their prerequisites, then
   * every custom command, in order.
   */
  function ToYargs(b: Builder): (r: seq<Registered>)
    ensures |b.customCommands| <= |r| <= |b.commands| + |b.customCommands|
    ensures r[..|r| - |b.customCommands|] == RegisteredDeclared(b, Values(b.commands))
    ensures forall i :: 0 <= i < |r| ==> (r[i].Custom? <==> i >= |r| - |b.customCommands|)
    ensures forall i :: 0 <= i < |b.customCommands| ==> r[|r| - |b.customCommands| + i] == Custom(b.customCommands[i].1)
  {
    var declared := RegisteredDeclared(b, Values(b.commands));
    var r := declared + CustomsOf(Values(b.customCommands));
    assert r[..|declared|] == declared;
    r
  }

  /** When every command was made, each is registered at its own position. */
  lemma AllMadeRegistered(clis: seq<Option<CommandCli>>)
    requires forall i :: 0 <= i < |clis| ==> clis[i].Some?
    ensures |RegisteredFrom(clis, 0)| == |clis|
    ensures forall i :: 0 <= i < |clis| ==> RegisteredFrom(clis, 0)[i] == Declared(clis[i].value)
  {
    var met := Present(clis);
    AllPassing(met, 0);
    RegisteredFromPassing(clis, 0);
    forall i | 0 <= i < |clis|
      ensures RegisteredFrom(clis, 0)[i] == Declared(clis[i].value)
    {
      assert Passing(met, 0)[i] == i;
    }
  }

  /** Without a mode every declaration is registered, whatever its prerequisites. */
  lemma NoModeRegistersAll(b: Builder)
    requires b.factory.None? && b.collections.None?
    ensures |ToYargs(b)| == |b.commands| + |b.customCommands|
    ensures forall i :: 0 <= i < |b.commands| ==>
      (CommandToYargs(b, b.commands[i].1).Some? && ToYargs(b)[i] == Declared(CommandToYargs(b, b.commands[i].1).value))
  {
    var ds := Values(b.commands);
    var clis := Made(b, ds);
    AllMadeRegistered(clis);
    var r := ToYargs(b);
    var declared := RegisteredFrom(clis, 0);
    assert r[..|ds|] == declared;
    forall i | 0 <= i < |b.commands|
      ensures CommandToYargs(b, b.commands[i].1).Some? && r[i] == Declared(CommandToYargs(b, b.commands[i].1).value)
    {
      assert r[i] == r[..|ds|][i] == declared[i];
      assert clis[i] == CommandToYargs(b, b.commands[i].1);
    }
  }
}

=== FILE: command.dfy ===
/**
 * The shared command helpers (lib/command.js) and the indentation rules the
 * commands and tools use for their JSON output.
 */
module Command {
  import opened Wrappers
  import opened JsNumbers
  import opened JsValues

  /** The promise a command handler builds over its stream stages. */
  datatype Settlement = Pending | Resolved | Rejected

  /** `EX_SOFTWARE`, the exit code for an internal failure. */
  const ExSoftware: int := 70

  /** `EX_DATAERR`, the exit code for invalid input data. */
  const ExDataErr: int := 65

  /**
   * The JSON indentation of `printJson` and of the tools:
   * `argv.indent ? _.repeat(' ', parseInt(argv.indent)) : null`, where a
   * `NaN` count repeats nothing.
   */
  function Space(indent: JsValue): (r: Option<string>)
    ensures r.Some? <==> Truthy(indent)
    ensures r.Some? ==> forall i :: 0 <= i < |r.value| ==> r.value[i] == ' '
    ensures r.Some? ==> |r.value| == match ParseInt(ToText(indent)) case Some(n) => (if n < 1 then 0 else n) case None => 0
  {
    if Truthy(indent) then Some(Spaces(ParseInt(ToText(indent)).GetOr(0))) else None
  }

  /** The `indent` option of the commands: `parseInt` of the raw text, undefined when it is `NaN`. */
  function CoerceIndent(raw: string): Option<int> {
    ParseInt(raw)
  }

  /** A written number is read back as itself; text without digits becomes undefined. */
  lemma CoerceIndentCases(n: int, raw: string)
    requires forall i :: 0 <= i < |raw| ==> !IsDigit(raw[i])
    ensures CoerceIndent(IntToString(n)) == Some(n)
    ensures CoerceIndent(raw) == None
  {
    ParseIntOfIntToString(n);
    ParseIntWithoutDigits(raw);
  }

  /** The writer indentation of the commands: `argv.indent ? _.repeat(' ', argv.indent) : null`. */
  function WriterSpace(indent: Option<int>): (r: Option<string>)
    ensures r.Some? <==> indent.Some? && indent.value != 0
    ensures r.Some? ==> |r.value| == (if indent.value < 1 then 0 else indent.value)
  {
    if indent.Some? && indent.value != 0 then Some(Spaces(indent.value)) else None
  }

  /** Empty indentation and no indentation produce the same JSON text. */
  function Effective(space: Option<string>): Option<string> {
    if space == Some("") then None else space
  }

  /**
   * Coercing the indent first (the commands) or parsing it when printing
   * (`printJson` and the tools) indents the output alike.
   */
  lemma IndentRulesAgree(raw: string)
    ensures Effective(WriterSpace(CoerceIndent(raw))) == Effective(Space(Str(raw)))
  {
    assert ToText(Str(raw)) == raw;
  }

  /** The status the process ends with: `process.exitCode`, or 0 when it is unset. */
  function ExitStatus(exitCode: Option<int>): int {
    exitCode.GetOr(0)
  }

  /**
   * `printErrorAndExit` as written: the default code is set only when the
   * exit code is exactly 0, which an unset exit code is not.
   */
  function PrintErrorAndExitAsWritten(exitCode: Option<int>, defaultExitCode: int): (r: Option<int>)
    ensures exitCode != Some(0) ==> r == exitCode
    ensures exitCode == Some(0) ==> r == Some(defaultExitCode)
  {
    if exitCode == Some(0) then Some(defaultExitCode) else exitCode
  }

  /**
   * `printErrorAndExit` as intended: a process that has not failed yet ends
   * with the default code; an existing failure code is kept.
   */
  function PrintErrorAndExit(exitCode: Option<int>, defaultExitCode: int): (r: Option<int>)
    ensures ExitStatus(exitCode) == 0 ==> ExitStatus(r) == defaultExitCode
    ensures ExitStatus(exitCode) != 0 ==> r == exitCode
  {
    if ExitStatus(exitCode) == 0 then Some(defaultExitCode) else exitCode
  }

  /**
   * With the exit code still unset, as it is in a fresh process, the code as
   * written exits with status 0 after reporting the error.
   */
  lemma PrintErrorAndExitUnset()
    ensures ExitStatus(PrintErrorAndExitAsWritten(None, ExSoftware)) == 0
    ensures ExitStatus(PrintErrorAndExit(None, ExSoftware)) == ExSoftware
  {
  }

  /** Both readings agree once the exit code has been set. */
  lemma PrintErrorAndExitAgreeWhenSet(code: int, defaultExitCode: int)
    ensures PrintErrorAndExitAsWritten(Some(code), defaultExitCode) == PrintErrorAndExit(Some(code), defaultExitCode)
  {
  }
}

=== FILE: config_declaration.dfy ===
/**
 * Turning a collection's configuration declaration into command-line
 * options: the option record built from each parameter declaration, the
 * option name derived from the parameter name, and the coercion that checks
 * and converts the raw value given on the command line
 * (lib/configDeclarationToYargs.js and its TypeScript twin).
 */
module ConfigDeclaration {
  import opened Wrappers
  import opened JsNumbers
  import opened JsValues
  import opened JsObjects

  /**
   * One declared parameter. String fields use "" for an absent field: in
   * every test the source performs, `undefined` and "" behave alike.
   */
  datatype Declaration = Declaration(
    description: string,
    typeName: string,
    enumChoices: Option<seq<string>>,
    defaultValue: JsValue,
    required: JsValue,
    conflicts: JsValue,
    item: string,
    format: string)

  /** The option record handed to the argument parser; `None` is an absent key. */
  datatype YargsOption = YargsOption(
    describe: Option<string>,
    typeName: Option<string>,
    choices: Option<seq<string>>,
    defaultValue: Option<JsValue>,
    demandOption: Option<JsValue>,
    conflicts: Option<JsValue>)

  /** A raw command-line value: a single string, or the strings of a repeated/array option. */
  datatype RawValue = Scalar(text: string) | List(items: seq<string>)

  /** A coerced option value. */
  datatype OptionValue =
    | IntValue(n: int)
    | NumberValue(r: real)
    | NotANumber
    | Passed(raw: RawValue)
    | Items(values: seq<OptionValue>)

  /**
   * Code the model does not see: `Number.parseFloat` (`None` for `NaN`), the
   * two date checks of the date library, and lodash `_.kebabCase`.
   */
  datatype Collaborators = Collaborators(
    parseFloat: string -> Option<real>,
    isDateTime: RawValue -> bool,
    isDate: RawValue -> bool,
    kebabCase: string -> string)

  /** `String(value)`: an array is joined with commas. */
  function Text(v: RawValue): string {
    match v
    case Scalar(s) => s
    case List(xs) => Join(",", xs)
  }

  predicate IsIntegral(r: real) {
    r.Floor as real == r
  }

  /** The message thrown when a value cannot be converted. */
  function ParseFailure(parameter: string, value: string, what: string): string {
    "Invalid \"" + parameter + "\" value: failed to parse \"" + value + "\" as " + what
  }

  // ---------------------------------------------------------------------------
  // Option names

  predicate IsUpper(c: char) {
    'A' <= c <= 'Z'
  }

  predicate IsLower(c: char) {
    'a' <= c <= 'z'
  }

  function ToLower(c: char): (l: char)
    requires IsUpper(c)
    ensures IsLower(l)
  {
    ((c as int) + 32) as char
  }

  function ToUpper(c: char): (u: char)
    requires IsLower(c)
    ensures IsUpper(u)
  {
    ((c as int) - 32) as char
  }

  /** Every capital letter replaced by '-' and its lower-case letter. */
  function Dasherize(s: string): (r: string)
    ensures forall i :: 0 <= i < |r| ==> !IsUpper(r[i])
    ensures |r| >= |s|
  {
    if |s| == 0 then ""
    else (if IsUpper(s[0]) then ['-', ToLower(s[0])] else [s[0]]) + Dasherize(s[1..])
  }

  /** The inverse reading: '-' followed by a lower-case letter becomes the capital. */
  function Camelize(t: string): string {
    if |t| == 0 then ""
    else if |t| >= 2 && t[0] == '-' && IsLower(t[1]) then [ToUpper(t[1])] + Camelize(t[2..])
    else [t[0]] + Camelize(t[1..])
  }

  /** A parameter name without capitals is its own option name. */
  lemma {:induction false} DasherizeWithoutCapitals(s: string)
    requires forall i :: 0 <= i < |s| ==> !IsUpper(s[i])
    ensures Dasherize(s) == s
  {
    if |s| > 0 {
      DasherizeWithoutCapitals(s[1..]);
      assert [s[0]] + s[1..] == s;
    }
  }

  /** For names without dashes the conversion can be undone, so nothing is lost. */
  lemma {:induction false} CamelizeDasherize(s: string)
    requires forall i :: 0 <= i < |s| ==> s[i] != '-'
    ensures Camelize(Dasherize(s)) == s
  {
    if |s| > 0 {
      var rest := Dasherize(s[1..]);
      CamelizeDasherize(s[1..]);
      if IsUpper(s[0]) {
        var t := ['-', ToLower(s[0])] + rest;
        assert t[0] == '-' && t[1] == ToLower(s[0]) && t[2..] == rest;
        assert ToUpper(ToLower(s[0])) == s[0];
      } else {
        var t := [s[0]] + rest;
        assert t[0] == s[0] && t[1..] == rest;
      }
      assert [s[0]] + s[1..] == s;
    }
  }

  /** Two different dash-free parameter names never register the same option. */
  lemma OptionNamesDistinct(p: string, q: string)
    requires forall i :: 0 <= i < |p| ==> p[i] != '-'
    requires forall i :: 0 <= i < |q| ==> q[i] != '-'
    requires p != q
    ensures Dasherize(p) != Dasherize(q)
  {
    CamelizeDasherize(p);
    CamelizeDasherize(q);
  }

  // ---------------------------------------------------------------------------
  // Option records

  /** The option record for a declaration; `integerAsNumber` maps type `integer` to `number`. */
  function ToOption(d: Declaration, integerAsNumber: bool): (o: YargsOption)
    ensures o.describe == if d.description != "" then Some(d.description) else None
    ensures o.typeName.Some? <==> d.typeName != ""
    ensures o.typeName.Some? ==> o.typeName.value == if integerAsNumber && d.typeName == "integer" then "number" else d.typeName
    ensures o.choices == d.enumChoices
    ensures Truthy(d.defaultValue) <==> o.defaultValue == Some(d.defaultValue)
    ensures !Truthy(d.defaultValue) <==> o.defaultValue == None
    ensures Truthy(d.required) <==> o.demandOption == Some(d.required)
    ensures !Truthy(d.required) <==> o.demandOption == None
    ensures Truthy(d.conflicts) <==> o.conflicts == Some(d.conflicts)
    ensures !Truthy(d.conflicts) <==> o.conflicts == None
  {
    YargsOption(
      if d.description != "" then Some(d.description) else None,
      if d.typeName == "" then None
      else if integerAsNumber && d.typeName == "integer" then Some("number")
      else Some(d.typeName),
      d.enumChoices,
      if Truthy(d.defaultValue) then Some(d.defaultValue) else None,
      if Truthy(d.required) then Some(d.required) else None,
      if Truthy(d.conflicts) then Some(d.conflicts) else None)
  }

  /** A falsy default (0, false, "", null) never reaches the option record. */
  lemma FalsyDefaultDropped(d: Declaration, integerAsNumber: bool)
    requires d.defaultValue in {Num(0), Bool(false), Str(""), Null, Undefined}
    ensures ToOption(d, integerAsNumber).defaultValue == None
  {
  }

  // ---------------------------------------------------------------------------
  // Value coercion

  /**
   * `validateParameterValue`: integers are parsed with `parseInt`, numbers
   * with `parseFloat`, formatted strings are checked by the date library,
   * everything else is returned unchanged. An integral number is returned as
   * the integer it denotes (see `ValidateParameterValueAsWritten` for the
   * code's own reading of that case).
   */
  function ValidateParameterValue(ext: Collaborators, parameter: string, typeName: string, format: string, value: RawValue): (r: Result<OptionValue>)
    ensures typeName == "integer" ==>
      (r.Ok? <==> ParseInt(Text(value)).Some?)
      && (r.Ok? ==> r.value == IntValue(ParseInt(Text(value)).value))
      && (r.Err? ==> r.message == ParseFailure(parameter, Text(value), "integer"))
    ensures typeName == "number" ==>
      (r.Ok? <==> ext.parseFloat(Text(value)).Some?)
      && (r.Ok? ==> ((r.value.IntValue? && r.value.n as real == ext.parseFloat(Text(value)).value)
                     || (r.value.NumberValue? && r.value.r == ext.parseFloat(Text(value)).value)))
      && (r.Err? ==> r.message == ParseFailure(parameter, Text(value), "number"))
    ensures typeName == "string" && format == "date-time" ==>
      r == if ext.isDateTime(value) then Ok(Passed(value)) else Err(ParseFailure(parameter, Text(value), "date-time string"))
    ensures typeName == "string" && format == "date" ==>
      r == if ext.isDate(value) then Ok(Passed(value)) else Err(ParseFailure(parameter, Text(value), "date string"))
    ensures typeName != "integer" && typeName != "number" && (typeName != "string" || (format != "date" && format != "date-time")) ==>
      r == Ok(Passed(value))
  {
    if typeName == "integer" then
      match ParseInt(Text(value))
      case None => Err(ParseFailure(parameter, Text(value), "integer"))
      case Some(n) => Ok(IntValue(n))
    else if typeName == "number" then
      match ext.parseFloat(Text(value))
      case None => Err(ParseFailure(parameter, Text(value), "number"))
      case Some(x) => if IsIntegral(x) then Ok(IntValue(x.Floor)) else Ok(NumberValue(x))
    else if typeName == "string" && format != "" then
      if format == "date-time" && !ext.isDateTime(value) then Err(ParseFailure(parameter, Text(value), "date-time string"))
      else if format == "date" && !ext.isDate(value) then Err(ParseFailure(parameter, Text(value), "date string"))
      else Ok(Passed(value))
    else Ok(Passed(value))
  }

  /**
   * The number branch exactly as the code reads it: when `parseFloat` yields
   * an integral number, the value is parsed again with `parseInt`.
   */
  function ValidateParameterValueAsWritten(ext: Collaborators, parameter: string, typeName: string, format: string, value: RawValue): (r: Result<OptionValue>)
    ensures typeName != "number" ==> r == ValidateParameterValue(ext, parameter, typeName, format, value)
    ensures typeName == "number" && (ext.parseFloat(Text(value)).None? || !IsIntegral(ext.parseFloat(Text(value)).value)) ==>
      r == ValidateParameterValue(ext, parameter, typeName, format, value)
    ensures typeName == "number" && ext.parseFloat(Text(value)).Some? && IsIntegral(ext.parseFloat(Text(value)).value) ==>
      r.Ok? && (r.value.IntValue? <==> ParseInt(Text(value)).Some?)
      && (r.value.IntValue? ==> r.value == IntValue(ParseInt(Text(value)).value))
      && (!r.value.IntValue? ==> r.value == NotANumber)
  {
    if typeName == "number" then
      match ext.parseFloat(Text(value))
      case None => Err(ParseFailure(parameter, Text(value), "number"))
      case Some(x) =>
        if IsIntegral(x) then
          match ParseInt(Text(value))
          case Some(n) => Ok(IntValue(n))
          case None => Ok(NotANumber)
        else Ok(NumberValue(x))
    else ValidateParameterValue(ext, parameter, typeName, format, value)
  }

  /**
   * The two readings of a number differ exactly when `parseFloat` yields an
   * integral value that `parseInt` of the same text does not reproduce.
   */
  lemma NumberReadingsDiffer(ext: Collaborators, parameter: string, format: string, value: RawValue)
    ensures ValidateParameterValueAsWritten(ext, parameter, "number", format, value) != ValidateParameterValue(ext, parameter, "number", format, value) <==>
      (ext.parseFloat(Text(value)).Some? && IsIntegral(ext.parseFloat(Text(value)).value)
       && ParseInt(Text(value)) != Some(ext.parseFloat(Text(value)).value.Floor))
  {
  }

  /** `"12abc"` declared as an integer is accepted as 12. */
  lemma IntegerPrefixAccepted(ext: Collaborators, parameter: string)
    ensures ValidateParameterValue(ext, parameter, "integer", "", Scalar("12abc")) == Ok(IntValue(12))
  {
    ParseIntStopsAtLetters();
  }

  /** `"abc"` declared as an integer is rejected with a message naming parameter and value. */
  lemma IntegerGarbageRejected(ext: Collaborators, parameter: string)
    ensures ValidateParameterValue(ext, parameter, "integer", "", Scalar("abc")) == Err(ParseFailure(parameter, "abc", "integer"))
  {
    var abc := "abc";
    assert forall i :: 0 <= i < |abc| ==> !IsDigit(abc[i]);
    ParseIntWithoutDigits(abc);
  }

  /**
   * The number 1e21, which yargs makes of `--name 1e21` for a `number`
   * option, reaches the coercion and turns into the text `"1e+21"`.
   * `parseFloat` reads that as 1e21, an integer, so the code re-parses it
   * with `parseInt`, which stops at the exponent and returns 1; the
   * corrected reading returns 10^21.
   */
  lemma ExponentNumberMisread(ext: Collaborators, parameter: string)
    requires ext.parseFloat(ExponentText) == Some(Sextillion as real)
    ensures ValidateParameterValueAsWritten(ext, parameter, "number", "", Scalar(ExponentText)) == Ok(IntValue(1))
    ensures ValidateParameterValue(ext, parameter, "number", "", Scalar(ExponentText)) == Ok(IntValue(Sextillion))
  {
    ExponentAsWritten(ext, parameter);
    ExponentIntended(ext, parameter);
  }

  /** 10^21, the least integer JavaScript writes with an exponent. */
  const Sextillion: int := 1_000_000_000_000_000_000_000

  /** How JavaScript writes the number 10^21 as text. */
  const ExponentText: string := "1e+21"

  /** 10^21 is integral as a real. */
  lemma SextillionIntegral()
    ensures IsIntegral(Sextillion as real) && (Sextillion as real).Floor == Sextillion
  {
  }

  /** As written, the integral `parseFloat` result of `"1e+21"` is discarded for `parseInt`'s 1. */
  lemma ExponentAsWritten(ext: Collaborators, parameter: string)
    requires ext.parseFloat(ExponentText) == Some(Sextillion as real)
    ensures ValidateParameterValueAsWritten(ext, parameter, "number", "", Scalar(ExponentText)) == Ok(IntValue(1))
  {
    ParseIntStopsAtExponent();
    SextillionIntegral();
  }

  /** The corrected reading keeps `parseFloat`'s 10^21. */
  lemma ExponentIntended(ext: Collaborators, parameter: string)
    requires ext.parseFloat(ExponentText) == Some(Sextillion as real)
    ensures ValidateParameterValue(ext, parameter, "number", "", Scalar(ExponentText)) == Ok(IntValue(Sextillion))
  {
    SextillionIntegral();
  }

  /** `parseInt` stops at the exponent marker: `"1e+21"` reads as 1. */
  lemma ParseIntStopsAtExponent()
    ensures ParseInt(ExponentText) == Some(1)
  {
    var s := ExponentText;
    assert TrimStart(s) == s by { assert !IsJsWhitespace(s[0]); }
    assert StripSign(s) == s;
    assert DigitPrefix(s) == "1" by {
      assert !IsDigit(s[1]);
      assert DigitPrefix(s[1..]) == "";
    }
    assert DigitsValue("1") == 1 by { assert "1"[..0] == ""; }
  }

  /** `parseInt` reads the leading digits of `"12abc"` and ignores the letters. */
  lemma ParseIntStopsAtLetters()
    ensures ParseInt("12abc") == Some(12)
  {
    var s := "12abc";
    assert TrimStart(s) == s by { assert !IsJsWhitespace(s[0]); }
    assert StripSign(s) == s;
    assert DigitPrefix(s) == "12" by {
      assert !IsDigit(s[2]);
      assert DigitPrefix(s[2..]) == "";
      assert s[1..][1..] == s[2..];
    }
    assert DigitsValue("12") == 12 by { assert "12"[..1] == "1"; assert "1"[..0] == ""; }
  }

  /** Every character of a string as a one-character string: what `_.map` walks over a string. */
  function Chars(s: string): (cs: seq<string>)
    ensures |cs| == |s|
    ensures forall i :: 0 <= i < |s| ==> cs[i] == [s[i]]
  {
    seq(|s|, i requires 0 <= i < |s| => [s[i]])
  }

  /** One element of an array option validated as the declared `item` type. */
  function CheckElement(ext: Collaborators, name: string, d: Declaration, x: string): Result<OptionValue> {
    ValidateParameterValue(ext, name, d.item, d.format, Scalar(x))
  }

  /**
   * Validates the elements of an array option one after another with
   * `check`; the first element that fails decides the error.
   */
  function CoerceElements<T>(check: string -> Result<T>, xs: seq<string>): (r: Result<seq<T>>)
    ensures r.Ok? <==> forall i :: 0 <= i < |xs| ==> check(xs[i]).Ok?
    ensures r.Ok? ==> (|r.value| == |xs| && forall i :: 0 <= i < |xs| ==> check(xs[i]) == Ok(r.value[i]))
  {
    if |xs| == 0 then Ok([])
    else
      match check(xs[0])
      case Err(m) => Err(m)
      case Ok(v) =>
        match CoerceElements(check, xs[1..])
        case Err(m) => Err(m)
        case Ok(vs) =>
          assert forall i :: 1 <= i < |xs| ==> xs[i] == xs[1..][i - 1];
          Ok([v] + vs)
  }

  /** A rejected array value reports the error of its first failing element. */
  lemma {:induction false} CoerceElementsFirstFailure<T>(check: string -> Result<T>, xs: seq<string>)
    requires CoerceElements(check, xs).Err?
    ensures exists i :: (0 <= i < |xs|
      && check(xs[i]) == Err(CoerceElements(check, xs).message)
      && (forall j :: 0 <= j < i ==> check(xs[j]).Ok?))
  {
    if check(xs[0]).Err? {
      assert check(xs[0]) == Err(CoerceElements(check, xs).message);
    } else {
      var m := CoerceElements(check, xs).message;
      assert CoerceElements(check, xs[1..]) == Err(m);
      CoerceElementsFirstFailure(check, xs[1..]);
      var i :| 0 <= i < |xs| - 1
        && check(xs[1..][i]) == Err(m)
        && (forall j :: 0 <= j < i ==> check(xs[1..][j]).Ok?);
      assert xs[i + 1] == xs[1..][i];
      forall j | 0 <= j < i + 1
        ensures check(xs[j]).Ok?
      {
        if j > 0 {
          assert xs[j] == xs[1..][j - 1];
        }
      }
    }
  }

  /**
   * The coercion registered for an option: an array option validates each
   * element as `item` under the name `<option>[]`; any other option
   * validates the whole value.
   */
  function Coerce(ext: Collaborators, optionName: string, d: Declaration, raw: RawValue): (r: Result<OptionValue>)
    ensures d.typeName != "array" ==> r == ValidateParameterValue(ext, optionName, d.typeName, d.format, raw)
    ensures d.typeName == "array" && raw.List? ==>
      (r.Ok? <==> forall i :: 0 <= i < |raw.items| ==> CheckElement(ext, optionName + "[]", d, raw.items[i]).Ok?)
      && (r.Ok? ==> (r.value.Items? && |r.value.values| == |raw.items|
                     && forall i :: 0 <= i < |raw.items| ==> CheckElement(ext, optionName + "[]", d, raw.items[i]) == Ok(r.value.values[i])))
    ensures d.typeName == "array" && raw.Scalar? ==> r.Ok? ==> r.value.Items? && |r.value.values| == |raw.text|
  {
    if d.typeName == "array" then
      var xs := match raw case Scalar(s) => Chars(s) case List(items) => items;
      match CoerceElements((x: string) => CheckElement(ext, optionName + "[]", d, x), xs)
      case Err(m) => Err(m)
      case Ok(vs) => Ok(Items(vs))
    else ValidateParameterValue(ext, optionName, d.typeName, d.format, raw)
  }

  // ---------------------------------------------------------------------------
  // Registration

  /** What is registered for one parameter: the option, and the declaration its coercion closes over. */
  datatype Registration = Registration(name: string, option: YargsOption, coercion: Option<Declaration>)

  /** `parameterDeclarationToYargs` once the option name is known. */
  function ParameterDeclarationToYargs(optionName: string, d: Declaration): (reg: Registration)
    ensures reg.name == optionName && reg.coercion == Some(d)
    ensures reg.option == ToOption(d, true)
  {
    Registration(optionName, ToOption(d, true), Some(d))
  }

  /** The coerced value the parser stores for a raw value of a registered option. */
  function ApplyCoercion(ext: Collaborators, reg: Registration, raw: RawValue): (r: Result<OptionValue>)
    ensures reg.coercion.None? ==> r == Ok(Passed(raw))
  {
    match reg.coercion
    case None => Ok(Passed(raw))
    case Some(d) => Coerce(ext, reg.name, d, raw)
  }

  /** Registers every parameter in declaration order, naming options with `nameOf`. */
  function RegisterAll(nameOf: string -> string, decls: Entries<Declaration>): (regs: seq<Registration>)
    ensures |regs| == |decls|
    ensures forall i :: 0 <= i < |decls| ==> regs[i] == ParameterDeclarationToYargs(nameOf(decls[i].0), decls[i].1)
  {
    seq(|decls|, i requires 0 <= i < |decls| => ParameterDeclarationToYargs(nameOf(decls[i].0), decls[i].1))
  }

  /**
   * `configDeclarationToYargs` (JavaScript): one registration per declared
   * parameter, in order, named by replacing capitals with '-' and the
   * lower-case letter; names of distinct dash-free parameters are distinct.
   */
  function ConfigDeclarationToYargs(decls: Entries<Declaration>): (regs: seq<Registration>)
    ensures |regs| == |decls|
    ensures forall i :: 0 <= i < |decls| ==>
      && regs[i].name == Dasherize(decls[i].0)
      && regs[i].option == ToOption(decls[i].1, true)
      && regs[i].coercion == Some(decls[i].1)
    ensures DistinctKeys(decls) && (forall i :: 0 <= i < |decls| ==> '-' !in decls[i].0) ==>
      forall i, j :: 0 <= i < j < |decls| ==> regs[i].name != regs[j].name
  {
    var regs := RegisterAll(Dasherize, decls);
    assert DistinctKeys(decls) && (forall i :: 0 <= i < |decls| ==> '-' !in decls[i].0) ==>
      forall i, j :: 0 <= i < j < |decls| ==> regs[i].name != regs[j].name by {
      if DistinctKeys(decls) && (forall i :: 0 <= i < |decls| ==> '-' !in decls[i].0) {
        forall i, j | 0 <= i < j < |decls|
          ensures regs[i].name != regs[j].name
        {
          OptionNamesDistinct(decls[i].0, decls[j].0);
        }
      }
    }
    regs
  }

  /** `configDeclarationToYargs` (TypeScript): the same, with option names from `_.kebabCase`. */
  function ConfigDeclarationToYargsTs(ext: Collaborators, decls: Entries<Declaration>): (regs: seq<Registration>)
    ensures |regs| == |decls|
    ensures forall i :: 0 <= i < |decls| ==>
      && regs[i].name == ext.kebabCase(decls[i].0)
      && regs[i].option == ToOption(decls[i].1, true)
      && regs[i].coercion == Some(decls[i].1)
  {
    RegisterAll(ext.kebabCase, decls)
  }
}

=== FILE: filter_command.dfy ===
/**
 * The `filter` command (lib/commands/filter.ts and lib/commands/filter.js):
 * records read from standard input are kept when their verdict holds, the
 * progress meter counts them, and a promise over the stream stages settles
 * the run. The two implementations differ in which events settle it.
 */
module FilterCommand {
  import opened Wrappers
  import opened JsValues
  import opened JsObjects
  import opened ProgressMeter
  import opened Validation
  import opened Command

  /** The options the handler reads. */
  datatype Args = Args(invert: bool, fail: bool, abort: bool, progress: bool)

  /** What the filter callback does with one record. */
  datatype Outcome = Keep | Drop | Throw(message: string)

  /**
   * What the handler observes: a record reaching the filter callback (with
   * the schema's answer for it), an `error` event of any stage, or standard
   * output reporting `unpipe` (from the JSON writer or from another source).
   */
  datatype Event = Record(valid: bool) | StageError | Unpipe(fromWriter: bool)

  /** The handler's state: the meter, `argv.abort`, the callback's outcomes so far, the promise. */
  datatype Run = Run(progress: Option<Progress>, abort: bool, outcomes: seq<Outcome>, settlement: Settlement)

  /** The meter's formatters (colours left out). */
  const Formatters: map<string, JsValue -> string> := map[
    "filtered" := (v: JsValue) => "? filtered: " + ToText(v),
    "valid" := (v: JsValue) => "\U{2713} valid: " + ToText(v),
    "invalid" := (v: JsValue) => "\U{2717} invalid: " + ToText(v)]

  const CounterNames: seq<string> := ["filtered", "valid", "invalid"]

  /**
   * The handler's setup: the meter exists iff `--progress`, is started, and
   * its three counters are then set to 0.
   */
  function Initial(v: Variant, args: Args, timer: JsValue): (r: Run)
    requires timer.Obj?
    ensures r.progress.Some? <==> args.progress
    ensures r.progress.Some? ==> Valid(r.progress.value) && Running(r.progress.value) && HasCounters(r.progress.value, "filtered", 0, 0, 0)
    ensures r.abort == args.abort && r.outcomes == [] && r.settlement == Pending
  {
    if args.progress then
      var started := Start(v, New(Formatters, Undefined), timer).0;
      assert CounterNames[0] == "filtered" && CounterNames[1] == "valid" && CounterNames[2] == "invalid";
      ResetCountersValid(started, CounterNames);
      Run(Some(ResetCounters(started, CounterNames)), args.abort, [], Pending)
    else
      Run(None, args.abort, [], Pending)
  }

  /** The callback's outcome for a record, given its verdict. */
  function OutcomeOf(args: Args, accepted: bool): Outcome {
    if accepted then Keep else if args.fail then Throw("Invalid data") else Drop
  }

  /**
   * The filter callback: the verdict decides; a rejected record under
   * `--fail` sets `argv.abort` and throws `Invalid data`.
   */
  function FilterRecord(args: Args, r: Run, valid: bool): (q: Run)
    ensures q.outcomes == r.outcomes + [OutcomeOf(args, Verdict(valid, args.invert))]
    ensures q.abort == (r.abort || (!Verdict(valid, args.invert) && args.fail))
    ensures q.settlement == r.settlement
    ensures q.progress.Some? <==> r.progress.Some?
    ensures r.progress.Some? ==> q.progress.value == Count(r.progress.value, "filtered", Verdict(valid, args.invert))
  {
    var accepted := Verdict(valid, args.invert);
    var progress := match r.progress case None => None case Some(p) => Some(Count(p, "filtered", accepted));
    if !accepted && args.fail then
      r.(progress := progress, abort := true, outcomes := r.outcomes + [Throw("Invalid data")])
    else
      r.(progress := progress, outcomes := r.outcomes + [if accepted then Keep else Drop])
  }

  /** Under `--invert --fail` the throw happens for the records the schema accepts. */
  lemma InvertedFailThrowsOnValid(args: Args, r: Run)
    requires args.invert && args.fail
    ensures FilterRecord(args, r, true).outcomes[|r.outcomes|] == Throw("Invalid data")
    ensures FilterRecord(args, r, false).outcomes[|r.outcomes|] == Keep
  {
  }

  /**
   * How a non-record event settles a pending promise. TypeScript: every
   * stage error rejects and any `unpipe` resolves. JavaScript: a stage error
   * rejects only while `argv.abort` is truthy, and only the writer's
   * `unpipe` resolves.
   */
  function Settle(v: Variant, abort: bool, e: Event): (s: Settlement)
    requires !e.Record?
    ensures e.StageError? ==> (s == Rejected <==> (v.Ts? || abort)) && !s.Resolved?
    ensures e.Unpipe? ==> (s == Resolved <==> (v.Ts? || e.fromWriter)) && !s.Rejected?
  {
    match e
    case StageError => if v.Ts? || abort then Rejected else Pending
    case Unpipe(fromWriter) => if v.Ts? || fromWriter then Resolved else Pending
  }

  /** A record the callback throws for: rejected under `--fail`. */
  predicate Throws(args: Args, e: Event) {
    e.Record? && args.fail && !Verdict(e.valid, args.invert)
  }

  /**
   * One event; the promise settles once. The callback's throw surfaces as
   * the filter stage's `error`, with `argv.abort` already set by the
   * callback, so it rejects a pending promise in both implementations.
   */
  function Step(v: Variant, args: Args, r: Run, e: Event): (q: Run)
    ensures !r.settlement.Pending? ==> q.settlement == r.settlement
    ensures r.settlement.Pending? && Throws(args, e) ==> q.settlement == Rejected
    ensures e.Record? && !Throws(args, e) ==> q.settlement == r.settlement
  {
    match e
    case Record(valid) =>
      var q := FilterRecord(args, r, valid);
      if Throws(args, e) && q.settlement.Pending? then q.(settlement := Settle(v, q.abort, StageError)) else q
    case _ => if r.settlement.Pending? then r.(settlement := Settle(v, r.abort, e)) else r
  }

  function RunEvents(v: Variant, args: Args, r: Run, events: seq<Event>): Run
    decreases |events|
  {
    if |events| == 0 then r else RunEvents(v, args, Step(v, args, r, events[0]), events[1..])
  }

  /** The verdicts of the records among the events, in order. */
  function Verdicts(args: Args, events: seq<Event>): (vs: seq<bool>)
    ensures |vs| <= |events|
  {
    if |events| == 0 then []
    else (if events[0].Record? then [Verdict(events[0].valid, args.invert)] else []) + Verdicts(args, events[1..])
  }

  /**
   * Only the records change the meter while the handler runs: each is
   * counted under its verdict, so with `Validation.CounterCountsAll` the
   * counters follow the records and `filtered = valid + invalid` is kept.
   */
  lemma {:induction false} RunCountsRecords(v: Variant, args: Args, r: Run, events: seq<Event>)
    requires r.progress.Some?
    ensures RunEvents(v, args, r, events).progress == Some(CountAll(Counter("filtered"), r.progress.value, Verdicts(args, events)))
    decreases |events|
  {
    if |events| > 0 {
      var q := Step(v, args, r, events[0]);
      RunCountsRecords(v, args, q, events[1..]);
      var rest := Verdicts(args, events[1..]);
      if events[0].Record? {
        var accepted := Verdict(events[0].valid, args.invert);
        assert Verdicts(args, events) == [accepted] + rest;
        assert ([accepted] + rest)[1..] == rest;
      } else {
        assert Verdicts(args, events) == rest;
      }
    }
  }

  /** The callback answers every record: one outcome per verdict, in order. */
  lemma {:induction false} OutcomesFollowVerdicts(v: Variant, args: Args, r: Run, events: seq<Event>)
    ensures var q := RunEvents(v, args, r, events);
      var vs := Verdicts(args, events);
      |q.outcomes| == |r.outcomes| + |vs|
      && q.outcomes[..|r.outcomes|] == r.outcomes
      && forall i :: 0 <= i < |vs| ==> q.outcomes[|r.outcomes| + i] == OutcomeOf(args, vs[i])
    decreases |events|
  {
    if |events| > 0 {
      var q := Step(v, args, r, events[0]);
      OutcomesFollowVerdicts(v, args, q, events[1..]);
      var rest := Verdicts(args, events[1..]);
      var head := if events[0].Record? then [Verdict(events[0].valid, args.invert)] else [];
      assert Verdicts(args, events) == head + rest;
      var final := RunEvents(v, args, q, events[1..]);
      assert final.outcomes[..|q.outcomes|] == q.outcomes;
      assert final.outcomes[..|r.outcomes|] == q.outcomes[..|r.outcomes|];
    }
  }

  /** `argv.abort` ends up set iff it was set or some record threw. */
  lemma {:induction false} AbortRecordsThrows(v: Variant, args: Args, r: Run, events: seq<Event>)
    ensures RunEvents(v, args, r, events).abort <==> r.abort || exists i :: 0 <= i < |events| && Throws(args, events[i])
    decreases |events|
  {
    if |events| > 0 {
      var q := Step(v, args, r, events[0]);
      AbortRecordsThrows(v, args, q, events[1..]);
      if exists i :: 0 <= i < |events| - 1 && Throws(args, events[1..][i]) {
        var i :| 0 <= i < |events| - 1 && Throws(args, events[1..][i]);
        assert events[i + 1] == events[1..][i];
      }
      if exists i :: 0 <= i < |events| && Throws(args, events[i]) {
        var i :| 0 <= i < |events| && Throws(args, events[i]);
        if i > 0 {
          assert events[1..][i - 1] == events[i];
        }
      }
    }
  }

  /**
   * The TypeScript settlement, read directly off the events: the first
   * throwing record, stage error or `unpipe` decides.
   */
  function FirstSettlementTs(args: Args, events: seq<Event>): Settlement
    decreases |events|
  {
    if |events| == 0 then Pending
    else if Throws(args, events[0]) || events[0].StageError? then Rejected
    else if events[0].Unpipe? then Resolved
    else FirstSettlementTs(args, events[1..])
  }

  /** In TypeScript any stage error rejects, whether or not `--abort` is given. */
  lemma {:induction false} TsSettlement(args: Args, r: Run, events: seq<Event>)
    requires r.settlement.Pending?
    ensures RunEvents(Ts, args, r, events).settlement == FirstSettlementTs(args, events)
    decreases |events|
  {
    if |events| > 0 {
      var q := Step(Ts, args, r, events[0]);
      if q.settlement.Pending? {
        TsSettlement(args, q, events[1..]);
      } else {
        RunKeepsSettlement(Ts, args, q, events[1..]);
      }
    }
  }

  /**
   * The JavaScript settlement, read directly off the events: a throwing
   * record rejects; a stage error rejects only when `argv.abort` was given;
   * only the writer's `unpipe` resolves; everything else leaves it pending.
   */
  function FirstSettlementJs(args: Args, abort: bool, events: seq<Event>): Settlement
    decreases |events|
  {
    if |events| == 0 then Pending
    else if Throws(args, events[0]) || (events[0].StageError? && abort) then Rejected
    else if events[0].Unpipe? && events[0].fromWriter then Resolved
    else FirstSettlementJs(args, abort, events[1..])
  }

  /**
   * In JavaScript the run settles as the first decisive event says: a
   * throwing record, a stage error under `--abort`, or the writer's `unpipe`.
   */
  lemma {:induction false} JsSettlement(args: Args, r: Run, events: seq<Event>)
    requires r.settlement.Pending?
    ensures RunEvents(Js, args, r, events).settlement == FirstSettlementJs(args, r.abort, events)
    decreases |events|
  {
    if |events| > 0 {
      var q := Step(Js, args, r, events[0]);
      if q.settlement.Pending? {
        assert q.abort == r.abort;
        JsSettlement(args, q, events[1..]);
      } else {
        RunKeepsSettlement(Js, args, q, events[1..]);
      }
    }
  }

  /** A settled promise stays settled. */
  lemma {:induction false} RunKeepsSettlement(v: Variant, args: Args, r: Run, events: seq<Event>)
    requires !r.settlement.Pending?
    ensures RunEvents(v, args, r, events).settlement == r.settlement
    decreases |events|
  {
    if |events| > 0 {
      RunKeepsSettlement(v, args, Step(v, args, r, events[0]), events[1..]);
    }
  }

  /** In JavaScript, without `--abort` and `--fail`, stage errors never reject the run. */
  lemma {:induction false} JsNoRejectionWithoutAbort(args: Args, r: Run, events: seq<Event>)
    requires !args.fail && !r.abort && !r.settlement.Rejected?
    ensures !RunEvents(Js, args, r, events).settlement.Rejected?
    decreases |events|
  {
    if |events| > 0 {
      var q := Step(Js, args, r, events[0]);
      JsNoRejectionWithoutAbort(args, q, events[1..]);
    }
  }

  /**
   * In JavaScript a record rejected under `--fail` sets `argv.abort`, and
   * the filter stage's error its throw raises rejects the run: whatever came
   * before without settling it, and whatever comes after.
   */
  lemma JsFailThrowRejects(args: Args, r: Run, before: seq<Event>, valid: bool, after: seq<Event>)
    requires args.fail && !Verdict(valid, args.invert) && r.settlement.Pending?
    requires FirstSettlementJs(args, r.abort, before) == Pending
    ensures RunEvents(Js, args, r, before + [Record(valid)] + after).settlement == Rejected
  {
    var events := before + [Record(valid)] + after;
    JsSettlement(args, r, events);
    FirstSettlementJsThrough(args, r.abort, before, valid, after);
  }

  /** Past a pending prefix, a throwing record decides the JavaScript settlement. */
  lemma {:induction false} FirstSettlementJsThrough(args: Args, abort: bool, before: seq<Event>, valid: bool, after: seq<Event>)
    requires args.fail && !Verdict(valid, args.invert)
    requires FirstSettlementJs(args, abort, before) == Pending
    ensures FirstSettlementJs(args, abort, before + [Record(valid)] + after) == Rejected
    decreases |before|
  {
    var events := before + [Record(valid)] + after;
    if |before| == 0 {
      assert events[0] == Record(valid);
    } else {
      assert events[0] == before[0];
      assert events[1..] == before[1..] + [Record(valid)] + after;
      FirstSettlementJsThrough(args, abort, before[1..], valid, after);
    }
  }

  /** The exit code: 70 after a rejection, none after success. */
  function ExitCode(r: Run): (code: Option<int>)
    ensures code.Some? <==> r.settlement.Rejected?
    ensures code.Some? ==> code.value == ExSoftware
  {
    if r.settlement.Rejected? then Some(ExSoftware) else None
  }

  /** On settling either way the meter is cancelled: its timer stops. */
  function Finish(v: Variant, r: Run): (q: Run)
    requires !r.settlement.Pending?
    ensures q.progress.Some? <==> r.progress.Some?
    ensures q.progress.Some? ==> !Running(q.progress.value) && q.progress.value.props == r.progress.value.props
  {
    match r.progress
    case None => r
    case Some(p) => r.(progress := Some(Cancel(v, p).0))
  }
}

=== FILE: framing.dfy ===
/**
 * The JSON array the tools write by hand to standard output: `[` when the
 * output opens, a comma before every entry but the first, `]` and a newline
 * when it closes. Entries are the already serialised JSON texts.
 */
module Framing {
  import opened JsValues

  /** The text written so far and `outputtedEntries`. */
  datatype Output = Output(text: string, outputted: nat)

  /** `openOutput`. */
  function Open(): (o: Output)
    ensures o.text == "[" && o.outputted == 0
  {
    Output("[", 0)
  }

  /** `outputEntry`: a comma first unless this is the first entry. */
  function OutputEntry(o: Output, entry: string): (r: Output)
    ensures r.outputted == o.outputted + 1
    ensures r.text == o.text + (if o.outputted > 0 then "," else "") + entry
  {
    Output(o.text + (if o.outputted > 0 then "," else "") + entry, o.outputted + 1)
  }

  /** Outputs entries in order. */
  function OutputAll(o: Output, entries: seq<string>): Output
    decreases |entries|
  {
    if |entries| == 0 then o
    else OutputEntry(OutputAll(o, entries[..|entries| - 1]), entries[|entries| - 1])
  }

  /** Outputting two batches one after the other is outputting them together. */
  lemma {:induction false} OutputAllAppend(o: Output, xs: seq<string>, ys: seq<string>)
    ensures OutputAll(o, xs + ys) == OutputAll(OutputAll(o, xs), ys)
    decreases |ys|
  {
    if |ys| == 0 {
      assert xs + ys == xs;
    } else {
      var init := ys[..|ys| - 1];
      OutputAllAppend(o, xs, init);
      assert (xs + ys)[..|xs + ys| - 1] == xs + init;
    }
  }

  /** Outputting a first entry, then the rest. */
  lemma OutputAllCons(o: Output, x: string, xs: seq<string>)
    ensures OutputAll(o, [x] + xs) == OutputAll(OutputEntry(o, x), xs)
  {
    OutputAllAppend(o, [x], xs);
    assert [x][..0] == [];
  }

  /** `closeOutput`: the text the tool leaves on standard output. */
  function Close(o: Output): (text: string)
    ensures |text| == |o.text| + 2
  {
    o.text + "]\n"
  }

  /**
   * After entries are output from a freshly opened output, the text is the
   * JSON array of the entries so far and the counter equals their number.
   */
  lemma {:induction false} OutputAllFramed(entries: seq<string>)
    ensures OutputAll(Open(), entries).text == "[" + Join(",", entries)
    ensures OutputAll(Open(), entries).outputted == |entries|
    decreases |entries|
  {
    if |entries| > 0 {
      var init := entries[..|entries| - 1];
      var last := entries[|entries| - 1];
      OutputAllFramed(init);
      assert entries == init + [last];
      if |init| > 0 {
        JoinSnoc(",", init, last);
      } else {
        assert entries == [last];
      }
    }
  }

  /** The closed output is `[`, the comma-separated entries, `]` and a newline; `[]\n` when empty. */
  lemma Framed(entries: seq<string>)
    ensures Close(OutputAll(Open(), entries)) == "[" + Join(",", entries) + "]\n"
    ensures |entries| == 0 ==> Close(OutputAll(Open(), entries)) == "[]\n"
  {
    OutputAllFramed(entries);
  }
}

=== FILE: helpers.dfy ===
/**
 * The older option mapping of lib/helpers.js: the same name conversion and
 * truthy-field copying as the main mapping, but the declared type is copied
 * as is and no value coercion is registered.
 */
module Helpers {
  import opened Wrappers
  import opened JsValues
  import opened JsObjects
  import opened ConfigDeclaration

  /** `parameterDeclarationToYargsOption`: fields copied when truthy, the type verbatim. */
  function ParameterDeclarationToYargsOption(d: Declaration): (o: YargsOption)
    ensures o.typeName == if d.typeName == "" then None else Some(d.typeName)
    ensures o.describe == ToOption(d, true).describe
    ensures o.choices == ToOption(d, true).choices
    ensures o.defaultValue == ToOption(d, true).defaultValue
    ensures o.demandOption == ToOption(d, true).demandOption
    ensures o.conflicts == ToOption(d, true).conflicts
  {
    ToOption(d, false)
  }

  /** `configDeclarationToYargs`: one option per parameter, no coercion attached. */
  function ConfigDeclarationToYargs(decls: Entries<Declaration>): (regs: seq<Registration>)
    ensures |regs| == |decls|
    ensures forall i :: 0 <= i < |decls| ==>
      && regs[i].name == Dasherize(decls[i].0)
      && regs[i].option == ParameterDeclarationToYargsOption(decls[i].1)
      && regs[i].coercion.None?
  {
    seq(|decls|, i requires 0 <= i < |decls| => Registration(Dasherize(decls[i].0), ParameterDeclarationToYargsOption(decls[i].1), None))
  }

  /**
   * The helper registrations and the main ones name the same options with
   * the same records, except that only the main mapping turns `integer` into
   * `number` and attaches a coercion.
   */
  lemma AgreesWithMainMapping(decls: Entries<Declaration>, i: int)
    requires 0 <= i < |decls|
    ensures ConfigDeclarationToYargs(decls)[i].name == ConfigDeclaration.ConfigDeclarationToYargs(decls)[i].name
    ensures decls[i].1.typeName != "integer" <==>
      ConfigDeclarationToYargs(decls)[i].option == ConfigDeclaration.ConfigDeclarationToYargs(decls)[i].option
  {
    var d := decls[i].1;
    if d.typeName == "integer" {
      assert ToOption(d, false).typeName == Some("integer");
    }
  }

  /** With no coercion registered, every raw value reaches the command unchanged. */
  lemma RawValuesPassUnchanged(ext: Collaborators, decls: Entries<Declaration>, i: int, raw: RawValue)
    requires 0 <= i < |decls|
    ensures ApplyCoercion(ext, ConfigDeclarationToYargs(decls)[i], raw) == Ok(Passed(raw))
  {
  }
}

=== FILE: js_numbers.dfy ===
/**
 * `Number.parseInt` on decimal text and the decimal rendering of integers.
 *
 * `ParseInt` skips leading JavaScript white space, accepts one optional sign,
 * takes the longest run of decimal digits that follows and fails (JavaScript
 * returns `NaN`) when that run is empty.
 */
module JsNumbers {
  import opened Wrappers

  predicate IsDigit(c: char) {
    '0' <= c <= '9'
  }

  predicate AllDigits(s: string) {
    forall i :: 0 <= i < |s| ==> IsDigit(s[i])
  }

  function DigitValue(c: char): (d: nat)
    requires IsDigit(c)
    ensures d < 10
  {
    (c as int) - ('0' as int)
  }

  function DigitChar(d: nat): (c: char)
    requires d < 10
    ensures IsDigit(c) && DigitValue(c) == d
  {
    (('0' as int) + d) as char
  }

  /** The white space and line terminators that `parseInt` skips. */
  predicate IsJsWhitespace(c: char) {
    || c == '\t' || c == '\n' || c == '\U{000B}' || c == '\U{000C}' || c == '\r' || c == ' '
    || c == '\U{00A0}' || c == '\U{1680}' || ('\U{2000}' <= c <= '\U{200A}')
    || c == '\U{2028}' || c == '\U{2029}' || c == '\U{202F}' || c == '\U{205F}'
    || c == '\U{3000}' || c == '\U{FEFF}'
  }

  /** Drops the leading white space of `s`. */
  function TrimStart(s: string): (r: string)
    ensures |r| <= |s| && r == s[|s| - |r|..]
    ensures |r| > 0 ==> !IsJsWhitespace(r[0])
  {
    if |s| > 0 && IsJsWhitespace(s[0]) then TrimStart(s[1..]) else s
  }

  /** The longest prefix of `s` made of decimal digits. */
  function DigitPrefix(s: string): (r: string)
    ensures |r| <= |s| && r == s[..|r|]
    ensures AllDigits(r)
  {
    if |s| > 0 && IsDigit(s[0]) then [s[0]] + DigitPrefix(s[1..]) else ""
  }

  /** The value of a digit string read most-significant digit first. */
  function DigitsValue(ds: string): nat
    requires AllDigits(ds)
  {
    if |ds| == 0 then 0 else DigitsValue(ds[..|ds| - 1]) * 10 + DigitValue(ds[|ds| - 1])
  }

  /** Drops one leading sign character. */
  function StripSign(t: string): string {
    if |t| > 0 && (t[0] == '-' || t[0] == '+') then t[1..] else t
  }

  /** `Number.parseInt(s)`; `None` stands for `NaN`. */
  function ParseInt(s: string): Option<int> {
    var t := TrimStart(s);
    var ds := DigitPrefix(StripSign(t));
    if |ds| == 0 then None
    else if |t| > 0 && t[0] == '-' then Some(-(DigitsValue(ds) as int))
    else Some(DigitsValue(ds))
  }

  /** The decimal text of a natural number, without leading zeros. */
  function NatToString(n: nat): (r: string)
    ensures |r| > 0 && AllDigits(r)
    ensures DigitsValue(r) == n
    ensures |r| > 1 ==> r[0] != '0'
  {
    if n < 10 then [DigitChar(n)]
    else
      var prefix := NatToString(n / 10);
      var r := prefix + [DigitChar(n % 10)];
      assert r[..|r| - 1] == prefix;
      r
  }

  /** `String(n)` for an integer. */
  function IntToString(n: int): string {
    if n < 0 then "-" + NatToString(-n) else NatToString(n)
  }

  lemma {:induction false} DigitPrefixOfDigits(ds: string, rest: string)
    requires AllDigits(ds)
    requires |rest| == 0 || !IsDigit(rest[0])
    ensures DigitPrefix(ds + rest) == ds
  {
    if |ds| > 0 {
      assert (ds + rest)[0] == ds[0];
      assert (ds + rest)[1..] == ds[1..] + rest;
      DigitPrefixOfDigits(ds[1..], rest);
      assert [ds[0]] + ds[1..] == ds;
    } else {
      assert ds + rest == rest;
    }
  }

  lemma {:induction false} TrimStartOf(ws: string, t: string)
    requires forall i :: 0 <= i < |ws| ==> IsJsWhitespace(ws[i])
    requires |t| == 0 || !IsJsWhitespace(t[0])
    ensures TrimStart(ws + t) == t
  {
    if |ws| > 0 {
      assert (ws + t)[0] == ws[0];
      assert (ws + t)[1..] == ws[1..] + t;
      TrimStartOf(ws[1..], t);
    } else {
      assert ws + t == t;
    }
  }

  /**
   * The parse of a string made of white space, an optional sign, a non-empty
   * digit run and a remainder that does not start with a digit is the signed
   * value of the digit run: `parseInt("  -12abc") == -12`.
   */
  lemma ParseIntDecomposed(ws: string, sign: string, ds: string, rest: string)
    requires forall i :: 0 <= i < |ws| ==> IsJsWhitespace(ws[i])
    requires |sign| <= 1 && (|sign| == 1 ==> sign[0] == '-' || sign[0] == '+')
    requires |ds| > 0 && AllDigits(ds)
    requires |rest| == 0 || !IsDigit(rest[0])
    ensures ParseInt(ws + (sign + (ds + rest)))
         == Some(if |sign| == 1 && sign[0] == '-' then -(DigitsValue(ds) as int) else DigitsValue(ds))
  {
    var body := ds + rest;
    var t := sign + body;
    assert body[0] == ds[0];
    if |sign| == 1 {
      assert t[0] == sign[0];
    } else {
      assert t[0] == ds[0] && t[0] != '-';
    }
    assert !IsJsWhitespace(t[0]);
    TrimStartOf(ws, t);
    StripSignOf(sign, body);
    DigitPrefixOfDigits(ds, rest);
    ParseIntFromParts(ws + t, t, ds);
  }

  /** Reassembles a parse from its three steps. */
  lemma ParseIntFromParts(s: string, t: string, ds: string)
    requires TrimStart(s) == t
    requires DigitPrefix(StripSign(t)) == ds && |ds| > 0
    ensures ParseInt(s) == Some(if t[0] == '-' then -(DigitsValue(ds) as int) else DigitsValue(ds))
  {
  }

  lemma StripSignOf(sign: string, body: string)
    requires |sign| <= 1 && (|sign| == 1 ==> sign[0] == '-' || sign[0] == '+')
    requires |body| > 0 && IsDigit(body[0])
    ensures StripSign(sign + body) == body
  {
    if |sign| == 1 {
      assert (sign + body)[1..] == body;
    } else {
      assert sign + body == body;
    }
  }

  /** A string that holds no decimal digit at all never parses. */
  lemma ParseIntWithoutDigits(s: string)
    requires forall i :: 0 <= i < |s| ==> !IsDigit(s[i])
    ensures ParseInt(s) == None
  {
    var t := TrimStart(s);
    var body := StripSign(t);
    if |body| > 0 {
      assert body[0] in s;
    }
  }

  /** Parsing the decimal text of an integer gives the integer back. */
  lemma ParseIntOfIntToString(n: int)
    ensures ParseInt(IntToString(n)) == Some(n)
  {
    var ds := NatToString(if n < 0 then -n else n);
    var sign := if n < 0 then "-" else "";
    ParseIntDecomposed("", sign, ds, "");
    assert "" + (sign + (ds + "")) == IntToString(n);
  }

  /** Distinct integers have distinct decimal texts. */
  lemma IntToStringInjective(m: int, n: int)
    requires IntToString(m) == IntToString(n)
    ensures m == n
  {
    ParseIntOfIntToString(m);
    ParseIntOfIntToString(n);
  }
}

=== FILE: js_objects.dfy ===
/**
 * Plain JavaScript objects as insertion-ordered lists of own properties,
 * with property assignment and `Object.assign`.
 */
module JsObjects {
  import opened Wrappers
  import opened JsNumbers

  /** The own enumerable properties of an object, in enumeration order. */
  type Entries<V> = seq<(string, V)>

  function Keys<V>(e: Entries<V>): (ks: seq<string>)
    ensures |ks| == |e|
    ensures forall i :: 0 <= i < |e| ==> ks[i] == e[i].0
  {
    if |e| == 0 then [] else [e[0].0] + Keys(e[1..])
  }

  function Values<V>(e: Entries<V>): (vs: seq<V>)
    ensures |vs| == |e|
    ensures forall i :: 0 <= i < |e| ==> vs[i] == e[i].1
  {
    if |e| == 0 then [] else [e[0].1] + Values(e[1..])
  }

  /** No key occurs twice: what every real object satisfies. */
  predicate DistinctKeys<V>(e: Entries<V>) {
    forall i, j :: 0 <= i < j < |e| ==> e[i].0 != e[j].0
  }

  predicate HasKey<V>(e: Entries<V>, k: string) {
    exists i :: 0 <= i < |e| && e[i].0 == k
  }

  /** Property lookup: `o[k]`, `None` when the object has no such own property. */
  function Get<V>(e: Entries<V>, k: string): Option<V> {
    if |e| == 0 then None
    else if e[0].0 == k then Some(e[0].1)
    else Get(e[1..], k)
  }

  /**
   * A lookup finds a value exactly when the key is present, and the value it
   * finds is stored under that key.
   */
  lemma {:induction false} GetFinds<V>(e: Entries<V>, k: string)
    ensures Get(e, k).Some? <==> HasKey(e, k)
    ensures Get(e, k).Some? ==> exists i :: 0 <= i < |e| && e[i] == (k, Get(e, k).value)
  {
    if |e| > 0 && e[0].0 != k {
      GetFinds(e[1..], k);
      HasKeyTail(e, k);
      if Get(e, k).Some? {
        var i :| 0 <= i < |e| - 1 && e[1..][i] == (k, Get(e, k).value);
        assert e[i + 1] == (k, Get(e, k).value);
      }
    } else if |e| > 0 {
      assert e[0] == (k, Get(e, k).value);
    }
  }

  /** A key other than the first one is present iff it is present in the tail. */
  lemma HasKeyTail<V>(e: Entries<V>, k: string)
    requires |e| > 0 && e[0].0 != k
    ensures HasKey(e, k) <==> HasKey(e[1..], k)
  {
    if HasKey(e, k) {
      var i :| 0 <= i < |e| && e[i].0 == k;
      assert e[1..][i - 1].0 == k;
    }
    if HasKey(e[1..], k) {
      var i :| 0 <= i < |e| - 1 && e[1..][i].0 == k;
      assert e[i + 1].0 == k;
    }
  }

  /**
   * `o[k] = v`: an existing property keeps its position and takes the new
   * value, a new property is appended.
   */
  function Put<V>(e: Entries<V>, k: string, v: V): (r: Entries<V>)
    ensures Get(r, k) == Some(v)
    ensures forall j :: j != k ==> Get(r, j) == Get(e, j)
  {
    if |e| == 0 then [(k, v)]
    else if e[0].0 == k then
      var r := [(k, v)] + e[1..];
      assert r[1..] == e[1..];
      r
    else
      var tail := Put(e[1..], k, v);
      var r := [e[0]] + tail;
      assert r[1..] == tail;
      r
  }

  /** An existing property keeps its place; a new one comes last. */
  lemma {:induction false} PutKeys<V>(e: Entries<V>, k: string, v: V)
    ensures Keys(Put(e, k, v)) == if HasKey(e, k) then Keys(e) else Keys(e) + [k]
  {
    if |e| > 0 && e[0].0 != k {
      PutKeys(e[1..], k, v);
      HasKeyTail(e, k);
      assert Keys(e) == [e[0].0] + Keys(e[1..]);
      assert Keys(Put(e, k, v)) == [e[0].0] + Keys(Put(e[1..], k, v));
    } else if |e| > 0 {
      assert HasKey(e, k) by {
        assert e[0].0 == k;
      }
      assert Keys(Put(e, k, v)) == Keys(e);
    }
  }

  /** A lookup finds the first property under the key. */
  lemma {:induction false} GetAt<V>(e: Entries<V>, j: nat)
    requires j < |e| && forall i :: 0 <= i < j ==> e[i].0 != e[j].0
    ensures Get(e, e[j].0) == Some(e[j].1)
  {
    if j > 0 {
      GetAt(e[1..], j - 1);
    }
  }

  /** Assigning a property the object lacks appends it. */
  lemma {:induction false} PutNew<V>(e: Entries<V>, k: string, v: V)
    requires !HasKey(e, k)
    ensures Put(e, k, v) == e + [(k, v)]
  {
    if |e| > 0 {
      assert e[0].0 != k;
      HasKeyTail(e, k);
      PutNew(e[1..], k, v);
      assert e == [e[0]] + e[1..];
    }
  }

  /** Assigning a property the object has replaces its value in place. */
  lemma {:induction false} PutExisting<V>(e: Entries<V>, j: nat, v: V)
    requires j < |e| && forall i :: 0 <= i < j ==> e[i].0 != e[j].0
    ensures Put(e, e[j].0, v) == e[j := (e[j].0, v)]
  {
    if j > 0 {
      PutExisting(e[1..], j - 1, v);
      assert e[j := (e[j].0, v)] == [e[0]] + e[1..][j - 1 := (e[j].0, v)];
    }
  }

  /** Assigning a property to an object keeps its keys distinct. */
  lemma {:induction false} PutDistinct<V>(e: Entries<V>, k: string, v: V)
    requires DistinctKeys(e)
    ensures DistinctKeys(Put(e, k, v))
  {
    var r := Put(e, k, v);
    var ks := Keys(r);
    PutKeys(e, k, v);
    if HasKey(e, k) {
      assert ks == Keys(e);
    } else {
      assert ks == Keys(e) + [k];
      forall i | 0 <= i < |e|
        ensures e[i].0 != k
      {
      }
    }
  }

  /** `Object.assign({}, target, source)`: the properties of `source` are put in order. */
  function Assign<V>(target: Entries<V>, source: Entries<V>): Entries<V>
    decreases |source|
  {
    if |source| == 0 then target
    else Assign(Put(target, source[0].0, source[0].1), source[1..])
  }

  /**
   * After a merge, a key of the source has the source's value and every
   * other key keeps the target's value: later entries win.
   */
  lemma {:induction false} AssignGet<V>(target: Entries<V>, source: Entries<V>, k: string)
    requires DistinctKeys(source)
    ensures Get(Assign(target, source), k) == if HasKey(source, k) then Get(source, k) else Get(target, k)
    decreases |source|
  {
    if |source| > 0 {
      var rest := source[1..];
      assert DistinctKeys(rest);
      AssignGet(Put(target, source[0].0, source[0].1), rest, k);
      if k == source[0].0 {
        assert forall i :: 0 <= i < |rest| ==> rest[i].0 == source[i + 1].0;
        assert !HasKey(rest, k);
      } else {
        HasKeyTail(source, k);
      }
    }
  }

  /** A merge of objects is an object again: keys stay distinct. */
  lemma {:induction false} AssignDistinct<V>(target: Entries<V>, source: Entries<V>)
    requires DistinctKeys(target)
    ensures DistinctKeys(Assign(target, source))
    decreases |source|
  {
    if |source| > 0 {
      PutDistinct(target, source[0].0, source[0].1);
      AssignDistinct(Put(target, source[0].0, source[0].1), source[1..]);
    }
  }

  /** The object an array becomes under `Object.assign`: element `i` under the key `String(i)`. */
  function ArrayEntries<V>(items: seq<V>): (e: Entries<V>)
    ensures |e| == |items|
    ensures forall i :: 0 <= i < |items| ==> e[i] == (IntToString(i), items[i])
    ensures DistinctKeys(e)
  {
    var e := seq(|items|, i requires 0 <= i < |items| => (IntToString(i), items[i]));
    assert DistinctKeys(e) by {
      forall i, j | 0 <= i < j < |e|
        ensures e[i].0 != e[j].0
      {
        if e[i].0 == e[j].0 {
          IntToStringInjective(i, j);
        }
      }
    }
    e
  }
}

=== FILE: js_values.dfy ===
/**
 * The slice of JavaScript value semantics the command-line toolkit relies on:
 * truthiness, the `+= 1` counter update, `_.toString`, `_.repeat` and
 * `Array.prototype.join(',')`.
 */
module JsValues {
  import opened JsNumbers

  /**
   * A JavaScript value. Numbers are integers: no floating point is modelled.
   * Objects, arrays and functions are opaque and carry the text that
   * `_.toString` renders them as.
   */
  datatype JsValue =
    | Undefined
    | Null
    | Bool(b: bool)
    | Num(n: int)
    | NaN
    | Str(s: string)
    | Obj(text: string)

  /** JavaScript truthiness. */
  predicate Truthy(v: JsValue) {
    match v
    case Undefined => false
    case Null => false
    case Bool(b) => b
    case Num(n) => n != 0
    case NaN => false
    case Str(s) => s != ""
    case Obj(_) => true
  }

  /** `_.isNil`: null or undefined. */
  predicate IsNil(v: JsValue) {
    v.Undefined? || v.Null?
  }

  /** The value of `x + 1`, the update performed by `x += 1`. */
  function Increment(v: JsValue): (r: JsValue)
    ensures v.Num? ==> r == Num(v.n + 1)
    ensures v.Str? ==> r.Str?
  {
    match v
    case Undefined => NaN
    case Null => Num(1)
    case Bool(b) => Num(if b then 2 else 1)
    case Num(n) => Num(n + 1)
    case NaN => NaN
    case Str(s) => Str(s + "1")
    case Obj(t) => Str(t + "1")
  }

  /** lodash `_.toString`: nil becomes the empty string. */
  function ToText(v: JsValue): string {
    match v
    case Undefined => ""
    case Null => ""
    case Bool(b) => if b then "true" else "false"
    case Num(n) => IntToString(n)
    case NaN => "NaN"
    case Str(s) => s
    case Obj(t) => t
  }

  /** lodash `_.repeat(s, n)`: the empty string when `n < 1`. */
  function Repeat(s: string, n: int): (r: string)
    ensures |r| == if n < 1 then 0 else n * |s|
    decreases n
  {
    if n < 1 then "" else s + Repeat(s, n - 1)
  }

  /** `n` spaces, the indentation string handed to `JSON.stringify`. */
  function Spaces(n: int): (r: string)
    ensures |r| == if n < 1 then 0 else n
    ensures forall i :: 0 <= i < |r| ==> r[i] == ' '
    decreases n
  {
    if n < 1 then "" else " " + Spaces(n - 1)
  }

  /** `items.join(sep)` for strings; also `String(array)` when `sep` is a comma. */
  function Join(sep: string, items: seq<string>): (r: string)
    ensures |items| == 0 ==> r == ""
    ensures |items| == 1 ==> r == items[0]
  {
    if |items| == 0 then ""
    else if |items| == 1 then items[0]
    else Join(sep, items[..|items| - 1]) + sep + items[|items| - 1]
  }

  /** Appending one item to a non-empty join adds the separator and the item. */
  lemma JoinSnoc(sep: string, items: seq<string>, x: string)
    requires |items| > 0
    ensures Join(sep, items + [x]) == Join(sep, items) + sep + x
  {
    assert (items + [x])[..|items + [x]| - 1] == items;
  }
}

=== FILE: progress.dfy ===
/**
 * The console progress meter (lib/progress.ts and lib/progress.js): an
 * object whose own non-underscore properties are metrics, printed one line
 * each, and a timer that reprints them while it runs.
 */
module ProgressMeter {
  import opened Wrappers
  import opened JsNumbers
  import opened JsValues
  import opened JsObjects

  /** Terminal output: a written text, or the cursor moved back to column 0 and up `lines` lines. */
  datatype Out = Write(text: string) | Rewind(lines: nat)

  /** The TypeScript implementation, or the JavaScript one. */
  datatype Variant = Ts | Js

  /**
   * A meter. The four internal fields are own properties too and come first
   * in property order, before the user-assigned properties in `props`.
   * `timer` is `Null` while idle and the interval handle while running.
   */
  datatype Progress = Progress(
    formatters: map<string, JsValue -> string>,
    stream: JsValue,
    timer: JsValue,
    metricsPrinted: nat,
    props: Entries<JsValue>)

  /** What `_.toString` shows for a plain object or a stream. */
  const ObjectText: string := "[object Object]"

  /** The default output stream, standard error. */
  const Stderr: JsValue := Obj(ObjectText)

  /** The names of the four internal fields, all starting with '_'. */
  predicate IsInternalKey(k: string) {
    |k| > 0 && k[0] == '_' && (k == "_formatters" || k == "_stream" || k == "_timer" || k == "_metricsPrinted")
  }

  /** A meter as the constructor and property assignments leave it. */
  predicate Valid(p: Progress) {
    && DistinctKeys(p.props)
    && (forall i :: 0 <= i < |p.props| ==> !IsInternalKey(p.props[i].0))
    && p.stream.Obj?
    && (p.timer.Null? || p.timer.Obj?)
  }

  predicate Running(p: Progress) {
    !p.timer.Null?
  }

  /** The constructor: no formatters means none, a missing stream means standard error. */
  function New(formatters: map<string, JsValue -> string>, stream: JsValue): (p: Progress)
    requires IsNil(stream) || stream.Obj?
    ensures Valid(p) && !Running(p)
    ensures p.metricsPrinted == 0 && |p.props| == 0
    ensures p.stream == if IsNil(stream) then Stderr else stream
  {
    Progress(formatters, if Truthy(stream) then stream else Stderr, Null, 0, [])
  }

  /** Every own property name, internal fields first. */
  function OwnKeys(p: Progress): seq<string> {
    ["_formatters", "_stream", "_timer", "_metricsPrinted"] + Keys(p.props)
  }

  /** A name that can denote a metric: longer than one character and not starting with '_'. */
  predicate IsMetricName(k: string) {
    |k| > 1 && k[0] != '_'
  }

  /** `isMetric` (both variants). */
  predicate IsMetric(p: Progress, k: string) {
    IsMetricName(k) && HasKey(p.props, k)
  }

  /** `isMetric` holds exactly for the long, non-underscore own properties. */
  lemma IsMetricOwnKey(p: Progress, k: string)
    ensures IsMetric(p, k) <==> (|k| > 1 && k[0] != '_' && k in OwnKeys(p))
  {
    var ks := OwnKeys(p);
    if k in ks && IsMetricName(k) {
      var j :| 0 <= j < |ks| && ks[j] == k;
      assert j >= 4;
      assert p.props[j - 4].0 == k;
    }
    if IsMetric(p, k) {
      var j :| 0 <= j < |p.props| && p.props[j].0 == k;
      assert ks[j + 4] == k;
    }
  }

  /** Assigning a user property: `progress[k] = v`. */
  function SetProp(p: Progress, k: string, v: JsValue): (q: Progress)
    ensures Get(q.props, k) == Some(v)
    ensures forall j :: j != k ==> Get(q.props, j) == Get(p.props, j)
    ensures q.timer == p.timer && q.metricsPrinted == p.metricsPrinted
  {
    p.(props := Put(p.props, k, v))
  }

  /** Assigning a property other than the internal fields keeps the meter well formed. */
  lemma SetPropValid(p: Progress, k: string, v: JsValue)
    requires Valid(p) && !IsInternalKey(k)
    ensures Valid(SetProp(p, k, v))
  {
    var q := SetProp(p, k, v);
    PutDistinct(p.props, k, v);
    PutKeys(p.props, k, v);
    var ks := Keys(q.props);
    forall i | 0 <= i < |q.props|
      ensures !IsInternalKey(q.props[i].0)
    {
      assert ks[i] == q.props[i].0;
      if i < |p.props| {
        assert Keys(p.props)[i] == p.props[i].0;
      }
    }
  }

  /** `progress[k] += 1`. */
  function Bump(p: Progress, k: string): (q: Progress)
    ensures Get(p.props, k).Some? && Get(p.props, k).value.Num? ==> Get(q.props, k) == Some(Num(Get(p.props, k).value.n + 1))
    ensures forall j :: j != k ==> Get(q.props, j) == Get(p.props, j)
    ensures q.timer == p.timer
  {
    var current := Get(p.props, k).GetOr(Undefined);
    var q := SetProp(p, k, Increment(current));
    assert Get(q.props, k) == Some(Increment(current));
    q
  }

  /** The entries whose names are metric names, in order. */
  function MetricEntries(e: Entries<JsValue>): (m: Entries<JsValue>)
    ensures |m| <= |e|
    ensures forall i :: 0 <= i < |m| ==> IsMetricName(m[i].0)
    ensures forall k :: Get(m, k) == if IsMetricName(k) then Get(e, k) else None
  {
    if |e| == 0 then []
    else
      var rest := MetricEntries(e[1..]);
      var m := if IsMetricName(e[0].0) then [e[0]] + rest else rest;
      assert forall k :: Get(m, k) == if IsMetricName(k) then Get(e, k) else None by {
        forall k
          ensures Get(m, k) == if IsMetricName(k) then Get(e, k) else None
        {
          if IsMetricName(e[0].0) {
            assert m[1..] == rest;
          }
        }
      }
      m
  }

  /** The metric names among some property names, in order: an independent filter. */
  function MetricNames(ks: seq<string>): (ms: seq<string>)
    ensures |ms| <= |ks|
  {
    if |ks| == 0 then [] else (if IsMetricName(ks[0]) then [ks[0]] else []) + MetricNames(ks[1..])
  }

  /** Keeping the metric entries keeps exactly the metric names, in property order. */
  lemma {:induction false} MetricEntriesInOrder(e: Entries<JsValue>)
    ensures Keys(MetricEntries(e)) == MetricNames(Keys(e))
  {
    if |e| > 0 {
      MetricEntriesInOrder(e[1..]);
      assert Keys(e)[1..] == Keys(e[1..]);
      var rest := MetricEntries(e[1..]);
      if IsMetricName(e[0].0) {
        assert MetricEntries(e) == [e[0]] + rest;
        assert Keys([e[0]] + rest) == [e[0].0] + Keys(rest);
      } else {
        assert MetricEntries(e) == rest;
      }
    }
  }

  /** `getMetrics` (both variants): exactly the metrics with their values (the order is `GetMetricsInOrder`). */
  function GetMetrics(p: Progress): (m: Entries<JsValue>)
    ensures forall k :: Get(m, k) == if IsMetric(p, k) then Get(p.props, k) else None
    ensures forall i :: 0 <= i < |m| ==> IsMetric(p, m[i].0)
  {
    var m := MetricEntries(p.props);
    assert forall i :: 0 <= i < |m| ==> IsMetric(p, m[i].0) by {
      forall i | 0 <= i < |m|
        ensures IsMetric(p, m[i].0)
      {
        GetFinds(m, m[i].0);
        GetFinds(p.props, m[i].0);
      }
    }
    assert forall k :: Get(m, k) == if IsMetric(p, k) then Get(p.props, k) else None by {
      forall k
        ensures Get(m, k) == if IsMetric(p, k) then Get(p.props, k) else None
      {
        GetFinds(p.props, k);
      }
    }
    m
  }

  /** `getMetrics` lists the metric names in property order, each as often as the object has it. */
  lemma GetMetricsInOrder(p: Progress)
    ensures Keys(GetMetrics(p)) == MetricNames(Keys(p.props))
  {
    MetricEntriesInOrder(p.props);
  }


  /** The formatter used when none is given for a metric. */
  function DefaultFormat(k: string, v: JsValue): string {
    k + " = " + ToText(v)
  }

  function Format(p: Progress, k: string, v: JsValue): string {
    if k in p.formatters then p.formatters[k](v) else DefaultFormat(k, v)
  }

  /** One printed line: the line is cleared, then the text and a newline are written. */
  function Line(text: string): string {
    "\U{1B}[2K" + text + "\n"
  }

  /** A cleared line with a fixed caption shows its number faithfully: equal lines mean equal numbers. */
  lemma LabelledLineInjective(caption: string, m: nat, n: nat)
    requires Line(caption + NatToString(m)) == Line(caption + NatToString(n))
    ensures m == n
  {
    var a, b := NatToString(m), NatToString(n);
    var pre := "\U{1B}[2K" + caption;
    var x := Line(caption + a);
    assert x == pre + a + "\n";
    assert Line(caption + b) == pre + b + "\n";
    assert |a| == |b|;
    assert a == x[|pre|..|pre| + |a|];
    assert b == x[|pre|..|pre| + |b|];
  }

  /** The shown value: null and undefined render as 0. */
  function Shown(v: JsValue): (s: JsValue)
    ensures !IsNil(s)
    ensures IsNil(v) ==> s == Num(0)
    ensures !IsNil(v) ==> s == v
  {
    if IsNil(v) then Num(0) else v
  }

  function MetricLines(p: Progress, m: Entries<JsValue>): (out: seq<Out>)
    ensures |out| == |m|
    ensures forall i :: 0 <= i < |m| ==> out[i] == Write(Line(Format(p, m[i].0, Shown(m[i].1))))
  {
    seq(|m|, i requires 0 <= i < |m| => Write(Line(Format(p, m[i].0, Shown(m[i].1)))))
  }

  /**
   * `print` (TypeScript): one line per metric in property order, and the
   * number of lines is remembered for the next reprint.
   */
  function Print(p: Progress): (r: (Progress, seq<Out>))
    ensures r.0 == p.(metricsPrinted := |GetMetrics(p)|)
    ensures |r.1| == |GetMetrics(p)| == r.0.metricsPrinted
    ensures forall i :: 0 <= i < |r.1| ==>
      r.1[i] == Write(Line(Format(p, GetMetrics(p)[i].0, Shown(GetMetrics(p)[i].1))))
  {
    var out := MetricLines(p, GetMetrics(p));
    (p.(metricsPrinted := |out|), out)
  }

  /** The entries whose values are truthy, in their order. */
  function TruthyEntries(e: Entries<JsValue>): (t: Entries<JsValue>)
    ensures |t| <= |e|
    ensures (forall i :: 0 <= i < |e| ==> Truthy(e[i].1)) ==> t == e
    decreases |e|
  {
    if |e| == 0 then []
    else
      var rest := TruthyEntries(e[1..]);
      assert e == [e[0]] + e[1..];
      if Truthy(e[0].1) then [e[0]] + rest else rest
  }

  /** The truthy entries are exactly the entries whose values are truthy. */
  lemma {:induction false} TruthyEntriesMembers(e: Entries<JsValue>)
    ensures forall x :: x in TruthyEntries(e) <==> x in e && Truthy(x.1)
    decreases |e|
  {
    if |e| > 0 {
      TruthyEntriesMembers(e[1..]);
      assert e == [e[0]] + e[1..];
    }
  }

  /** Lines for the own entries with truthy values: what the JavaScript `print` loop writes. */
  function TruthyLines(p: Progress, e: Entries<JsValue>): (out: seq<Out>)
    ensures |out| <= |e|
    ensures |e| > 0 && Truthy(e[0].1) ==> |out| > 0 && out[0] == EntryLine(p, e[0])
    decreases |e|
  {
    if |e| == 0 then []
    else
      var rest := TruthyLines(p, e[1..]);
      if Truthy(e[0].1) then [EntryLine(p, e[0])] + rest else rest
  }

  /**
   * The JavaScript loop writes exactly one line per truthy entry, in order,
   * and none for falsy ones.
   */
  lemma {:induction false} TruthyLinesFilter(p: Progress, e: Entries<JsValue>)
    ensures |TruthyLines(p, e)| == |TruthyEntries(e)|
    ensures forall i :: 0 <= i < |TruthyLines(p, e)| ==> TruthyLines(p, e)[i] == EntryLine(p, TruthyEntries(e)[i])
    decreases |e|
  {
    if |e| > 0 {
      TruthyLinesFilter(p, e[1..]);
      var out, rest := TruthyLines(p, e), TruthyLines(p, e[1..]);
      if Truthy(e[0].1) {
        assert out == [EntryLine(p, e[0])] + rest;
        assert TruthyEntries(e) == [e[0]] + TruthyEntries(e[1..]);
        assert forall i :: 1 <= i < |out| ==> out[i] == rest[i - 1];
      } else {
        assert out == rest;
        assert TruthyEntries(e) == TruthyEntries(e[1..]);
      }
    }
  }

  /** The line printed for one property. */
  function EntryLine(p: Progress, x: (string, JsValue)): Out {
    Write(Line(Format(p, x.0, x.1)))
  }

  /**
   * How many internal fields `_.forOwn` prints before `_metricsPrinted`:
   * `_formatters` always, `_stream` and `_timer` when truthy.
   */
  function InternalCount(p: Progress): nat {
    1 + (if Truthy(p.stream) then 1 else 0) + (if Truthy(p.timer) then 1 else 0)
  }

  /** The lines of the internal fields before `_metricsPrinted`, in declaration order. */
  lemma InternalLines(p: Progress)
    ensures var a := TruthyLines(p, [("_formatters", Obj(ObjectText)), ("_stream", p.stream), ("_timer", p.timer)]);
      && |a| == InternalCount(p)
      && a[0] == EntryLine(p, ("_formatters", Obj(ObjectText)))
      && (Truthy(p.stream) ==> a[1] == EntryLine(p, ("_stream", p.stream)))
      && (Truthy(p.timer) ==> a[|a| - 1] == EntryLine(p, ("_timer", p.timer)))
  {
    var head := [("_formatters", Obj(ObjectText)), ("_stream", p.stream), ("_timer", p.timer)];
    assert head[1..][1..] == [head[2]];
    assert [head[2]][1..] == [];
    var c := TruthyLines(p, [head[2]]);
    assert c == if Truthy(p.timer) then [EntryLine(p, head[2])] else [];
    var b := TruthyLines(p, head[1..]);
    assert b == if Truthy(p.stream) then [EntryLine(p, head[1])] + c else c;
    assert TruthyLines(p, head) == [EntryLine(p, head[0])] + b;
  }

  /**
   * `print` (JavaScript) as written: every own property with a truthy value
   * is printed, internal fields included, and `_metricsPrinted` is read while
   * it is being counted up, so it shows the number of lines before it.
   */
  function JsPrint(p: Progress): (r: (Progress, seq<Out>))
    ensures r.0 == p.(metricsPrinted := |r.1|)
    ensures |r.1| == InternalCount(p) + 1 + |TruthyEntries(p.props)|
    ensures r.1[0] == Write(Line(Format(p, "_formatters", Obj(ObjectText))))
    ensures Truthy(p.stream) ==> r.1[1] == EntryLine(p, ("_stream", p.stream))
    ensures Truthy(p.timer) ==> r.1[InternalCount(p) - 1] == EntryLine(p, ("_timer", p.timer))
    ensures r.1[InternalCount(p)] == EntryLine(p, ("_metricsPrinted", Num(InternalCount(p))))
    ensures |r.1| >= |TruthyLines(p, p.props)| && r.1[|r.1| - |TruthyLines(p, p.props)|..] == TruthyLines(p, p.props)
  {
    var head := [("_formatters", Obj(ObjectText)), ("_stream", p.stream), ("_timer", p.timer)];
    var a := TruthyLines(p, head);
    InternalLines(p);
    var b := if |a| > 0 then [EntryLine(p, ("_metricsPrinted", Num(|a|)))] else [];
    var tail := TruthyLines(p, p.props);
    TruthyLinesFilter(p, p.props);
    var out := a + b + tail;
    assert out[0] == a[0];
    assert out[|a|] == b[0];
    assert Truthy(p.stream) ==> out[1] == a[1];
    assert Truthy(p.timer) ==> out[|a| - 1] == a[|a| - 1];
    assert out[|out| - |tail|..] == tail;
    (p.(metricsPrinted := |out|), out)
  }

  /** The next JavaScript reprint moves back over exactly the lines the last `print` wrote. */
  lemma JsReprintRewindsPrinted(p: Progress)
    ensures IterativePrint(Js, JsPrint(p).0).1[0] == Rewind(|JsPrint(p).1|)
    ensures |JsPrint(p).1| == InternalCount(p) + 1 + |TruthyEntries(p.props)|
  {
  }

  function PrintIn(v: Variant, p: Progress): (r: (Progress, seq<Out>))
    ensures r.0 == p.(metricsPrinted := |r.1|)
  {
    match v
    case Ts => Print(p)
    case Js => JsPrint(p)
  }

  /** The timer's reprint: back to the first printed line, then print again. */
  function IterativePrint(v: Variant, p: Progress): (r: (Progress, seq<Out>))
    ensures |r.1| > 0 && r.1[0] == Rewind(p.metricsPrinted) && r.1[1..] == PrintIn(v, p).1
    ensures r.0 == PrintIn(v, p).0
  {
    var (q, out) := PrintIn(v, p);
    (q, [Rewind(p.metricsPrinted)] + out)
  }

  /** `start`: prints once and starts the timer; does nothing while running. */
  function Start(v: Variant, p: Progress, handle: JsValue): (r: (Progress, seq<Out>))
    requires handle.Obj?
    ensures Running(r.0)
    ensures Running(p) ==> r == (p, [])
    ensures !Running(p) ==> r.1 == PrintIn(v, p).1 && r.0 == PrintIn(v, p).0.(timer := handle)
    ensures Valid(p) ==> Valid(r.0)
  {
    if Running(p) then (p, [])
    else
      var (q, out) := PrintIn(v, p);
      (q.(timer := handle), out)
  }

  /** `cancel`: stops the timer and reprints once; does nothing while idle. */
  function Cancel(v: Variant, p: Progress): (r: (Progress, seq<Out>))
    ensures !Running(r.0)
    ensures !Running(p) ==> r == (p, [])
    ensures Running(p) ==> r == IterativePrint(v, p.(timer := Null))
    ensures Valid(p) ==> Valid(r.0)
  {
    if !Running(p) then (p, [])
    else IterativePrint(v, p.(timer := Null))
  }

  /** Starting twice is starting once, cancelling twice is cancelling once. */
  lemma StartCancelIdempotent(v: Variant, p: Progress, h1: JsValue, h2: JsValue)
    requires h1.Obj? && h2.Obj?
    ensures Start(v, Start(v, p, h1).0, h2) == (Start(v, p, h1).0, [])
    ensures Cancel(v, Cancel(v, p).0) == (Cancel(v, p).0, [])
  {
  }

  /**
   * A run of the meter: started idle, cancelled at the end, the final
   * reprint moves back over exactly the lines the start printed.
   */
  lemma {:induction false} StartThenCancel(p: Progress, handle: JsValue)
    requires handle.Obj? && !Running(p)
    ensures var s := Start(Ts, p, handle).0;
      && Cancel(Ts, s).1[0] == Rewind(|GetMetrics(p)|)
      && !Running(Cancel(Ts, s).0)
      && Cancel(Ts, s).0.props == p.props
  {
    var s := Start(Ts, p, handle).0;
    assert s.props == p.props;
    assert GetMetrics(s) == GetMetrics(p);
  }

  /** The meter of the `print` tests: no formatters, one metric. */
  function TestMeter(value: JsValue): (p: Progress)
    ensures Valid(p) && p.props == [("metric", value)]
  {
    SetProp(New(map[], Obj(ObjectText)), "metric", value)
  }

  /** A one-metric meter prints one line with the default formatter. */
  lemma TestMeterPrint(v: JsValue)
    ensures Print(TestMeter(v)).1 == [Write(Line("metric = " + ToText(Shown(v))))]
  {
    var p := TestMeter(v);
    assert p.formatters == map[];
    var m := [("metric", v)];
    assert MetricEntries(p.props[1..]) == [];
    assert IsMetricName("metric");
    assert GetMetrics(p) == m;
    var out := MetricLines(p, m);
    assert |out| == 1 && out[0] == Write(Line(DefaultFormat("metric", Shown(v))));
    assert "metric" + " = " == "metric = ";
    assert Print(p).1 == out;
  }

  /** The expected line of a `print` test: the default formatter's text for `metric`, cleared and ended. */
  lemma TestLine(t: string, expected: string)
    requires expected == "\U{1B}[2Kmetric = false\n" || expected == "\U{1B}[2Kmetric = 42\n"
          || expected == "\U{1B}[2Kmetric = 42!\n" || expected == "\U{1B}[2Kmetric = 0\n"
    requires t == expected[13..|expected| - 1]
    ensures Line("metric = " + t) == expected
  {
    var a := Line("metric = " + t);
    assert |a| == |expected|;
    assert forall i :: 0 <= i < |a| ==> a[i] == expected[i];
  }

  /** The `print` test of a boolean metric. */
  lemma PrintBooleanTest()
    ensures Print(TestMeter(Bool(false))).1 == [Write("\U{1B}[2Kmetric = false\n")]
  {
    TestMeterPrint(Bool(false));
    TestLine("false", "\U{1B}[2Kmetric = false\n");
  }

  /** The `print` test of an integer metric. */
  lemma PrintIntegerTest()
    ensures Print(TestMeter(Num(42))).1 == [Write("\U{1B}[2Kmetric = 42\n")]
  {
    TestMeterPrint(Num(42));
    assert ToText(Num(42)) == "42" by {
      assert DigitChar(4) == '4' && DigitChar(2) == '2';
      assert NatToString(4) == ['4'];
      assert NatToString(42) == NatToString(4) + ['2'];
    }
    TestLine("42", "\U{1B}[2Kmetric = 42\n");
  }

  /** The `print` test of a string metric. */
  lemma PrintStringTest()
    ensures Print(TestMeter(Str("42!"))).1 == [Write("\U{1B}[2Kmetric = 42!\n")]
  {
    TestMeterPrint(Str("42!"));
    TestLine("42!", "\U{1B}[2Kmetric = 42!\n");
  }

  /** The `print` tests of undefined and null metrics: both render as 0. */
  lemma PrintNilTests()
    ensures Print(TestMeter(Undefined)).1 == [Write("\U{1B}[2Kmetric = 0\n")]
    ensures Print(TestMeter(Null)).1 == [Write("\U{1B}[2Kmetric = 0\n")]
  {
    assert NatToString(0) == "0";
    TestMeterPrint(Undefined);
    TestMeterPrint(Null);
    TestLine("0", "\U{1B}[2Kmetric = 0\n");
  }

  /** The `getMetrics` test: a metric set to 0 is returned with value 0. */
  lemma GetMetricsMatchesTest()
    ensures Get(GetMetrics(TestMeter(Num(0))), "metric") == Some(Num(0))
  {
    assert IsMetric(TestMeter(Num(0)), "metric");
  }

  /**
   * The JavaScript `print` does not write `metric = false` for a false
   * metric, as its test expects: the value is skipped as falsy and the
   * internal fields are printed instead. The TypeScript `print` does.
   */
  lemma JsPrintBooleanMetric()
    ensures JsPrint(TestMeter(Bool(false))).1 != [Write("\U{1B}[2Kmetric = false\n")]
    ensures Print(TestMeter(Bool(false))).1 == [Write("\U{1B}[2Kmetric = false\n")]
  {
    PrintBooleanTest();
    var p := TestMeter(Bool(false));
    JsPrintFirstLine(p);
    var expected := "\U{1B}[2Kmetric = false\n";
    assert expected[4] == 'm';
  }

  /** Without custom formatters the JavaScript `print` always starts with the `_formatters` field. */
  lemma JsPrintFirstLine(p: Progress)
    requires p.formatters == map[]
    ensures |JsPrint(p).1| > 0 && JsPrint(p).1[0].Write? && JsPrint(p).1[0].text[4] == '_'
  {
    var r := JsPrint(p);
    var text := Format(p, "_formatters", Obj(ObjectText));
    assert r.1[0] == Write(Line(text));
    assert text[0] == '_' by { assert "_formatters" <= text; }
    assert Line(text)[4] == text[0];
  }
}

=== FILE: scan_command.dfy ===
/**
 * The `scan` command (lib/commands/scan.ts and lib/commands/scan.js): every
 * record read from standard input is checked against the schema and counted;
 * `--fail` aborts on the first rejected record, and `--results` writes the
 * final counters as JSON once the scanner has finished.
 */
module ScanCommand {
  import opened Wrappers
  import opened JsValues
  import opened JsObjects
  import opened ProgressMeter
  import opened Validation
  import opened Command

  /** The options the handler reads; `indent` is already coerced. */
  datatype Args = Args(invert: bool, fail: bool, progress: bool, results: bool, indent: Option<int>)

  /**
   * What the handler observes: a record reaching the scanner callback (with
   * the schema's answer for it), an `error` event of any stage, or the
   * scanner reporting that it is done (`end` in TypeScript, `finish` in
   * JavaScript).
   */
  datatype Event = Record(valid: bool) | StageError | Done

  /** The handler's state: the meter, when there is one, and the promise. */
  datatype Run = Run(progress: Option<Progress>, settlement: Settlement)

  /** What the handler leaves behind once the promise has settled. */
  datatype Conclusion = Conclusion(
    progress: Option<Progress>,
    results: Option<Entries<JsValue>>,
    space: Option<string>,
    exit: Option<int>)

  /** The meter's formatters (colours left out). */
  const Formatters: map<string, JsValue -> string> := map[
    "scanned" := (v: JsValue) => "? scanned: " + ToText(v),
    "valid" := (v: JsValue) => "\U{2713} valid: " + ToText(v),
    "invalid" := (v: JsValue) => "\U{2717} invalid: " + ToText(v)]

  /**
   * The meter's properties as the scan leaves them: the chained assignment
   * `scanned = valid = invalid = 0` creates `invalid` first and `scanned`
   * last, and counting never adds a property.
   */
  function ScanEntries(scanned: int, valid: int, invalid: int): Entries<JsValue> {
    [("invalid", Num(invalid)), ("valid", Num(valid)), ("scanned", Num(scanned))]
  }

  /**
   * Whether the handler builds a meter. TypeScript builds one for
   * `--progress` or `--results`; JavaScript only for `--progress`, although
   * `--results` reads the counters from it.
   */
  predicate MeterWanted(v: Variant, args: Args) {
    args.progress || (v.Ts? && args.results)
  }

  /** The three counter names differ. */
  lemma ScanKeysDiffer()
    ensures "invalid" != "valid" && "invalid" != "scanned" && "valid" != "scanned"
  {
    assert "invalid"[0] != "valid"[0] && "invalid"[0] != "scanned"[0] && "valid"[0] != "scanned"[0];
  }

  /** `progress.scanned = progress.valid = progress.invalid = 0`, evaluated right to left. */
  function ResetScan(p: Progress): (q: Progress)
    requires Valid(p) && p.props == []
    ensures Valid(q) && q.props == ScanEntries(0, 0, 0)
    ensures q.timer == p.timer && q.metricsPrinted == p.metricsPrinted
  {
    ScanKeysDiffer();
    var a := SetProp(p, "invalid", Num(0));
    PutNew(p.props, "invalid", Num(0));
    var b := SetProp(a, "valid", Num(0));
    PutNew(a.props, "valid", Num(0));
    var c := SetProp(b, "scanned", Num(0));
    PutNew(b.props, "scanned", Num(0));
    assert c.props == ScanEntries(0, 0, 0);
    c
  }

  /**
   * The handler's setup: the meter (when wanted) gets its three counters at
   * 0 and is then started iff `--progress`.
   */
  function Initial(v: Variant, args: Args, timer: JsValue): (r: Run)
    requires timer.Obj?
    ensures r.progress.Some? <==> MeterWanted(v, args)
    ensures r.progress.Some? ==> Valid(r.progress.value) && (Running(r.progress.value) <==> args.progress)
    ensures r.progress.Some? ==> r.progress.value.props == ScanEntries(0, 0, 0)
    ensures r.settlement == Pending
  {
    if MeterWanted(v, args) then
      var reset := ResetScan(New(Formatters, Undefined));
      Run(Some(if args.progress then Start(v, reset, timer).0 else reset), Pending)
    else
      Run(None, Pending)
  }

  /**
   * One event. A record is counted; when it is rejected under `--fail` the
   * callback throws, which the scanner reports as its error and which
   * rejects the promise. The promise settles once.
   */
  function Step(args: Args, r: Run, e: Event): (q: Run)
    ensures !r.settlement.Pending? ==> q.settlement == r.settlement
    ensures q.progress.Some? <==> r.progress.Some?
    ensures e.Record? && r.progress.Some? ==> q.progress.value == Count(r.progress.value, "scanned", Verdict(e.valid, args.invert))
    ensures !e.Record? ==> q.progress == r.progress
  {
    match e
    case Record(valid) =>
      var accepted := Verdict(valid, args.invert);
      var progress := match r.progress case None => None case Some(p) => Some(Count(p, "scanned", accepted));
      var throws := !accepted && args.fail;
      Run(progress, if r.settlement.Pending? && throws then Rejected else r.settlement)
    case StageError => if r.settlement.Pending? then r.(settlement := Rejected) else r
    case Done => if r.settlement.Pending? then r.(settlement := Resolved) else r
  }

  function RunEvents(args: Args, r: Run, events: seq<Event>): Run
    decreases |events|
  {
    if |events| == 0 then r else RunEvents(args, Step(args, r, events[0]), events[1..])
  }

  /** The verdicts of the records among the events, in order. */
  function Verdicts(args: Args, events: seq<Event>): (vs: seq<bool>)
    ensures |vs| <= |events|
  {
    if |events| == 0 then []
    else (if events[0].Record? then [Verdict(events[0].valid, args.invert)] else []) + Verdicts(args, events[1..])
  }

  /** How the promise settles, read directly off the events: the first error, throw or end decides. */
  function FirstSettlement(args: Args, events: seq<Event>): Settlement
    decreases |events|
  {
    if |events| == 0 then Pending
    else
      match events[0]
      case StageError => Rejected
      case Done => Resolved
      case Record(valid) => if args.fail && !Verdict(valid, args.invert) then Rejected else FirstSettlement(args, events[1..])
  }

  /** A settled promise stays settled. */
  lemma {:induction false} RunKeepsSettlement(args: Args, r: Run, events: seq<Event>)
    requires !r.settlement.Pending?
    ensures RunEvents(args, r, events).settlement == r.settlement
    decreases |events|
  {
    if |events| > 0 {
      RunKeepsSettlement(args, Step(args, r, events[0]), events[1..]);
    }
  }

  /** The promise settles as the first deciding event says. */
  lemma {:induction false} RunSettlement(args: Args, r: Run, events: seq<Event>)
    requires r.settlement.Pending?
    ensures RunEvents(args, r, events).settlement == FirstSettlement(args, events)
    decreases |events|
  {
    if |events| > 0 {
      var q := Step(args, r, events[0]);
      if q.settlement.Pending? {
        RunSettlement(args, q, events[1..]);
      } else {
        RunKeepsSettlement(args, q, events[1..]);
      }
    }
  }

  /** Only the records change the meter: each is counted under its verdict. */
  lemma {:induction false} RunCountsRecords(args: Args, r: Run, events: seq<Event>)
    requires r.progress.Some?
    ensures RunEvents(args, r, events).progress == Some(CountAll(Counter("scanned"), r.progress.value, Verdicts(args, events)))
    decreases |events|
  {
    if |events| > 0 {
      var q := Step(args, r, events[0]);
      RunCountsRecords(args, q, events[1..]);
      var rest := Verdicts(args, events[1..]);
      if events[0].Record? {
        var accepted := Verdict(events[0].valid, args.invert);
        assert Verdicts(args, events) == [accepted] + rest;
        assert ([accepted] + rest)[1..] == rest;
      } else {
        assert Verdicts(args, events) == rest;
      }
    }
  }

  /** Without a meter the run never gets one. */
  lemma {:induction false} RunKeepsNoMeter(args: Args, r: Run, events: seq<Event>)
    requires r.progress.None?
    ensures RunEvents(args, r, events).progress.None?
    decreases |events|
  {
    if |events| > 0 {
      RunKeepsNoMeter(args, Step(args, r, events[0]), events[1..]);
    }
  }

  /** Counting one record keeps the three properties in place and moves the counters. */
  lemma CountScanEntries(p: Progress, accepted: bool, t: int, v: int, i: int)
    requires p.props == ScanEntries(t, v, i)
    ensures Count(p, "scanned", accepted).props == ScanEntries(t + 1, if accepted then v + 1 else v, if accepted then i else i + 1)
  {
    ScanKeysDiffer();
    var e := p.props;
    GetAt(e, 2);
    var q := Bump(p, "scanned");
    PutExisting(e, 2, Num(t + 1));
    assert q.props == ScanEntries(t + 1, v, i);
    var f := q.props;
    if accepted {
      GetAt(f, 1);
      PutExisting(f, 1, Num(v + 1));
    } else {
      GetAt(f, 0);
      PutExisting(f, 0, Num(i + 1));
    }
  }

  /**
   * Counting a sequence of verdicts moves the counters by the number of
   * records, accepted records and rejected records, and adds no property.
   */
  lemma CountAllScanEntries(p: Progress, verdicts: seq<bool>, t: int, v: int, i: int)
    requires p.props == ScanEntries(t, v, i)
    ensures CountAll(Counter("scanned"), p, verdicts).props == Tallied(t, v, i, verdicts)
  {
    CounterKeepsScanEntries();
    StepsKeepScanEntries(Counter("scanned"), p, verdicts, t, v, i);
  }

  /** The scan counters moved from `t`, `v`, `i` by a sequence of verdicts: all of them, the accepted and the rejected ones. */
  function Tallied(t: int, v: int, i: int, verdicts: seq<bool>): Entries<JsValue> {
    ScanEntries(t + |verdicts|, v + Accepted(verdicts), i + (|verdicts| - Accepted(verdicts)))
  }

  /** The integer at position `k` of a property list, 0 when there is none. */
  function CounterAt(e: Entries<JsValue>, k: nat): int {
    if k < |e| && e[k].1.Num? then e[k].1.n else 0
  }

  /** A counting step that, on a scan meter, moves the three counters and keeps their order. */
  ghost predicate KeepsScanEntries(step: (Progress, bool) -> Progress) {
    forall p: Progress, accepted: bool {:trigger step(p, accepted)} ::
      p.props == ScanEntries(CounterAt(p.props, 2), CounterAt(p.props, 1), CounterAt(p.props, 0)) ==>
      step(p, accepted).props == ScanEntries(CounterAt(p.props, 2) + 1, CounterAt(p.props, 1) + (if accepted then 1 else 0), CounterAt(p.props, 0) + (if accepted then 0 else 1))
  }

  lemma CounterKeepsScanEntries()
    ensures KeepsScanEntries(Counter("scanned"))
  {
    forall p: Progress, accepted: bool | p.props == ScanEntries(CounterAt(p.props, 2), CounterAt(p.props, 1), CounterAt(p.props, 0))
      ensures Counter("scanned")(p, accepted).props == ScanEntries(CounterAt(p.props, 2) + 1, CounterAt(p.props, 1) + (if accepted then 1 else 0), CounterAt(p.props, 0) + (if accepted then 0 else 1))
    {
      CountScanEntries(p, accepted, CounterAt(p.props, 2), CounterAt(p.props, 1), CounterAt(p.props, 0));
    }
  }

  /** Any such step, applied to a sequence of verdicts, moves the counters by their number, the accepted and the rejected ones. */
  lemma {:induction false} StepsKeepScanEntries(step: (Progress, bool) -> Progress, p: Progress, verdicts: seq<bool>, t: int, v: int, i: int)
    requires KeepsScanEntries(step)
    requires p.props == ScanEntries(t, v, i)
    ensures CountAll(step, p, verdicts).props == Tallied(t, v, i, verdicts)
    decreases |verdicts|
  {
    if |verdicts| > 0 {
      var accepted := verdicts[0];
      assert CounterAt(p.props, 2) == t && CounterAt(p.props, 1) == v && CounterAt(p.props, 0) == i;
      StepsKeepScanEntries(step, step(p, accepted), verdicts[1..], t + 1, if accepted then v + 1 else v, if accepted then i else i + 1);
    }
  }

  /** `getMetrics` of a scan meter: the three counters, in property order. */
  lemma ScanMetrics(p: Progress, t: int, v: int, i: int)
    requires p.props == ScanEntries(t, v, i)
    ensures GetMetrics(p) == ScanEntries(t, v, i)
  {
    var e := p.props;
    assert IsMetricName("invalid") && IsMetricName("valid") && IsMetricName("scanned");
    assert e[1..] == [("valid", Num(v)), ("scanned", Num(t))];
    assert e[1..][1..] == [("scanned", Num(t))];
    assert e[1..][1..][1..] == [];
    assert MetricEntries(e[1..][1..]) == [("scanned", Num(t))];
    assert MetricEntries(e[1..]) == [("valid", Num(v)), ("scanned", Num(t))];
  }

  /**
   * The promise's handlers. Either way the meter, when there is one, is
   * cancelled. A rejection exits with 70. On success `--results` writes the
   * meter's metrics; without a meter that read throws, and the rejection
   * handler exits with 70.
   */
  function Conclude(v: Variant, args: Args, r: Run): (c: Conclusion)
    requires !r.settlement.Pending?
    ensures c.progress.Some? <==> r.progress.Some?
    ensures c.progress.Some? ==> !Running(c.progress.value) && c.progress.value.props == r.progress.value.props
    ensures c.exit.Some? <==> r.settlement.Rejected? || (args.results && r.progress.None?)
    ensures c.exit.Some? ==> c.exit.value == ExSoftware && c.results.None?
    ensures c.results.Some? <==> r.settlement.Resolved? && args.results && r.progress.Some?
    ensures c.results.Some? ==> c.results.value == GetMetrics(c.progress.value) && c.space == WriterSpace(args.indent)
  {
    var progress := match r.progress case None => None case Some(p) => Some(Cancel(v, p).0);
    if r.settlement.Rejected? then Conclusion(progress, None, None, Some(ExSoftware))
    else if !args.results then Conclusion(progress, None, None, None)
    else if progress.None? then Conclusion(progress, None, None, Some(ExSoftware))
    else Conclusion(progress, Some(GetMetrics(progress.value)), WriterSpace(args.indent), None)
  }

  /** The records of a scan, given the schema's answers. */
  function Records(valids: seq<bool>): (events: seq<Event>)
    ensures |events| == |valids|
    ensures forall j :: 0 <= j < |valids| ==> events[j] == Record(valids[j])
  {
    seq(|valids|, j requires 0 <= j < |valids| => Record(valids[j]))
  }

  /** The records' verdicts are the schema's answers, inverted under `--invert`. */
  lemma {:induction false} RecordsVerdicts(args: Args, valids: seq<bool>)
    ensures var vs := Verdicts(args, Records(valids));
      |vs| == |valids| && forall j :: 0 <= j < |valids| ==> vs[j] == Verdict(valids[j], args.invert)
    decreases |valids|
  {
    if |valids| > 0 {
      RecordsVerdicts(args, valids[1..]);
      assert Records(valids)[1..] == Records(valids[1..]);
    }
  }

  /** Records that do not throw leave the promise pending, and the end then resolves it. */
  lemma {:induction false} RecordsKeepPending(args: Args, valids: seq<bool>)
    requires !args.fail || forall j :: 0 <= j < |valids| ==> Verdict(valids[j], args.invert)
    ensures FirstSettlement(args, Records(valids) + [Done]) == Resolved
    decreases |valids|
  {
    var events := Records(valids) + [Done];
    if |valids| == 0 {
      assert events == [Done];
    } else {
      assert events[1..] == Records(valids[1..]) + [Done];
      RecordsKeepPending(args, valids[1..]);
    }
  }

  /**
   * A scan that ends normally (for instance records that all pass, or any
   * records without `--fail`, then the end: `RecordsKeepPending`) writes,
   * under `--results`, the counters moved by the number of records, accepted
   * records and rejected records, and exits normally.
   */
  lemma ResultsCountRecords(v: Variant, args: Args, r: Run, events: seq<Event>, t: int, a: int, i: int)
    requires args.results && r.settlement.Pending? && FirstSettlement(args, events) == Resolved
    requires r.progress.Some? && r.progress.value.props == ScanEntries(t, a, i)
    ensures RunEvents(args, r, events).settlement == Resolved
    ensures Conclude(v, args, RunEvents(args, r, events)).exit.None?
    ensures Conclude(v, args, RunEvents(args, r, events)).results == Some(Tallied(t, a, i, Verdicts(args, events)))
  {
    var vs := Verdicts(args, events);
    var q := RunEvents(args, r, events);
    RunSettlement(args, r, events);
    RunScanEntries(args, r, events, t, a, i);
    assert q.settlement == Resolved && q.progress.value.props == ScanEntries(t + |vs|, a + Accepted(vs), i + (|vs| - Accepted(vs)));
    ConcludeResults(v, args, q, t + |vs|, a + Accepted(vs), i + (|vs| - Accepted(vs)));
  }

  /** The run's meter holds the counters moved by the records among the events. */
  lemma RunScanEntries(args: Args, r: Run, events: seq<Event>, t: int, a: int, i: int)
    requires r.progress.Some? && r.progress.value.props == ScanEntries(t, a, i)
    ensures RunEvents(args, r, events).progress.Some?
    ensures RunEvents(args, r, events).progress.value.props == Tallied(t, a, i, Verdicts(args, events))
  {
    RunCountsRecords(args, r, events);
    CountAllScanEntries(r.progress.value, Verdicts(args, events), t, a, i);
  }

  /** After success, `--results` writes the three counters and the process exits normally. */
  lemma ConcludeResults(v: Variant, args: Args, r: Run, t: int, a: int, i: int)
    requires args.results && r.settlement == Resolved
    requires r.progress.Some? && r.progress.value.props == ScanEntries(t, a, i)
    ensures Conclude(v, args, r).exit.None?
    ensures Conclude(v, args, r).results == Some(ScanEntries(t, a, i))
  {
    ScanMetrics(Conclude(v, args, r).progress.value, t, a, i);
  }

  /** Under `--fail` a rejected record rejects the run, and the process exits with 70. */
  lemma FailRejects(v: Variant, args: Args, r: Run, valid: bool, rest: seq<Event>)
    requires args.fail && !Verdict(valid, args.invert) && r.settlement.Pending?
    ensures var q := RunEvents(args, r, [Record(valid)] + rest);
      q.settlement == Rejected && Conclude(v, args, q).exit == Some(ExSoftware)
  {
    var q := Step(args, r, Record(valid));
    assert q.settlement == Rejected;
    assert ([Record(valid)] + rest)[1..] == rest;
    RunKeepsSettlement(args, q, rest);
  }

  /**
   * JavaScript `--results` without `--progress`: there is no meter, so a
   * scan that ends normally still reports no results and exits with 70.
   */
  lemma JsResultsWithoutProgress(args: Args, timer: JsValue, events: seq<Event>)
    requires args.results && !args.progress && timer.Obj?
    requires RunEvents(args, Initial(Js, args, timer), events).settlement.Resolved?
    ensures var c := Conclude(Js, args, RunEvents(args, Initial(Js, args, timer), events));
      c.results.None? && c.exit == Some(ExSoftware)
  {
    RunKeepsNoMeter(args, Initial(Js, args, timer), events);
  }

  /** TypeScript `--results` without `--progress`: the meter exists, the results are written and the exit is normal. */
  lemma TsResultsWithoutProgress(args: Args, timer: JsValue, events: seq<Event>)
    requires args.results && !args.progress && timer.Obj?
    requires RunEvents(args, Initial(Ts, args, timer), events).settlement.Resolved?
    ensures var c := Conclude(Ts, args, RunEvents(args, Initial(Ts, args, timer), events));
      c.results.Some? && c.exit.None?
  {
    RunCountsRecords(args, Initial(Ts, args, timer), events);
  }
}

=== FILE: source_tool.dfy ===
/**
 * The `source` tool (lib/tools/source.js): streams the collection's records
 * to standard output as a JSON array, until the source ends or reports a
 * data error; a source that cannot be opened exits with 70.
 */
module SourceTool {
  import opened Wrappers
  import opened JsNumbers
  import opened JsValues
  import opened ProgressMeter
  import opened Command
  import opened Framing

  /** What the opened source emits: a record (its serialised JSON text), its end, or an error. */
  datatype Event = Data(json: string) | End | DataError

  /** The data-error exit rule as the code reads it, or as evidently intended. */
  datatype Reading = AsWritten | Intended

  /** The handler while the source runs: what is written, and `process.exitCode` once it has exited. */
  datatype Run = Run(output: Output, exited: Option<Option<int>>)

  /** The yargs command the module returns: only for a collection with a source. */
  function Cli(hasSource: bool): (name: Option<string>)
    ensures name.Some? <==> hasSource
    ensures name.Some? ==> name.value == "source"
  {
    if hasSource then Some("source") else None
  }

  /** The handler writes `[` before it opens the source. */
  function Initial(): (r: Run)
    ensures r.output == Open() && r.exited.None?
  {
    Run(Open(), None)
  }

  /** The exit code after a data error: 65 replaces only a code of exactly 0 as written, any unset or 0 code as intended. */
  function DataErrorCode(reading: Reading, exitCode: Option<int>): (code: Option<int>)
    ensures reading.AsWritten? ==> code == PrintErrorAndExitAsWritten(exitCode, ExDataErr)
    ensures reading.Intended? ==> ExitStatus(code) == if ExitStatus(exitCode) == 0 then ExDataErr else ExitStatus(exitCode)
  {
    match reading
    case AsWritten => PrintErrorAndExitAsWritten(exitCode, ExDataErr)
    case Intended => PrintErrorAndExit(exitCode, ExDataErr)
  }

  /** `closeOutput` inside a run: `]` and a newline are written; the count stays. */
  function Closed(o: Output): (c: Output)
    ensures c.text == Close(o) && c.outputted == o.outputted
  {
    Output(Close(o), o.outputted)
  }

  /**
   * One event of the opened source: a record is written; the end or a data
   * error closes the array and exits. Once exited, nothing more happens.
   */
  function Step(reading: Reading, exitCode: Option<int>, r: Run, e: Event): (q: Run)
    ensures r.exited.Some? ==> q == r
    ensures q.exited.None? <==> r.exited.None? && e.Data?
    ensures r.exited.None? && e.Data? ==> q.output.outputted == r.output.outputted + 1
    ensures r.exited.None? && !e.Data? ==> q.output.outputted == r.output.outputted && q.output.text == r.output.text + "]\n"
  {
    if r.exited.Some? then r
    else
      match e
      case Data(json) => Run(OutputEntry(r.output, json), None)
      case End => Run(Closed(r.output), Some(exitCode))
      case DataError => Run(Closed(r.output), Some(DataErrorCode(reading, exitCode)))
  }

  function RunEvents(reading: Reading, exitCode: Option<int>, r: Run, events: seq<Event>): Run
    decreases |events|
  {
    if |events| == 0 then r else RunEvents(reading, exitCode, Step(reading, exitCode, r, events[0]), events[1..])
  }

  /** The records as `data` events. */
  function DataEvents(entries: seq<string>): (events: seq<Event>)
    ensures |events| == |entries|
    ensures forall i :: 0 <= i < |entries| ==> events[i] == Data(entries[i])
  {
    seq(|entries|, i requires 0 <= i < |entries| => Data(entries[i]))
  }

  /** Records before the end are written in order, and `outputtedEntries` counts them. */
  lemma {:induction false} DataWritten(reading: Reading, exitCode: Option<int>, r: Run, entries: seq<string>)
    requires r.exited.None?
    ensures RunEvents(reading, exitCode, r, DataEvents(entries)) == Run(OutputAll(r.output, entries), None)
    decreases |entries|
  {
    if |entries| > 0 {
      var q := Step(reading, exitCode, r, Data(entries[0]));
      assert DataEvents(entries)[0] == Data(entries[0]);
      assert DataEvents(entries)[1..] == DataEvents(entries[1..]);
      assert RunEvents(reading, exitCode, r, DataEvents(entries)) == RunEvents(reading, exitCode, q, DataEvents(entries[1..]));
      DataWritten(reading, exitCode, q, entries[1..]);
      OutputAllCons(r.output, entries[0], entries[1..]);
      assert [entries[0]] + entries[1..] == entries;
    }
  }

  /** After the process has exited, further events change nothing. */
  lemma {:induction false} ExitedStays(reading: Reading, exitCode: Option<int>, r: Run, events: seq<Event>)
    requires r.exited.Some?
    ensures RunEvents(reading, exitCode, r, events) == r
    decreases |events|
  {
    if |events| > 0 {
      ExitedStays(reading, exitCode, Step(reading, exitCode, r, events[0]), events[1..]);
    }
  }

  /**
   * A source whose records are followed by its end or by a data error:
   * standard output is the JSON array of the records (`[]` and a newline for
   * none), `outputtedEntries` is their number, and later events are
   * ignored. The end keeps the exit code; a data error sets it by
   * `DataErrorCode`.
   */
  lemma SourceRun(reading: Reading, exitCode: Option<int>, entries: seq<string>, last: Event, later: seq<Event>)
    requires !last.Data?
    ensures var r := RunEvents(reading, exitCode, Initial(), DataEvents(entries) + [last] + later);
      && r.exited == Some(if last.End? then exitCode else DataErrorCode(reading, exitCode))
      && r.output.outputted == |entries|
      && r.output.text == "[" + Join(",", entries) + "]\n"
  {
    var events := DataEvents(entries) + [last] + later;
    RunEventsAppend(reading, exitCode, Initial(), DataEvents(entries), [last] + later);
    assert events == DataEvents(entries) + ([last] + later);
    DataWritten(reading, exitCode, Initial(), entries);
    var w := Run(OutputAll(Open(), entries), None);
    var x := Step(reading, exitCode, w, last);
    assert ([last] + later)[1..] == later;
    ExitedStays(reading, exitCode, x, later);
    Framed(entries);
    OutputAllFramed(entries);
  }

  /** Running two batches of events one after the other. */
  lemma {:induction false} RunEventsAppend(reading: Reading, exitCode: Option<int>, r: Run, xs: seq<Event>, ys: seq<Event>)
    ensures RunEvents(reading, exitCode, r, xs + ys) == RunEvents(reading, exitCode, RunEvents(reading, exitCode, r, xs), ys)
    decreases |xs|
  {
    if |xs| > 0 {
      assert (xs + ys)[1..] == xs[1..] + ys;
      RunEventsAppend(reading, exitCode, Step(reading, exitCode, r, xs[0]), xs[1..], ys);
    } else {
      assert xs + ys == ys;
    }
  }

  /**
   * In a fresh process, where the exit code is unset, a data error as
   * written leaves the process exiting with status 0; as intended it exits
   * with 65.
   */
  lemma DataErrorInFreshProcess(entries: seq<string>)
    ensures var r := RunEvents(AsWritten, None, Initial(), DataEvents(entries) + [DataError]);
      r.exited.Some? && ExitStatus(r.exited.value) == 0
    ensures var r := RunEvents(Intended, None, Initial(), DataEvents(entries) + [DataError]);
      r.exited.Some? && ExitStatus(r.exited.value) == ExDataErr
  {
    SourceRun(AsWritten, None, entries, DataError, []);
    SourceRun(Intended, None, entries, DataError, []);
    assert DataEvents(entries) + [DataError] + [] == DataEvents(entries) + [DataError];
  }

  /** The source could not be opened: the array is closed empty and the process exits with 70. */
  function OpenFailed(): (r: (string, int))
    ensures r == ("[]\n", ExSoftware)
  {
    assert "[" + "]\n" == "[]\n";
    (Close(Initial().output), ExSoftware)
  }

  /** The progress line: the number of records supplied so far. */
  function SuppliedLine(o: Output): Out {
    Write(Line("\U{2191} supplied: " + NatToString(o.outputted)))
  }

  /** The progress line is faithful: it determines the number of records written. */
  lemma SuppliedLineFaithful(o: Output, o': Output)
    requires SuppliedLine(o) == SuppliedLine(o')
    ensures o.outputted == o'.outputted
  {
    LabelledLineInjective("\U{2191} supplied: ", o.outputted, o'.outputted);
  }

  /** What the final `updateProgress` writes on the end or a data error: one line back, then the line again, only under `--progress`. */
  function FinalProgress(progress: bool, o: Output): (out: seq<Out>)
    ensures progress <==> out != []
    ensures progress ==> out == [Rewind(|[SuppliedLine(o)]|), SuppliedLine(o)]
  {
    if progress then [Rewind(1), SuppliedLine(o)] else []
  }

  /** The final progress update shows the final count: different counts give a different display. */
  lemma FinalProgressShowsSupplied(o: Output, o': Output)
    requires FinalProgress(true, o) == FinalProgress(true, o')
    ensures o.outputted == o'.outputted
  {
    assert FinalProgress(true, o)[1] == FinalProgress(true, o')[1];
    SuppliedLineFaithful(o, o');
  }
}

=== FILE: tools.dfy ===
/**
 * The per-collection tools that check records with `validate`
 * (lib/tools/filter.js, lib/tools/validator/filter.js and
 * lib/tools/validator/scan.js). Each keeps three counters, may stop
 * `validate` on a rejected record, frames what it writes as a JSON array,
 * and on completion exits with 65 when `--fail` is given and some record
 * was rejected.
 */
module Tools {
  import opened Wrappers
  import opened JsNumbers
  import opened JsValues
  import opened JsObjects
  import opened ProgressMeter
  import opened Validation
  import opened Command
  import opened Framing

  /** The three tools. */
  datatype Tool = FilterTool | ValidatorFilter | ValidatorScan

  /** The collection module a tool is built for: whether it has a collection and whether that has a schema. */
  datatype CollectionModule = CollectionModule(hasCollection: bool, hasSchema: bool)

  /** The options the handlers read. */
  datatype Args = Args(invert: bool, dryRun: bool, stop: bool, fail: bool, progress: bool, results: bool, indent: JsValue)

  /** One record handed to the callback: its serialised JSON text and the validator's answer. */
  datatype Entry = Entry(json: string, valid: bool)

  /** The handler's `progress` object: the total (`filtered` or `scanned`), valid and invalid entries. */
  datatype Counters = Counters(total: nat, valid: nat, invalid: nat)

  /** The handler's state while `validate` runs. */
  datatype State = State(counters: Counters, output: Output, stopped: bool)

  /** What the handler leaves on exit: standard output, the scan results, and the exit code. */
  datatype Exit = Exit(stdout: string, results: Option<Entries<JsValue>>, space: Option<string>, code: Option<int>)

  /** The yargs command a tool module returns, or none. */
  function Cli(tool: Tool, m: CollectionModule): (name: Option<string>)
    ensures name.Some? <==> match tool
      case FilterTool => m.hasSchema
      case ValidatorFilter => m.hasCollection
      case ValidatorScan => true
    ensures name.Some? ==> name.value == if tool.ValidatorScan? then "scan" else "filter"
  {
    match tool
    case FilterTool => if m.hasSchema then Some("filter") else None
    case ValidatorFilter => if m.hasCollection then Some("filter") else None
    case ValidatorScan => Some("scan")
  }

  /**
   * yargs refuses `--stop` together with `--fail` for every tool: the filter
   * tool declares the conflict itself, and the `validator` command declares
   * it for both of its subcommands.
   */
  predicate ArgsAccepted(tool: Tool, args: Args) {
    !(args.stop && args.fail)
  }

  /** The callback's verdict: only the filter tool honours `--invert`. */
  function Accept(tool: Tool, args: Args, e: Entry): bool {
    if tool.FilterTool? then Verdict(e.valid, args.invert) else e.valid
  }

  /** The callback returns `false`, stopping `validate`: a rejected record under `--fail` or `--stop`. */
  predicate Stops(tool: Tool, args: Args, e: Entry) {
    !Accept(tool, args, e) && (args.fail || args.stop)
  }

  /** Whether the callback writes the record: accepted ones (filter tool) or all (validator filter), never under `--dry-run`. */
  predicate Emits(tool: Tool, args: Args, e: Entry) {
    match tool
    case FilterTool => Accept(tool, args, e) && !args.dryRun
    case ValidatorFilter => !args.dryRun
    case ValidatorScan => false
  }

  /** The handler's state before `validate` starts: counters at 0 and `[` written (not by the scan tool). */
  function Initial(tool: Tool): (s: State)
    ensures s.counters == Counters(0, 0, 0) && !s.stopped
    ensures s.output.outputted == 0
    ensures s.output.text == if tool.ValidatorScan? then "" else "["
  {
    State(Counters(0, 0, 0), if tool.ValidatorScan? then Output("", 0) else Open(), false)
  }

  /** The callback for one record. */
  function OnEntry(tool: Tool, args: Args, s: State, e: Entry): (r: State)
    ensures r.counters.total == s.counters.total + 1
    ensures r.counters.valid + r.counters.invalid == s.counters.valid + s.counters.invalid + 1
    ensures r.counters.valid == s.counters.valid + (if Accept(tool, args, e) then 1 else 0)
    ensures r.output == if Emits(tool, args, e) then OutputEntry(s.output, e.json) else s.output
    ensures r.stopped <==> Stops(tool, args, e)
  {
    var accepted := Accept(tool, args, e);
    var c := s.counters;
    var counters := if accepted then c.(valid := c.valid + 1, total := c.total + 1) else c.(invalid := c.invalid + 1, total := c.total + 1);
    State(counters, if Emits(tool, args, e) then OutputEntry(s.output, e.json) else s.output, Stops(tool, args, e))
  }

  /** `validate`: the callback runs on each record in order until it returns `false`. */
  function Validate(tool: Tool, args: Args, s: State, entries: seq<Entry>): State
    decreases |entries|
  {
    if |entries| == 0 || s.stopped then s
    else Validate(tool, args, OnEntry(tool, args, s, entries[0]), entries[1..])
  }

  /** The records the callback sees: everything up to and including the first one that stops. */
  function Taken(tool: Tool, args: Args, entries: seq<Entry>): (t: seq<Entry>)
    ensures |t| <= |entries| && t == entries[..|t|]
    ensures forall i :: 0 <= i < |t| - 1 ==> !Stops(tool, args, t[i])
    ensures |t| < |entries| ==> |t| > 0 && Stops(tool, args, t[|t| - 1])
    ensures |t| == |entries| || (exists i :: 0 <= i < |entries| && Stops(tool, args, entries[i]))
    decreases |entries|
  {
    if |entries| == 0 then []
    else if Stops(tool, args, entries[0]) then [entries[0]]
    else
      var rest := Taken(tool, args, entries[1..]);
      var t := [entries[0]] + rest;
      assert |rest| > 0 ==> t[|t| - 1] == rest[|rest| - 1];
      assert forall i :: 1 <= i < |t| ==> t[i] == rest[i - 1];
      t
  }

  /** The callback's verdicts for the records, in order. */
  function Verdicts(tool: Tool, args: Args, entries: seq<Entry>): (vs: seq<bool>)
    ensures |vs| == |entries|
    ensures forall i :: 0 <= i < |entries| ==> vs[i] == Accept(tool, args, entries[i])
  {
    seq(|entries|, i requires 0 <= i < |entries| => Accept(tool, args, entries[i]))
  }

  /** The texts written for the records, in order. */
  function Emitted(tool: Tool, args: Args, entries: seq<Entry>): (out: seq<string>)
    decreases |entries|
  {
    if |entries| == 0 then []
    else (if Emits(tool, args, entries[0]) then [entries[0].json] else []) + Emitted(tool, args, entries[1..])
  }

  /**
   * What is written: nothing under `--dry-run` or by the scan tool, every
   * record by the validator filter, and the accepted records by the filter
   * tool.
   */
  lemma {:induction false} EmittedCases(tool: Tool, args: Args, entries: seq<Entry>)
    ensures args.dryRun || tool.ValidatorScan? ==> Emitted(tool, args, entries) == []
    ensures tool.ValidatorFilter? && !args.dryRun ==>
      Emitted(tool, args, entries) == seq(|entries|, i requires 0 <= i < |entries| => entries[i].json)
    ensures tool.FilterTool? && (forall i :: 0 <= i < |entries| ==> Accept(tool, args, entries[i])) && !args.dryRun ==>
      Emitted(tool, args, entries) == seq(|entries|, i requires 0 <= i < |entries| => entries[i].json)
    ensures tool.FilterTool? && (forall i :: 0 <= i < |entries| ==> !Accept(tool, args, entries[i])) ==>
      Emitted(tool, args, entries) == []
    decreases |entries|
  {
    if |entries| > 0 {
      EmittedCases(tool, args, entries[1..]);
      var all := seq(|entries|, i requires 0 <= i < |entries| => entries[i].json);
      assert all == [entries[0].json] + seq(|entries| - 1, i requires 0 <= i < |entries| - 1 => entries[1..][i].json);
    }
  }

  /** `text` is the text of a record the filter tool accepts. */
  ghost predicate IsAcceptedText(args: Args, entries: seq<Entry>, text: string) {
    exists i :: 0 <= i < |entries| && Accept(FilterTool, args, entries[i]) && entries[i].json == text
  }

  /** Every text in `out` is that of an accepted record. */
  ghost predicate FromAccepted(args: Args, entries: seq<Entry>, out: seq<string>) {
    forall j :: 0 <= j < |out| ==> IsAcceptedText(args, entries, out[j])
  }

  /**
   * The filter tool writes as many records as it accepts (all of them
   * under `--dry-run`'s absence), and each text it writes is that of an
   * accepted record.
   */
  lemma {:induction false} FilterToolEmitsAccepted(args: Args, entries: seq<Entry>)
    requires !args.dryRun
    ensures |Emitted(FilterTool, args, entries)| == Accepted(Verdicts(FilterTool, args, entries))
    ensures FromAccepted(args, entries, Emitted(FilterTool, args, entries))
    decreases |entries|
  {
    if |entries| > 0 {
      var rest := entries[1..];
      FilterToolEmitsAccepted(args, rest);
      assert Verdicts(FilterTool, args, entries)[1..] == Verdicts(FilterTool, args, rest);
      var out := Emitted(FilterTool, args, entries);
      var tail := Emitted(FilterTool, args, rest);
      var head := if Emits(FilterTool, args, entries[0]) then [entries[0].json] else [];
      assert out == head + tail;
      forall j | 0 <= j < |out|
        ensures IsAcceptedText(args, entries, out[j])
      {
        if j < |head| {
          assert Accept(FilterTool, args, entries[0]) && entries[0].json == out[j];
        } else {
          assert out[j] == tail[j - |head|];
          assert IsAcceptedText(args, rest, tail[j - |head|]);
          var i :| 0 <= i < |rest| && Accept(FilterTool, args, rest[i]) && rest[i].json == tail[j - |head|];
          assert entries[i + 1] == rest[i];
        }
      }
    }
  }

  /** `validate` runs the callback on exactly the records up to the first one that stops. */
  lemma {:induction false} ValidateTaken(tool: Tool, args: Args, s: State, entries: seq<Entry>)
    requires !s.stopped
    ensures var t := Taken(tool, args, entries);
      Validate(tool, args, s, entries) == Validate(tool, args, s, t)
      && (Validate(tool, args, s, entries).stopped <==> exists i :: 0 <= i < |entries| && Stops(tool, args, entries[i]))
    decreases |entries|
  {
    if |entries| > 0 {
      var q := OnEntry(tool, args, s, entries[0]);
      var t := Taken(tool, args, entries);
      if q.stopped {
        assert t == [entries[0]];
        assert t[1..] == [];
      } else {
        ValidateTaken(tool, args, q, entries[1..]);
        assert t[1..] == Taken(tool, args, entries[1..]);
        if exists i :: 0 <= i < |entries| - 1 && Stops(tool, args, entries[1..][i]) {
          var i :| 0 <= i < |entries| - 1 && Stops(tool, args, entries[1..][i]);
          assert entries[i + 1] == entries[1..][i];
        }
        if exists i :: 0 <= i < |entries| && Stops(tool, args, entries[i]) {
          var i :| 0 <= i < |entries| && Stops(tool, args, entries[i]);
          assert entries[1..][i - 1] == entries[i];
        }
      }
    }
  }

  /**
   * Running the callback on records that do not stop counts every one of
   * them and moves `valid` and `invalid` by the accepted and rejected ones,
   * so the total stays their sum.
   */
  lemma {:induction false} ValidateCounts(tool: Tool, args: Args, s: State, entries: seq<Entry>)
    requires !s.stopped
    requires forall i :: 0 <= i < |entries| - 1 ==> !Stops(tool, args, entries[i])
    ensures var k := Accepted(Verdicts(tool, args, entries));
      Validate(tool, args, s, entries).counters == Counters(s.counters.total + |entries|, s.counters.valid + k, s.counters.invalid + (|entries| - k))
    decreases |entries|
  {
    if |entries| > 0 {
      var q := OnEntry(tool, args, s, entries[0]);
      var rest := entries[1..];
      assert Verdicts(tool, args, entries)[1..] == Verdicts(tool, args, rest);
      if |rest| > 0 {
        ValidateCounts(tool, args, q, rest);
      } else {
        assert Verdicts(tool, args, rest) == [];
      }
    }
  }

  /** Running the callback on records that do not stop writes what they emit, in order. */
  lemma {:induction false} ValidateOutput(tool: Tool, args: Args, s: State, entries: seq<Entry>)
    requires !s.stopped
    requires forall i :: 0 <= i < |entries| - 1 ==> !Stops(tool, args, entries[i])
    ensures Validate(tool, args, s, entries).output == OutputAll(s.output, Emitted(tool, args, entries))
    decreases |entries|
  {
    if |entries| > 0 {
      var e := entries[0];
      var q := OnEntry(tool, args, s, e);
      var rest := entries[1..];
      if |rest| > 0 {
        ValidateOutput(tool, args, q, rest);
      } else {
        assert Emitted(tool, args, rest) == [];
      }
      if Emits(tool, args, e) {
        assert Emitted(tool, args, entries) == [e.json] + Emitted(tool, args, rest);
        OutputAllCons(s.output, e.json, Emitted(tool, args, rest));
      } else {
        assert Emitted(tool, args, entries) == Emitted(tool, args, rest);
      }
    }
  }

  /** `process.exitCode` after completion: 65 when `--fail` is given and some record was rejected. */
  function CompletionCode(args: Args, c: Counters, exitCode: Option<int>): (code: Option<int>)
    ensures args.fail && c.invalid > 0 ==> code == Some(ExDataErr)
    ensures !(args.fail && c.invalid > 0) ==> code == exitCode
  {
    if args.fail && c.invalid > 0 then Some(ExDataErr) else exitCode
  }

  /** The scan tool's results: its `progress` object, in property order. */
  function ScanResults(c: Counters): (e: Entries<JsValue>)
    ensures Keys(e) == ["scannedEntriesCount", "invalidEntriesCount", "validEntriesCount"]
    ensures Values(e) == [Num(c.total), Num(c.invalid), Num(c.valid)]
  {
    var e := [("scannedEntriesCount", Num(c.total)), ("invalidEntriesCount", Num(c.invalid)), ("validEntriesCount", Num(c.valid))];
    assert Keys(e)[0] == "scannedEntriesCount" && Keys(e)[1] == "invalidEntriesCount" && Keys(e)[2] == "validEntriesCount";
    assert Values(e)[0] == Num(c.total) && Values(e)[1] == Num(c.invalid) && Values(e)[2] == Num(c.valid);
    e
  }

  /**
   * `validate` resolved: the filter tools close the array; the scan tool
   * writes its results under `--results`, indented by `parseInt(indent)`
   * spaces when `indent` is truthy.
   */
  function Complete(tool: Tool, args: Args, s: State, exitCode: Option<int>): (x: Exit)
    ensures x.code == CompletionCode(args, s.counters, exitCode)
    ensures !tool.ValidatorScan? ==> x.stdout == Close(s.output) && x.results.None?
    ensures tool.ValidatorScan? ==> x.stdout == s.output.text
    ensures x.results.Some? <==> tool.ValidatorScan? && args.results
    ensures x.results.Some? ==> x.results.value == ScanResults(s.counters) && x.space == Space(args.indent)
  {
    var code := CompletionCode(args, s.counters, exitCode);
    if tool.ValidatorScan? then
      if args.results then Exit(s.output.text, Some(ScanResults(s.counters)), Space(args.indent), code)
      else Exit(s.output.text, None, None, code)
    else Exit(Close(s.output), None, None, code)
  }

  /** `validate` rejected: the filter tools close the array, and the process exits with 70. */
  function Abort(tool: Tool, s: State): (x: Exit)
    ensures x.code == Some(ExSoftware) && x.results.None?
    ensures x.stdout == if tool.ValidatorScan? then s.output.text else Close(s.output)
  {
    Exit(if tool.ValidatorScan? then s.output.text else Close(s.output), None, None, Some(ExSoftware))
  }

  /**
   * The scan tool's completion as the code reads: the results are written
   * first, then under `--fail` the check reads `results`, a name the handler
   * never declares, so the handler throws and its `catch` exits with 70
   * whatever the counters say.
   */
  function ScanCompleteAsWritten(args: Args, s: State, exitCode: Option<int>): (x: Exit)
    ensures x.stdout == s.output.text
    ensures x.results.Some? <==> args.results
    ensures x.results.Some? ==> x.results.value == ScanResults(s.counters) && x.space == Space(args.indent)
    ensures args.fail ==> x.code == Some(ExSoftware)
    ensures !args.fail ==> x.code == exitCode
  {
    var code := if args.fail then Some(ExSoftware) else exitCode;
    if args.results then Exit(s.output.text, Some(ScanResults(s.counters)), Space(args.indent), code)
    else Exit(s.output.text, None, None, code)
  }

  /**
   * A `--fail` scan in which every record was accepted: as written the
   * process exits with 70, as intended it exits normally; with a rejected
   * record the intended code is 65, not 70.
   */
  lemma ScanFailAsWrittenDiffers(args: Args, s: State)
    requires args.fail
    ensures ExitStatus(ScanCompleteAsWritten(args, s, None).code) == ExSoftware
    ensures s.counters.invalid == 0 ==> ExitStatus(Complete(ValidatorScan, args, s, None).code) == 0
    ensures s.counters.invalid > 0 ==> ExitStatus(Complete(ValidatorScan, args, s, None).code) == ExDataErr
  {
  }

  /** A whole run of a tool: `validate` over the records, then its promise resolves or rejects. */
  function RunTool(tool: Tool, args: Args, entries: seq<Entry>, rejected: bool, exitCode: Option<int>): Exit {
    var s := Validate(tool, args, Initial(tool), entries);
    if rejected then Abort(tool, s) else Complete(tool, args, s, exitCode)
  }

  /**
   * From the handler's initial state, `validate` leaves the counters at the
   * number of records up to the first stop, and the accepted and rejected
   * ones among them, and has written what those records emit.
   */
  lemma ValidateFromInitial(tool: Tool, args: Args, entries: seq<Entry>)
    ensures var t := Taken(tool, args, entries);
      var k := Accepted(Verdicts(tool, args, t));
      var s := Validate(tool, args, Initial(tool), entries);
      && s.counters == Counters(|t|, k, |t| - k)
      && s.output == OutputAll(Initial(tool).output, Emitted(tool, args, t))
  {
    var t := Taken(tool, args, entries);
    var s0 := Initial(tool);
    ValidateTaken(tool, args, s0, entries);
    ValidateCounts(tool, args, s0, t);
    ValidateOutput(tool, args, s0, t);
  }

  /**
   * A filter tool's run: standard output is the JSON array of what the
   * records up to the first stop emit, `[]` and a newline when none, closed
   * on both paths; the exit code is 70 on rejection, otherwise 65 iff
   * `--fail` is given and one of those records was rejected.
   */
  lemma FilterToolRun(tool: Tool, args: Args, entries: seq<Entry>, rejected: bool, exitCode: Option<int>)
    requires !tool.ValidatorScan?
    ensures var t := Taken(tool, args, entries);
      var x := RunTool(tool, args, entries, rejected, exitCode);
      && x.stdout == "[" + Join(",", Emitted(tool, args, t)) + "]\n"
      && x.code == if rejected then Some(ExSoftware)
                   else if args.fail && Accepted(Verdicts(tool, args, t)) < |t| then Some(ExDataErr)
                   else exitCode
  {
    ValidateFromInitial(tool, args, entries);
    Framed(Emitted(tool, args, Taken(tool, args, entries)));
  }

  /**
   * The scan tool's run: under `--results` it reports the records up to
   * the first stop, the accepted and the rejected ones among them.
   */
  lemma ScanToolRun(args: Args, entries: seq<Entry>, exitCode: Option<int>)
    requires args.results
    ensures var t := Taken(ValidatorScan, args, entries);
      var k := Accepted(Verdicts(ValidatorScan, args, t));
      RunTool(ValidatorScan, args, entries, false, exitCode).results == Some(ScanResults(Counters(|t|, k, |t| - k)))
  {
    ValidateFromInitial(ValidatorScan, args, entries);
  }

  /**
   * With `--stop` and `--fail` refused together, a filtering run under
   * `--stop` never sets 65: it keeps the exit code and writes what the
   * records up to the first rejected one emit.
   */
  lemma FilterStopKeepsCode(tool: Tool, args: Args, entries: seq<Entry>, exitCode: Option<int>)
    requires !tool.ValidatorScan? && ArgsAccepted(tool, args) && args.stop
    ensures var x := RunTool(tool, args, entries, false, exitCode);
      && x.code == exitCode
      && x.stdout == "[" + Join(",", Emitted(tool, args, Taken(tool, args, entries))) + "]\n"
  {
    FilterToolRun(tool, args, entries, false, exitCode);
  }

  /**
   * Under `--fail` (and so without `--stop`) the first invalid record stops
   * the validator filter's `validate`, and the run exits with 65.
   */
  lemma ValidatorFilterFailExits(args: Args, entries: seq<Entry>, exitCode: Option<int>)
    requires ArgsAccepted(ValidatorFilter, args) && args.fail
    requires exists i :: 0 <= i < |entries| && !entries[i].valid
    ensures RunTool(ValidatorFilter, args, entries, false, exitCode).code == Some(ExDataErr)
  {
    StopTakesInvalid(args, entries);
    FilterToolRun(ValidatorFilter, args, entries, false, exitCode);
  }

  /**
   * Under `--fail` or `--stop` the validator filter reaches an invalid
   * record, so fewer records are accepted than taken.
   */
  lemma StopTakesInvalid(args: Args, entries: seq<Entry>)
    requires args.stop || args.fail
    requires exists i :: 0 <= i < |entries| && !entries[i].valid
    ensures Accepted(Verdicts(ValidatorFilter, args, Taken(ValidatorFilter, args, entries))) < |Taken(ValidatorFilter, args, entries)|
  {
    var t := Taken(ValidatorFilter, args, entries);
    var vs := Verdicts(ValidatorFilter, args, t);
    var k: nat;
    if |t| < |entries| {
      k := |t| - 1;
      assert Stops(ValidatorFilter, args, t[k]);
    } else {
      var i :| 0 <= i < |entries| && !entries[i].valid;
      assert t[i] == entries[i];
      k := i;
    }
    assert k < |vs| && !vs[k];
  }

  /** The lines `printProgress` writes to standard error, each after clearing the line. */
  function ProgressLines(tool: Tool, c: Counters): (out: seq<Out>)
    ensures |out| == 3
    ensures out[1] == Write(Line("\U{2713} valid: " + NatToString(c.valid)))
    ensures out[2] == Write(Line("\U{2717} invalid: " + NatToString(c.invalid)))
  {
    [Write(Line("? " + (if tool.ValidatorScan? then "scanned" else "filtered") + ": " + NatToString(c.total))),
     Write(Line("\U{2713} valid: " + NatToString(c.valid))),
     Write(Line("\U{2717} invalid: " + NatToString(c.invalid)))]
  }

  /** The progress display is faithful: the three lines determine the three counters. */
  lemma ProgressLinesFaithful(tool: Tool, c: Counters, d: Counters)
    requires ProgressLines(tool, c) == ProgressLines(tool, d)
    ensures c == d
  {
    var name := if tool.ValidatorScan? then "scanned" else "filtered";
    assert ProgressLines(tool, c)[0] == ProgressLines(tool, d)[0];
    LabelledLineInjective("? " + name + ": ", c.total, d.total);
    LabelledLineInjective("\U{2713} valid: ", c.valid, d.valid);
    LabelledLineInjective("\U{2717} invalid: ", c.invalid, d.invalid);
  }

  /** The final `updateProgress`: back three lines and print again, only under `--progress`. */
  function FinalProgress(tool: Tool, args: Args, c: Counters): (out: seq<Out>)
    ensures !args.progress <==> out == []
    ensures args.progress ==> out[0] == Rewind(|ProgressLines(tool, c)|) && out[1..] == ProgressLines(tool, c)
  {
    if args.progress then [Rewind(3)] + ProgressLines(tool, c) else []
  }

  /** The final progress update shows the final counters: different counters give a different display. */
  lemma FinalProgressShowsCounters(tool: Tool, args: Args, c: Counters, d: Counters)
    requires args.progress && FinalProgress(tool, args, c) == FinalProgress(tool, args, d)
    ensures c == d
  {
    assert FinalProgress(tool, args, c)[1..] == FinalProgress(tool, args, d)[1..];
    ProgressLinesFaithful(tool, c, d);
  }
}

=== FILE: validation.dfy ===
/**
 * The per-record decision shared by the filter and scan commands and tools:
 * the schema verdict, optionally inverted, and the counters kept as
 * properties of the progress meter.
 */
module Validation {
  import opened Wrappers
  import opened JsValues
  import opened JsObjects
  import opened ProgressMeter

  /** `result = validator(data); if (invert) result = !result`. */
  function Verdict(valid: bool, invert: bool): (accepted: bool)
    ensures !invert ==> accepted == valid
    ensures invert ==> accepted == !valid
  {
    if invert then !valid else valid
  }

  /** Inverting twice gives back the schema's answer. */
  lemma VerdictInvolution(valid: bool, invert: bool)
    ensures Verdict(Verdict(valid, invert), invert) == valid
  {
  }

  /** The meter holds the numbers `t`, `v` and `i` under `total`, `valid` and `invalid`. */
  predicate HasCounters(p: Progress, total: string, t: int, v: int, i: int) {
    && Get(p.props, total) == Some(Num(t))
    && Get(p.props, "valid") == Some(Num(v))
    && Get(p.props, "invalid") == Some(Num(i))
  }

  predicate IsTotalName(total: string) {
    |total| > 0 && (total[0] == 'f' || total[0] == 's') && (total == "filtered" || total == "scanned")
  }

  /** One record counted: `progress[total] += 1`, then `valid` or `invalid` goes up by one. */
  function Count(p: Progress, total: string, accepted: bool): (q: Progress)
    ensures q.timer == p.timer
  {
    Bump(Bump(p, total), if accepted then "valid" else "invalid")
  }

  /** Counting under a counter name keeps the meter well formed. */
  lemma CountValid(p: Progress, total: string, accepted: bool)
    requires Valid(p) && IsTotalName(total)
    ensures Valid(Count(p, total, accepted))
  {
    var key := if accepted then "valid" else "invalid";
    var cur := Get(p.props, total).GetOr(Undefined);
    SetPropValid(p, total, Increment(cur));
    var q := Bump(p, total);
    assert !IsInternalKey(key) by {
      assert key[0] != '_';
    }
    SetPropValid(q, key, Increment(Get(q.props, key).GetOr(Undefined)));
  }

  /** Counting adds one to the total and to exactly one of `valid` and `invalid`. */
  lemma CountCounters(p: Progress, total: string, accepted: bool, t: int, v: int, i: int)
    requires IsTotalName(total) && HasCounters(p, total, t, v, i)
    ensures HasCounters(Count(p, total, accepted), total, t + 1, if accepted then v + 1 else v, if accepted then i else i + 1)
  {
    var q := Bump(p, total);
    assert total != "valid" && total != "invalid" by {
      assert "valid"[0] == 'v' && "invalid"[0] == 'i';
      assert total[0] == 'f' || total[0] == 's';
    }
    assert Get(q.props, total) == Some(Num(t + 1));
    assert Get(q.props, "valid") == Some(Num(v));
    assert Get(q.props, "invalid") == Some(Num(i));
    assert "valid" != "invalid" by {
      assert "valid"[0] != "invalid"[0];
    }
    var key := if accepted then "valid" else "invalid";
    var c := Bump(q, key);
    assert c == Count(p, total, accepted);
    assert Get(c.props, key) == Some(Num(if accepted then v + 1 else i + 1));
  }

  /** Sets each named counter to 0, in order. */
  function ResetCounters(p: Progress, keys: seq<string>): (q: Progress)
    requires forall i :: 0 <= i < |keys| ==> !IsInternalKey(keys[i])
    ensures forall i :: 0 <= i < |keys| ==> Get(q.props, keys[i]) == Some(Num(0))
    ensures forall k :: k !in keys ==> Get(q.props, k) == Get(p.props, k)
    ensures q.timer == p.timer
    decreases |keys|
  {
    if |keys| == 0 then p
    else
      var last := keys[|keys| - 1];
      var init := keys[..|keys| - 1];
      var r := ResetCounters(p, init);
      var q := SetProp(r, last, Num(0));
      assert forall i :: 0 <= i < |keys| ==> Get(q.props, keys[i]) == Some(Num(0)) by {
        forall i | 0 <= i < |keys|
          ensures Get(q.props, keys[i]) == Some(Num(0))
        {
          if i < |keys| - 1 {
            assert keys[i] == init[i];
          }
        }
      }
      q
  }

  /** Resetting counters keeps the meter well formed. */
  lemma {:induction false} ResetCountersValid(p: Progress, keys: seq<string>)
    requires Valid(p)
    requires forall i :: 0 <= i < |keys| ==> !IsInternalKey(keys[i])
    ensures Valid(ResetCounters(p, keys))
    decreases |keys|
  {
    if |keys| > 0 {
      var init := keys[..|keys| - 1];
      ResetCountersValid(p, init);
      SetPropValid(ResetCounters(p, init), keys[|keys| - 1], Num(0));
    }
  }

  /** The number of accepted verdicts. */
  function Accepted(verdicts: seq<bool>): (n: nat)
    ensures n <= |verdicts|
    ensures n < |verdicts| <==> exists i :: 0 <= i < |verdicts| && !verdicts[i]
  {
    if |verdicts| == 0 then 0 else (if verdicts[0] then 1 else 0) + Accepted(verdicts[1..])
  }

  /** The counting step of a command whose total counter is `total`. */
  function Counter(total: string): (Progress, bool) -> Progress {
    (p: Progress, accepted: bool) => Count(p, total, accepted)
  }

  /** The meter after a sequence of verdicts, each applied by `step`. */
  function CountAll(step: (Progress, bool) -> Progress, p: Progress, verdicts: seq<bool>): Progress
    decreases |verdicts|
  {
    if |verdicts| == 0 then p else CountAll(step, step(p, verdicts[0]), verdicts[1..])
  }

  /** A step that counts one verdict under `total`, `valid` and `invalid`. */
  ghost predicate KeepsCounters(step: (Progress, bool) -> Progress, total: string) {
    forall p, accepted, t, v, i :: HasCounters(p, total, t, v, i) ==>
      HasCounters(step(p, accepted), total, t + 1, if accepted then v + 1 else v, if accepted then i else i + 1)
  }

  lemma CounterKeepsCounters(total: string)
    requires IsTotalName(total)
    ensures KeepsCounters(Counter(total), total)
  {
    forall p, accepted, t, v, i | HasCounters(p, total, t, v, i)
      ensures HasCounters(Counter(total)(p, accepted), total, t + 1, if accepted then v + 1 else v, if accepted then i else i + 1)
    {
      CountCounters(p, total, accepted, t, v, i);
    }
  }

  /**
   * Counting a sequence of verdicts adds their number to the total, the
   * accepted ones to `valid` and the rejected ones to `invalid`.
   */
  lemma {:induction false} CountAllCounters(step: (Progress, bool) -> Progress, total: string, p: Progress, verdicts: seq<bool>, t: int, v: int, i: int)
    requires KeepsCounters(step, total)
    requires HasCounters(p, total, t, v, i)
    ensures HasCounters(CountAll(step, p, verdicts), total, t + |verdicts|, v + Accepted(verdicts), i + (|verdicts| - Accepted(verdicts)))
    decreases |verdicts|
  {
    if |verdicts| > 0 {
      var accepted := verdicts[0];
      CountAllCounters(step, total, step(p, accepted), verdicts[1..], t + 1, if accepted then v + 1 else v, if accepted then i else i + 1);
    }
  }

  /** A command's counting step applied to a sequence of verdicts. */
  lemma CounterCountsAll(total: string, p: Progress, verdicts: seq<bool>, t: int, v: int, i: int)
    requires IsTotalName(total) && HasCounters(p, total, t, v, i)
    ensures HasCounters(CountAll(Counter(total), p, verdicts), total, t + |verdicts|, v + Accepted(verdicts), i + (|verdicts| - Accepted(verdicts)))
  {
    CounterKeepsCounters(total);
    CountAllCounters(Counter(total), total, p, verdicts, t, v, i);
  }
}

=== FILE: wrappers.dfy ===
/** Option and Result wrappers shared by every module of the model. */
module Wrappers {

  /** A value that may be absent (JavaScript `undefined`/`null` where a field is optional). */
  datatype Option<+T> = None | Some(value: T) {

    /** Returns the wrapped value, or `default` when absent. */
    function GetOr(default: T): T {
      match this
      case Some(v) => v
      case None => default
    }
  }

  /** The outcome of an operation that either returns a value or throws an error message. */
  datatype Result<+T> = Ok(value: T) | Err(message: string) {

    predicate IsFailure() {
      Err?
    }

    function PropagateFailure<U>(): Result<U>
      requires Err?
    {
      Err(message)
    }

    function Extract(): T
      requires Ok?
    {
      value
    }
  }
}
